=== FILE: README.md ===
# ai-cyberpunk-blog in Dafny

A model of the state logic behind the ai-cyberpunk-blog site, with proofs.
The site is a Next.js blog with an AI editor. The model covers:

- the **AI editor**: its canvas of content cards, the per-card image tool
  (scene analysis, scene and cover generation, SAVE), the article
  compositor behind "preview and publish", and the conversation history;
- the **admin page**: editor toolbar, booking time, tags, storage caps,
  scheduling, status toggle, save and delete;
- the **blog listing** and `blogData` helpers;
- the **style library** and its modal;
- the **image gallery**: the in-memory cache, the IndexedDB query and
  statistics helpers, and the gallery modal;
- the four **API routes**: chat, analyze-image, analyze-style and
  analyze-article;
- the **admin sign-in**;
- the **task queue** of the Copilot-SDK multi-agent factory examples, in
  both the TypeScript and the Python version.

Every handler in these files is a copy-on-write update of plain records, so
each becomes a pure function over sequences of datatypes. Whatever the
source takes from outside is a parameter:

- the clock (`now`, milliseconds since the epoch);
- generated and random ids;
- what storage reads give back and whether a write fails;
- the language model's answers;
- `JSON.parse`, given as a partial function `string -> Option<…>`.

JavaScript semantics are written out where they matter:

- truthiness (`Wrappers.Truthy`, `OrString`);
- `undefined` against `null` against `[]` (`Option` fields);
- `findIndex` giving -1 (`Seqs.FindIndex` returning `Option`);
- `slice(0, n)` and `slice(-n)` (`Seqs.First`, `Seqs.Last`);
- the stable `sort` by a key, newest first (`Seqs.SortDesc`);
- a global regex `replace` as a left-to-right scanner (`Text.ReplaceAll`).

Files:

| file | module | what it holds |
|---|---|---|
| wrappers.dfy | Wrappers | `Option`, `Result`, storage write outcome, JS `x \|\| d` |
| text.dfy | Text | substring search, ASCII lower case and trim, decimal numbers, join/split, scanning replace |
| seqs.dfy | Seqs | filter, count, find, slices, stable descending sort, subsequences |
| canvas.dfy | Canvas | the AI editor's cards and their operations |
| imagetool.dfy | ImageTool | the image-tool modal state and SAVE |
| compositor.dfy | Compositor | `handlePreviewPublish` |
| history.dfy | History | conversation history sessions |
| admin.dfy | Admin | the article administration page |
| blog.dfy | Blog | `blogData.js` and the public listing |
| styles.dfy | Styles | `styleLibrary.js` and `StyleLibraryModal.jsx` |
| gallery.dfy | GalleryDb, Gallery, GalleryModal | `imageGalleryDB.js`, `imageGallery.js`, `ImageGalleryModal.jsx` |
| api.dfy | Reply, ChatRoute, ImageRoute, StyleRoute, ArticleRoute | the API routes |
| auth.dfy | Auth | `AuthContext.js` |
| tasks.dfy | Tasks | the multi-agent factory's task tools |

Where the site's stated intent and its code disagree, the model follows
the code:

- **Broken scene anchor.** An anchored image whose passage is no longer in
  the card's text is dropped from the published article. It is not moved
  to the end of the card (src/app/admin/blog/ai-editor/page.jsx:966;
  `Compositor.BrokenAnchorDropped`).
- **Anchors rebuild the text only conditionally.** Splicing anchored
  images back puts each one after its own passage only when every passage
  first occurs in its own place (src/app/admin/blog/ai-editor/page.jsx:959-973;
  `Compositor.AnchorsReconstruct`).
  `Compositor.AmbiguousAnchorMisplaced` shows the text "abb" where this
  fails.
- **SAVE and the cover.** SAVE writes the cover only to the card's
  primary `image`, not into `images`. The button label counts it
  separately (src/app/admin/blog/ai-editor/page.jsx:2408-2420, 2438).
- **Switching style.** Switching the global style discards the scenes and
  the cover only when there are scenes
  (src/app/admin/blog/ai-editor/page.jsx:1898-1906).
- **analyze-image's default style.** The default `童話插畫` applies only
  when `style` is absent. An empty string is kept
  (src/app/api/analyze-image/route.js:84).
- **Task ids in TypeScript.** Ids are built from `Date.now()` and a random
  suffix (examples/copilot-sdk/multi-agent-factory.ts:57), so they are not
  provably distinct. `Tasks.ClaimThenComplete`
  therefore assumes distinct ids. The Python numbering gives distinct ids
  (`Tasks.NumberedDistinct`).

## Model

| member | source | states |
|---|---|---|
| Canvas.IndexOf | src/app/admin/blog/ai-editor/page.jsx:312 | `findIndex` by id: the index found holds the first card with the id; none when no card has it |
| Canvas.Pin | src/app/admin/blog/ai-editor/page.jsx:264-275 | the message text becomes one new image-less card at the end; earlier cards are untouched |
| Canvas.AddEmpty | src/app/admin/blog/ai-editor/page.jsx:337-349 | one empty card is appended and its id is the one opened for editing |
| Canvas.Delete | src/app/admin/blog/ai-editor/page.jsx:286-289 | exactly the cards with another id survive, in their order and as often as they occurred |
| Canvas.SaveEdit | src/app/admin/blog/ai-editor/page.jsx:298-307 | only the card being edited takes the new text; with nothing being edited no card changes |
| Canvas.Move | src/app/admin/blog/ai-editor/page.jsx:310-321 | the move keeps the canvas length and its multiset of cards |
| Canvas.MoveSpec | src/app/admin/blog/ai-editor/page.jsx:310-321 | moving the first card up or the last down changes nothing; any other move swaps exactly the card and its neighbour |
| Canvas.MoveBoundaries | src/app/admin/blog/ai-editor/page.jsx:310-321 | the first card cannot go up and the last cannot go down |
| Canvas.MoveUpDown | src/app/admin/blog/ai-editor/page.jsx:310-321 | with distinct ids, up then down restores the canvas |
| Canvas.Drop | src/app/admin/blog/ai-editor/page.jsx:764-783 | a drop permutes the canvas |
| Canvas.DropSpec | src/app/admin/blog/ai-editor/page.jsx:764-783 | the dragged card lands at the target's original index and the other cards keep their relative order; with nothing dragged, a drop on itself or a missing id the canvas is unchanged |
| Canvas.Duplicate | src/app/admin/blog/ai-editor/page.jsx:324-334 | the canvas grows by one: the copy sits right after the source card, or at the front when the source is missing |
| Canvas.DuplicateSpec | src/app/admin/blog/ai-editor/page.jsx:324-334 | the copy carries the source's content, images and cached analysis under a fresh id, and taking it out gives back the canvas |
| Canvas.WithImage | src/app/admin/blog/ai-editor/page.jsx:658-669 | the new image is appended after the existing ones; the legacy `image` stays when set and takes the new one otherwise |
| Canvas.WithImagePromotesLegacy | src/app/admin/blog/ai-editor/page.jsx:685-699 | a card that had only a legacy image keeps it as first attachment, in front of the new one |
| Canvas.AppendImage | src/app/admin/blog/ai-editor/page.jsx:682-720 | only cards with the id receive the image |
| Canvas.AppendImageAt | src/app/admin/blog/ai-editor/page.jsx:856-868 | only the card at that position receives the image |
| Canvas.WithoutImage | src/app/admin/blog/ai-editor/page.jsx:722-734 | exactly the attachment at the index is deleted; `image` and `imagePrompt` follow the new first attachment, or are cleared |
| Canvas.RemoveImage | src/app/admin/blog/ai-editor/page.jsx:722-734 | other cards are untouched |
| Canvas.RemoveUndoesAppend | src/app/admin/blog/ai-editor/page.jsx:722-734 | removing the image just appended restores the attachment list |
| ImageTool.Open | src/app/admin/blog/ai-editor/page.jsx:352-370 | reopening a card with cached scenes restores its scenes and cover; otherwise the tool starts blank |
| ImageTool.ApplyAnalysis | src/app/admin/blog/ai-editor/page.jsx:471-531 | an error leaves the analysis cleared; scenes become fresh scene records numbered by position; a reply without scenes clears the scenes and cover and keeps the legacy suggestion, whose extracted options are offered with the first one's prompt selected; with no suggestion at all the options stay empty and the prompt is kept |
| ImageTool.UpdateAt | src/app/admin/blog/ai-editor/page.jsx:536-538 | only the scene at the index changes |
| ImageTool.StartScene | src/app/admin/blog/ai-editor/page.jsx:534-538 | only the chosen scene starts showing progress |
| ImageTool.FinishScene | src/app/admin/blog/ai-editor/page.jsx:563-568 | the chosen scene shows the saved URL, else the generated one, stops generating and takes the prompt used; its siblings are unchanged |
| ImageTool.FailScene | src/app/admin/blog/ai-editor/page.jsx:569-575 | a failure only stops the chosen scene's progress |
| ImageTool.StartFailRestores | src/app/admin/blog/ai-editor/page.jsx:534-576 | a failed attempt on an idle scene leaves every scene as it was |
| ImageTool.StartFinishShowsImage | src/app/admin/blog/ai-editor/page.jsx:534-576 | a successful attempt shows an image on that scene exactly when a URL came back, and on no other scene anew |
| ImageTool.StartCover | src/app/admin/blog/ai-editor/page.jsx:579-582 | without a cover nothing happens; with one only its progress flag is set |
| ImageTool.FinishCover | src/app/admin/blog/ai-editor/page.jsx:605-611 | the cover shows the saved or generated URL and stops generating |
| ImageTool.FailCover | src/app/admin/blog/ai-editor/page.jsx:612-616 | a failure only stops the cover's progress |
| ImageTool.CoverStartFailRestores | src/app/admin/blog/ai-editor/page.jsx:579-617 | a failed cover attempt on an idle cover restores it |
| ImageTool.SwitchStyle | src/app/admin/blog/ai-editor/page.jsx:1898-1906 | a new style discards existing scenes and the cover with them; with no scenes the cover stays |
| ImageTool.SwitchStyleIdempotent | src/app/admin/blog/ai-editor/page.jsx:1898-1906 | switching twice is switching once |
| ImageTool.OptionImages | src/app/admin/blog/ai-editor/page.jsx:2391-2393 | exactly the options with an image contribute, in order, each with a URL |
| ImageTool.SceneImages | src/app/admin/blog/ai-editor/page.jsx:2397-2404 | exactly the generated scenes contribute, in order, each carrying its passage and scene index |
| ImageTool.GeneratedCount | src/app/admin/blog/ai-editor/page.jsx:2435-2439 | the collected images number what the SAVE label counts apart from the cover |
| ImageTool.CanCommitIffCount | src/app/admin/blog/ai-editor/page.jsx:2431-2439 | SAVE is enabled exactly when its label counts at least one image |
| ImageTool.CommitCard | src/app/admin/blog/ai-editor/page.jsx:2386-2430 | new attachments are the previous ones (legacy promoted), then the option images, then the scene images; the primary image is the cover, else the old image, else the first new one; the prompt is the card's own, else the first new image's, else empty; the analysis is cached |
| ImageTool.Commit | src/app/admin/blog/ai-editor/page.jsx:2386-2430 | only cards with the selected id change |
| ImageTool.CommitKeepsImages | src/app/admin/blog/ai-editor/page.jsx:2386-2430 | no previously shown image and no generated image is lost |
| ImageTool.CommitCoverWins | src/app/admin/blog/ai-editor/page.jsx:2386-2430 | a generated cover becomes the primary image whatever the card showed |
| ImageTool.CommitThenOpen | src/app/admin/blog/ai-editor/page.jsx:352-370 | reopening a committed card with scenes brings its analysis back |
| Compositor.InsertAfterFirst | src/app/admin/blog/ai-editor/page.jsx:968-971 | the insert goes right after the first occurrence of the passage; without one the text is unchanged |
| Compositor.InsertAfterFirstErase | src/app/admin/blog/ai-editor/page.jsx:968-971 | taking the insert out gives the text back |
| Compositor.SpliceScene | src/app/admin/blog/ai-editor/page.jsx:965-973 | an image whose passage is missing leaves the text unchanged |
| Compositor.ComposeCard | src/app/admin/blog/ai-editor/page.jsx:947-1006 | a card without images is its text |
| Compositor.LayoutIgnoredWithScenes | src/app/admin/blog/ai-editor/page.jsx:959-982 | once a card has an anchored image its layout does not matter |
| Compositor.LayoutKeepsText | src/app/admin/blog/ai-editor/page.jsx:983-1003 | without anchored images the text is kept whole, and the `full` layout appends the images after it |
| Compositor.OneAnchoredImage | src/app/admin/blog/ai-editor/page.jsx:965-973 | a single anchored image lands right after the first occurrence of its passage |
| Compositor.BrokenAnchorDropped | src/app/admin/blog/ai-editor/page.jsx:966 | an anchored image whose passage is missing is dropped, not appended |
| Compositor.AllAnchored | src/app/admin/blog/ai-editor/page.jsx:959-973 | with only anchored images, composing splices them highest scene index first |
| Compositor.AnchorsReconstruct | src/app/admin/blog/ai-editor/page.jsx:959-973 | when the text is its passages in order, each first occurring in its own place, every image ends right after its passage |
| Compositor.AmbiguousAnchorMisplaced | src/app/admin/blog/ai-editor/page.jsx:961-971 | in "abb" split as "ab" and "b", the second image lands inside the first passage |
| Compositor.ResolveImage | src/app/admin/blog/ai-editor/page.jsx:917-931 | an inline image takes the URL the gallery returned; anything else is unchanged |
| Compositor.ResolveCard | src/app/admin/blog/ai-editor/page.jsx:934-942 | the images are resolved one by one and the primary image follows the first of them |
| Compositor.CoverOf | src/app/admin/blog/ai-editor/page.jsx:1011-1014 | the cover comes from the first card with a picture: its image, else the URL of its first attachment, else (that URL empty) the placeholder; with no picture anywhere it is the placeholder |
| Compositor.CoverSkipsBareCards | src/app/admin/blog/ai-editor/page.jsx:1011-1014 | cards without a picture ahead of one with a picture do not change the cover, nor do the cards after it |
| Compositor.Excerpt | src/app/admin/blog/ai-editor/page.jsx:1018 | the excerpt is the first 100 characters with every `#`, `*` and `_` removed and the rest kept in order, followed by an ellipsis; it is at most 103 characters |
| Compositor.PlainExcerpt | src/app/admin/blog/ai-editor/page.jsx:1018 | text without markdown marks loses only what lies past its hundredth character |
| Compositor.ComposeCards | src/app/admin/blog/ai-editor/page.jsx:947-1007 | one composed text per card, in card order |
| Compositor.Compose | src/app/admin/blog/ai-editor/page.jsx:897-1025 | an empty canvas is refused; otherwise the content is the composed cards joined by the rule, with the chosen cover |
| Compositor.TextOnlyArticle | src/app/admin/blog/ai-editor/page.jsx:1008 | cards without images publish as their texts joined by `\n\n---\n\n` |
| Compositor.DataUriAt | src/app/admin/blog/ai-editor/page.jsx:1033 | a match covers at least `data:image/`, one media-type character, `;base64,` and one payload character, and stays inside the text |
| Compositor.StripDataUris | src/app/admin/blog/ai-editor/page.jsx:1033 | the text never grows, and it is unchanged exactly when it holds no inline base64 image |
| Compositor.OnQuotaExceeded | src/app/admin/blog/ai-editor/page.jsx:1031-1036 | the retry strips inline images, uses the placeholder cover and drops the AI-image flag; the title and excerpt are kept |
| Compositor.QuotaRetryKeepsPlainContent | src/app/admin/blog/ai-editor/page.jsx:1033-1034 | content without inline images survives the retry |
| History.Title | src/app/admin/blog/ai-editor/page.jsx:155-158 | the title is the first user message's first 50 characters and an ellipsis, or `新對話` when the user has not spoken |
| History.WithoutPictures | src/app/admin/blog/ai-editor/page.jsx:160-165 | a stored card keeps its text and id and has no pictures |
| History.StripCanvas | src/app/admin/blog/ai-editor/page.jsx:160-165 | every stored card is pictureless and matches its source card |
| History.SessionId | src/app/admin/blog/ai-editor/page.jsx:150 | the current id is kept; otherwise a new `session-` id |
| History.NewIdsDiffer | src/app/admin/blog/ai-editor/page.jsx:150 | sessions started at different times get different ids |
| History.Snapshot | src/app/admin/blog/ai-editor/page.jsx:150-177 | the session records the conversation and the pictureless canvas under its id |
| History.Upsert | src/app/admin/blog/ai-editor/page.jsx:180-190 | the list never exceeds twenty; an existing session is replaced in place, a new one goes first |
| History.UpsertKeepsSession | src/app/admin/blog/ai-editor/page.jsx:180-190 | the saved session is in the list when the list was within bound, and it is the only entry changed or added |
| History.UpsertKeepsIdsDistinct | src/app/admin/blog/ai-editor/page.jsx:180-190 | saving never creates two sessions with one id |
| History.UpsertIdempotent | src/app/admin/blog/ai-editor/page.jsx:180-190 | saving the same session twice is saving it once |
| History.TrimForQuota | src/app/admin/blog/ai-editor/page.jsx:199-207 | at most ten sessions survive, newest first, their canvas pictures dropped |
| History.TrimSnapshotsOnlyShortens | src/app/admin/blog/ai-editor/page.jsx:199-207 | for sessions saved by the editor, trimming only shortens the list |
| History.TrimIdempotent | src/app/admin/blog/ai-editor/page.jsx:199-207 | trimming twice is trimming once |
| History.Persist | src/app/admin/blog/ai-editor/page.jsx:192-214 | storage holds the list, or the trimmed list when full, or nothing when even that fails; another error leaves storage alone |
| History.Save | src/app/admin/blog/ai-editor/page.jsx:147-219 | nothing happens without messages; otherwise the editor keeps the session's id and its history holds the session |
| History.Load | src/app/admin/blog/ai-editor/page.jsx:222-234 | the session's conversation and canvas become current under its id |
| History.SaveThenLoad | src/app/admin/blog/ai-editor/page.jsx:147-234 | saving then opening the session gives back the conversation and the pictureless canvas |
| History.StartNew | src/app/admin/blog/ai-editor/page.jsx:237-247 | the conversation is saved first, then the editor is cleared |
| History.Delete | src/app/admin/blog/ai-editor/page.jsx:250-262 | exactly the sessions with another id stay, in order and as often as they occurred |
| History.DeleteUndoesNewSave | src/app/admin/blog/ai-editor/page.jsx:180-262 | deleting a newly saved session restores a list that was short enough not to be cut |
| Admin.ClockHour | src/app/admin/blog/page.jsx:46-47 | the shown hour is 1 to 12, and 0 shows as 12 |
| Admin.ClockHourRoundTrip | src/app/admin/blog/page.jsx:45-47 | the 12-hour clock and AM/PM give back the hour of the day; AM is shown exactly before noon |
| Admin.FormatBookingTime | src/app/admin/blog/page.jsx:38-49 | the label starts with the year and its fields sit at fixed places |
| Admin.BookingTimeReadBack | src/app/admin/blog/page.jsx:38-49 | the label reads back to month (from 1), day, AM/PM, hour of the day and minutes, each padded to two digits |
| Admin.Splice | src/app/admin/blog/page.jsx:300-329 | the selection is replaced by the insert; the text before and after it is kept |
| Admin.SpliceErase | src/app/admin/blog/page.jsx:300-329 | removing the insert again leaves the text with the selection deleted |
| Admin.InsertFormat | src/app/admin/blog/page.jsx:300-329 | a known format wraps the selection, or its placeholder when nothing is selected; an unknown one changes nothing |
| Admin.BoldKeepsSelection | src/app/admin/blog/page.jsx:300-329 | bold keeps the selected text between `**` marks |
| Admin.InsertImage | src/app/admin/blog/page.jsx:260-275 | the cover field takes the URL, or a markdown image replaces the content selection |
| Admin.YoutubeId | src/app/admin/blog/page.jsx:277-281 | the captured id counts exactly when it is 11 characters long |
| Admin.InsertYoutube | src/app/admin/blog/page.jsx:283-298 | a valid id puts the embed into the content and clears the URL field; otherwise nothing changes |
| Admin.ParseTags | src/app/admin/blog/page.jsx:376 | every tag is non-empty and trimmed |
| Admin.TagsRoundTrip | src/app/admin/blog/page.jsx:376 | tags shown joined by ", " parse back to the same list when each is a non-blank, trimmed, comma-free word |
| Admin.CapImage | src/app/admin/blog/page.jsx:150 | a cover over 50000 characters becomes the placeholder; shorter ones are kept |
| Admin.CapContent | src/app/admin/blog/page.jsx:151 | content is unchanged exactly when it has no inline image of 50000 characters or more; otherwise the first such image becomes the placeholder, the text before it is kept and scanning resumes after the image |
| Admin.CapSingleImage | src/app/admin/blog/page.jsx:151 | a single large inline image is replaced by the placeholder and the text around it is kept |
| Admin.CapArticle | src/app/admin/blog/page.jsx:148-152 | only the cover and the content are capped; the other fields are kept |
| Admin.SmallImageKept | src/app/admin/blog/page.jsx:150 | an image within the cap is stored as it is |
| Admin.CapImageIdempotent | src/app/admin/blog/page.jsx:150 | capping twice is capping once |
| Admin.SaveToStorage | src/app/admin/blog/page.jsx:146-163 | a successful write shows every article capped; a failed one keeps the list shown before |
| Admin.SaveImages | src/app/admin/blog/page.jsx:165-178 | at most the last ten uploads are kept; a full storage drops them all; another error changes nothing |
| Admin.CheckScheduled | src/app/admin/blog/page.jsx:113-136 | every due `booking` article is published now with its schedule cleared, the rest are unchanged; a list is written only when something was due |
| Admin.CheckScheduledSettles | src/app/admin/blog/page.jsx:113-136 | after one check nothing is due, so the next check at the same time writes nothing |
| Admin.ToggleStatus | src/app/admin/blog/page.jsx:410-436 | `published` becomes `draft` and anything else `published`; an existing publication time is kept, and unpublishing never touches it; the schedule is cleared; every other field, the legacy flag included, is kept |
| Admin.ToggleKeepsLegacyPublished | src/app/admin/blog/page.jsx:410-436 | a seeded article toggled twice reads `draft` yet the blog still shows it |
| Admin.ToggleStatusFixed | src/app/admin/blog/page.jsx:410-436 | the corrected toggle: the same status, times and schedule, with the legacy flag removed |
| Admin.ToggleStatusFixedDecides | src/data/blogData.js:389-394 | with the fix the blog shows an article exactly when the toggle made it `published` |
| Admin.ReplaceById | src/app/admin/blog/page.jsx:431-433 | only articles with the id change |
| Admin.ToggleInList | src/app/admin/blog/page.jsx:410-436 | the toggled article replaces every entry with its id |
| Admin.HandleSave | src/app/admin/blog/page.jsx:366-401 | an edited article keeps its id and creation time; it and a new one take the form's title, excerpt, category, cover, content, parsed tags and status, the save time and the date label; a new one goes first; the publication time is kept or set only when publishing; the schedule is kept only for `booking`; an edited article keeps its legacy `published` flag; other articles are untouched |
| Admin.SaveDraftKeepsLegacyPublished | src/app/admin/blog/page.jsx:366-401 | a seeded article saved as a draft reads `draft` yet the blog still shows it |
| Admin.HandleSaveFixed | src/app/admin/blog/page.jsx:366-401 | the corrected save: the same articles, with the legacy flag removed from the edited one |
| Admin.HandleSaveFixedDecides | src/data/blogData.js:389-394 | with the fix the blog shows a saved article exactly when the form's status is `published` |
| Admin.SaveEditIdempotent | src/app/admin/blog/page.jsx:366-401 | saving the same edit of the same article twice leaves what one save left |
| Admin.DeleteArticle | src/app/admin/blog/page.jsx:403-408 | exactly the articles with another id stay, in order and as often as they occurred |
| Blog.IsPublishedFormats | src/data/blogData.js:389-394 | a defined legacy flag alone decides; otherwise the status does |
| Blog.CategoryById | src/data/blogData.js:354-356 | the first category with the id, or none |
| Blog.KnownCategories | src/data/blogData.js:6-42 | exactly the five declared ids name a category |
| Blog.StoredArticles | src/data/blogData.js:368-383 | a non-empty stored list wins; on the server, with nothing stored, an empty list or unreadable text the seed is used |
| Blog.StoredNeverEmpty | src/data/blogData.js:368-383 | a non-empty seed always yields a non-empty list |
| Blog.ArticlesByCategory | src/data/blogData.js:338-341 | exactly the published articles of the category, in stored order |
| Blog.AllPublished | src/data/blogData.js:361-363 | exactly the published seeded articles, whatever is stored |
| Blog.ByCategoryWithinAll | src/data/blogData.js:338-363 | every category listing is a subsequence of the whole listing |
| Seqs.SortDescStable | src/app/blog/page.jsx:47 | sorting by a key, newest first, keeps the relative order of entries with equal keys, as `Array.prototype.sort` does |
| Blog.FilteredArticles | src/app/blog/page.jsx:31-48 | the listing holds exactly the shown articles (as a multiset), newest first, and articles with the same date keep their order |
| Blog.ListAll | src/app/blog/page.jsx:31-48 | the `all` tab with an empty query lists every article as often as it occurs |
| Blog.ListCategory | src/app/blog/page.jsx:33-36 | a chosen category never shows an article of another one |
| Blog.AcceptCategoryParam | src/app/blog/page.jsx:25-29 | a parameter selects the tab exactly when it names a known category |
| Styles.ByType | src/lib/styleLibrary.js:54-58 | exactly the styles of the type, in library order |
| Styles.ById | src/lib/styleLibrary.js:63-65 | the first style with the id, or none when there is none |
| Styles.Search | src/lib/styleLibrary.js:129-138 | exactly the styles whose name, description or a tag contains the term, ignoring case |
| Styles.SearchEmptyTerm | src/lib/styleLibrary.js:129-138 | the empty term finds every style |
| Styles.Save | src/lib/styleLibrary.js:72-89 | the new style goes first with the caller's fields over the defaults; at most fifty entries stay |
| Styles.SaveThenFind | src/lib/styleLibrary.js:63-89 | the style just saved is the one found under its id |
| Styles.SaveKeepsBound | src/lib/styleLibrary.js:86 | the library never grows past fifty |
| Styles.Merge | src/lib/styleLibrary.js:103-107 | every supplied field replaces the stored one and every absent field stays; the update time is now |
| Styles.Update | src/lib/styleLibrary.js:98-112 | only the first style with the id changes; an unknown id gives none |
| Styles.UpdateThenFind | src/lib/styleLibrary.js:63-112 | an update keeping the id is found again under it |
| Styles.Delete | src/lib/styleLibrary.js:118-122 | exactly the styles with another id stay, in order and as often as they occurred |
| Styles.DeleteUndoesSave | src/lib/styleLibrary.js:72-122 | a deleted new style is gone, and a library short of fifty without its id is restored |
| Styles.ToPrompt | src/lib/styleLibrary.js:145-151 | writing styles use the writing template, anything else the visual one: each opens with its introduction, embeds the analysis and ends with its closing sentence |
| Styles.Shown | src/components/StyleLibraryModal.jsx:52-62 | a search term wins, then the `all` tab, then the tab's type |
| Styles.SearchIgnoresTab | src/components/StyleLibraryModal.jsx:52-62 | with a search term the tab makes no difference |
| Styles.Validate | src/components/StyleLibraryModal.jsx:84-97 | a blank name, blank writing text or a missing picture is refused with its message; anything else passes |
| Styles.Record | src/components/StyleLibraryModal.jsx:116-126 | the record has the trimmed name, the trimmed description or else the summary, and the text or the picture |
| Styles.AnalyzeAndSave | src/components/StyleLibraryModal.jsx:84-141 | an invalid form or a failed analysis saves nothing; a success is exactly the library save of the record built from the form and the analysis, and resets the form |
| Styles.AnalyzedStyleStored | src/components/StyleLibraryModal.jsx:84-141 | a valid form whose analysis succeeds stores a style with the generated id, the serialized analysis and the save time, found by its id, within the library bound |
| Styles.RejectedBeforeRequest | src/components/StyleLibraryModal.jsx:84-97 | an invalid form's outcome does not depend on the analysis |
| Styles.AnalysisData | src/components/StyleLibraryModal.jsx:160-166 | a parsed analysis is shown; unparsable text becomes its summary |
| Styles.SavedAnalysisShown | src/components/StyleLibraryModal.jsx:116-166 | a saved analysis is shown again when parsing undoes its serialisation |
| GalleryDb.WithDefaults | src/lib/imageGalleryDB.js:119-126 | not favourite, no tags, category `other`, unless the caller supplies them |
| GalleryDb.Save | src/lib/imageGalleryDB.js:116-149 | the stored image has an `img-` id and the caller's data and goes in at its key's place, so the store stays in key order; an id already stored is refused with `ConstraintError` and nothing is stored |
| GalleryDb.SaveTwiceRefused | src/lib/imageGalleryDB.js:116-149 | saving twice under an id the caller chose fails the second time |
| GalleryDb.All | src/lib/imageGalleryDB.js:83-97 | the images, as a multiset, newest first, and images with the same time keep the order the store returns them in |
| GalleryDb.SameTimeByKey | src/lib/imageGalleryDB.js:70-97 | images stored in the same millisecond come back in key order, not in the order they were saved |
| GalleryDb.Favorites | src/lib/imageGalleryDB.js:252-255 | exactly the favourites |
| GalleryDb.ByCategory | src/lib/imageGalleryDB.js:262-266 | `all` gives everything; otherwise exactly that category |
| GalleryDb.Search | src/lib/imageGalleryDB.js:273-282 | exactly the images whose prompt, card text or a tag contains the query, ignoring case |
| GalleryDb.Tally | src/lib/imageGalleryDB.js:291-297 | each category's count is the number of its images and the counts sum to the total |
| GalleryDb.GalleryStats | src/lib/imageGalleryDB.js:288-304 | total is the number of images, favourites the favourite count, and the per-category counts sum to total |
| GalleryDb.Merge | src/lib/imageGalleryDB.js:175 | every supplied field replaces the stored one and every absent field stays |
| GalleryDb.Update | src/lib/imageGalleryDB.js:157-188 | the stored image merged with the patch, or none for a missing id; a patch that keeps the id keeps the store in key order |
| Gallery.AllImages | src/lib/imageGallery.js:47-56 | the cache, or an empty list without one, whatever its age |
| Gallery.MergeFetched | src/lib/imageGallery.js:62-88 | cached temporary images come first, then the fetched images whose URL no temporary image has |
| Gallery.MergeWithoutTemps | src/lib/imageGallery.js:70-73 | with no temporary images the fetched list is taken as it is |
| Gallery.LoadAsync | src/lib/imageGallery.js:62-88 | a remote fetch is merged behind the temporary images; without one, or when it fails, the local store newest first is used; either way the result becomes the cache |
| Gallery.SaveTemp | src/lib/imageGallery.js:95-111 | the temporary image goes in front only when a cache exists |
| Gallery.Confirm | src/lib/imageGallery.js:119-124 | the stored record replaces the first cached image with the temporary id; with no such image, or no cache, nothing changes |
| Gallery.SaveThenConfirm | src/lib/imageGallery.js:95-124 | saving and then confirming leaves the stored record in front of the images cached before |
| Gallery.UpdateCache | src/lib/imageGallery.js:150-161 | the saved image goes first and no other entry has its id or URL; a missing cache is created |
| Gallery.UpdateCacheIdempotent | src/lib/imageGallery.js:150-161 | updating with the same image twice is updating once |
| Gallery.Delete | src/lib/imageGallery.js:207-217 | exactly the images with another id stay, in order and as often as they occurred |
| Gallery.UpdateImage | src/lib/imageGallery.js:187-202 | the first image with the id is merged with the patch and returned; a missing cache or id gives none |
| Gallery.SetCategory | src/lib/imageGallery.js:309-311 | the first image with the id takes the category and is returned |
| Gallery.ToggleFavorite | src/lib/imageGallery.js:222-238 | the first image with the id flips its flag and the new value is returned; otherwise false and nothing changes |
| Gallery.ToggleTwice | src/lib/imageGallery.js:222-238 | toggling twice restores the cache |
| Gallery.AddTag | src/lib/imageGallery.js:273-286 | an absent tag is appended to the first image with the id, whose other fields are kept; a present tag changes nothing, so it is never duplicated; a missing cache or id changes nothing |
| Gallery.RemoveTag | src/lib/imageGallery.js:291-304 | every occurrence of the tag leaves the first image with the id; its other tags stay, in order and as often as they occurred, and its other fields are kept; other images are untouched, and an unknown id changes nothing |
| Gallery.AddThenRemoveTag | src/lib/imageGallery.js:273-304 | removing a tag just added restores tags that lacked it |
| Gallery.AllTags | src/lib/imageGallery.js:316-323 | every tag of every image appears exactly once |
| GalleryModal.Shown | src/components/ImageGalleryModal.jsx:40-66 | a search wins, then favourites, then the category; a failed load shows nothing |
| GalleryModal.ShownAreLoaded | src/components/ImageGalleryModal.jsx:46-56 | every shown image is one of the loaded images |
| GalleryModal.AddTagFromInput | src/components/ImageGalleryModal.jsx:87-93 | a blank input adds nothing; otherwise the trimmed tag is added, and the input is cleared |
| GalleryModal.Select | src/components/ImageGalleryModal.jsx:100-105 | with a selection handler, the whole picked image record is handed to it and the modal closes; without one nothing happens |
| Reply.StripFences | src/app/api/analyze-image/route.js:101-105 | the result is never longer than the answer; without backticks it is the trimmed answer |
| Reply.FencedReply | src/app/api/analyze-image/route.js:101-105 | an answer in a ```json fence gives back its body, trimmed |
| Reply.FailureMessage | src/app/api/analyze-image/route.js:125-131 | the thrown message when it has one, `分析失敗` otherwise |
| ChatRoute.PartsTextAppend | src/app/api/chat/route.js:51-54 | the text of a run of parts is the texts of its pieces, in order |
| ChatRoute.Convert | src/app/api/chat/route.js:40-65 | string content is kept; otherwise the text parts, or empty |
| ChatRoute.Normalize | src/app/api/chat/route.js:38-68 | not an array gives none; the result never holds an empty message and keeps the input order |
| ChatRoute.NormalizedMembers | src/app/api/chat/route.js:38-68 | each result is the conversion of an input message with non-empty content |
| ChatRoute.NormalizeIdempotent | src/app/api/chat/route.js:38-68 | normalising what was normalised changes nothing |
| ChatRoute.PartsInOrder | src/app/api/chat/route.js:51-59 | text parts are concatenated in order and other parts are dropped |
| ChatRoute.ErrorText | src/app/api/chat/route.js:86-101 | a missing key is named; otherwise the message, or `發生未知錯誤` |
| ImageRoute.StyleOf | src/app/api/analyze-image/route.js:84 | an absent style becomes `童話插畫`; a given one is kept |
| ImageRoute.Post | src/app/api/analyze-image/route.js:84-131 | no content gives 400; a failed call 500 with its message; an unparsed answer 200 with only the suggestion; a parsed `null` 500 with the `TypeError` of reading its fields; any other parsed value 200 with scenes (default none), cover and raw text |
| ImageRoute.NoContentNoQuestion | src/app/api/analyze-image/route.js:86-91 | an empty or missing passage is answered without asking the model |
| ImageRoute.UnparsedIsSuggestion | src/app/api/analyze-image/route.js:107-113 | an answer that is not JSON still succeeds with the raw text |
| ImageRoute.NullAnswerFails | src/app/api/analyze-image/route.js:102-131 | a fenced `null` answer parses, then reading `scenes` off it throws, so the route answers 500 although the model call succeeded |
| StyleRoute.KindOf | src/app/api/analyze-style/route.js:58-63 | only `writing` and `visual` are accepted |
| StyleRoute.StripDataUri | src/app/api/analyze-style/route.js:90 | a leading `data:image/<word>;base64,` comes off; anything else is unchanged |
| StyleRoute.StripDataUriPrefix | src/app/api/analyze-style/route.js:90 | the image format prefix comes off and the data is left |
| StyleRoute.Interpret | src/app/api/analyze-style/route.js:113-124 | a parsed answer is kept; otherwise the summary is its first 100 characters and the raw text is kept twice |
| StyleRoute.Post | src/app/api/analyze-style/route.js:58-141 | a bad type, writing without text or visual without a picture gives 400 with its message; a failed call 500; otherwise 200 echoing the type |
| StyleRoute.VisualSendsBareData | src/app/api/analyze-style/route.js:82-90 | a visual request sends the model the bare image data |
| ArticleRoute.Paragraphs | src/app/api/analyze-article/route.js:73-74 | one labelled paragraph per card, in order |
| ArticleRoute.Article | src/app/api/analyze-article/route.js:73-75 | the prompt contains every labelled card |
| ArticleRoute.ArticleSnoc | src/app/api/analyze-article/route.js:73-75 | one more card adds a separator and its labelled paragraph |
| ArticleRoute.Post | src/app/api/analyze-article/route.js:65-117 | no cards gives 400; an unparsable answer 500 with its raw text; a failed call 500; a parsed one 200 |
| Auth.AdminPassword | src/context/AuthContext.js:8-11 | the configured password, or `CHANGE_ME` when it is empty or unset |
| Auth.Restore | src/context/AuthContext.js:19-36 | a stored record signs in exactly when it has a token and a future expiry; a stale or incomplete one is removed; loading ends |
| Auth.RestoreIdempotent | src/context/AuthContext.js:19-36 | restoring twice is restoring once |
| Auth.Login | src/context/AuthContext.js:38-54 | sign-in succeeds exactly with the right pair and a storage write that goes through, storing a record that expires a day later; a wrong pair reports `帳號或密碼錯誤`, a failing write throws, and neither changes anything |
| Auth.FullStorageStaysSignedOut | src/context/AuthContext.js:38-54 | with full storage the right pair still leaves the user signed out, now and on a later visit |
| Auth.LoginLastsADay | src/context/AuthContext.js:19-54 | a sign-in is honoured on a later visit exactly for one day |
| Auth.WrongPasswordRefused | src/context/AuthContext.js:38-54 | only the configured password signs in |
| Auth.Logout | src/context/AuthContext.js:56-59 | the record goes and the user is signed out |
| Auth.LogoutThenRestore | src/context/AuthContext.js:19-59 | after signing out, a later visit is not signed in |
| Tasks.Create | examples/copilot-sdk/multi-agent-factory.ts:55-64 | exactly one pending task is appended |
| Tasks.CreateCounts | examples/copilot-sdk/multi-agent-factory.ts:55-64 | creating adds one pending task and changes no other count |
| Tasks.Claim | examples/copilot-sdk/multi-agent-factory.ts:75-85 | the first pending task of the preferred kind (any kind without one) goes in progress with the worker; with none nothing changes |
| Tasks.ClaimCounts | examples/copilot-sdk/multi-agent-factory.ts:75-85 | a claim moves exactly one task from pending to in progress |
| Tasks.Complete | examples/copilot-sdk/multi-agent-factory.ts:95-105 | the first task with the id is completed with the result and listed as finished; an unknown id fails and changes nothing |
| Tasks.CompleteTwiceListsTwice | examples/copilot-sdk/multi-agent-factory.ts:95-102 | completing twice lists the task twice |
| Tasks.ClaimThenComplete | examples/copilot-sdk/multi-agent-factory.ts:75-105 | with distinct ids a claimed, then completed task keeps its worker and is the last finished |
| Tasks.StatusReport | examples/copilot-sdk/multi-agent-factory.ts:112-118 | pending and active count the queue by status, completed counts the finished list, and the listed tasks are the last ten (or fewer) of the queue followed by the finished tasks |
| Tasks.PendingPlusActive | examples/copilot-sdk/multi-agent-factory.ts:112-118 | the pending and active counts never exceed the queue length |
| Tasks.CreateNumbered | examples/copilot-sdk/multi_agent_factory.py:204-211 | the new pending task gets `task-` and the queue's new length |
| Tasks.NumberingKept | examples/copilot-sdk/multi_agent_factory.py:204-232 | create, claim and complete keep every task numbered by its position |
| Tasks.NumberedDistinct | examples/copilot-sdk/multi_agent_factory.py:204-211 | numbered tasks have distinct ids |

## Left out

- Network, model and storage calls: their results are parameters. This
  covers the language model, image generation, Firebase, IndexedDB,
  local and session storage, and `fetch`. `checkFirebaseAvailability` and
  `Promise.all` ordering are not modelled.
- Streaming: the chat route's streaming response is not modelled, and
  neither is the message conversion the AI SDK does.
- ChatRoute.Normalize: never fails. In the route a `null` message makes
  `msg.content` throw (src/app/api/chat/route.js:42), and a `null` part
  makes `part.type` throw (line 52); the catch then answers 500
  (lines 86-101). That failure is not modelled. Other non-string content
  (numbers, objects) is represented as "not a string", not by its value.
- The clock and randomness are parameters, as are generated ids.
  Timestamps are plain integers.
- Date strings: the source parses them with `new Date(…)`; the model uses
  the parsed millisecond value.
- `parsePromptOptions` and the title regex of `handlePreviewPublish` are
  parameters; their own parsing is not modelled.
- The YouTube URL pattern: `Admin.YoutubeId` takes what it captured.
- `JSON.parse` and `JSON.stringify` are parameters.
- Text handling:
  - case folding and whitespace are ASCII only (Unicode case folding and
    Unicode `trim` are out);
  - strings are sequences of code points, not UTF-16 units;
  - `$` patterns in replacement strings are not interpreted.
- Auth.Token: the token is `username:time` without its base64 (`btoa`)
  encoding.
- Auth.Login: the expiry is `now + 86400000`. `setHours(+24)` across a
  daylight-saving change is not modelled.
- Reply.StripFences: the second pass of the source does not rescan text
  its own removal joined, so output may still hold a fence. Only the
  no-backtick and fenced-body cases are proved, not full fence removal.
- Tasks.ClaimThenComplete: requires distinct ids. The TypeScript ids are
  not provably distinct.
- Canvas.Move: assumes the id is on the canvas. The page only offers the
  move for cards it shows.
- Rendering, alerts, drag feedback and the rest of the React UI are not
  modelled. The same goes for the landing page, the article page, the
  login page, `AuthGuard`, the health-check scripts and the Copilot-SDK
  basic examples.
- Styles.Save: a failing `localStorage.setItem` (a full quota) throws out
  of `saveStyle`; the model treats every write as succeeding, so the
  modal's `分析失敗:` report for it is not modelled.
- GalleryDb.Update: a patch that changes the id replaces the record in
  place. IndexedDB's `put` keys by the new id, so it would leave the old
  record and add or overwrite one under the new id.
- API routes: a request body that is not JSON makes `req.json()` throw
  into the routes' 500 handler; the model starts from the parsed body.
- Compositor.Compose: models only the composition, not three failure
  paths of `handlePreviewPublish` (src/app/admin/blog/ai-editor/page.jsx).
  (a) `ImageGalleryDB.saveImage` returns an un-awaited promise that
  rejects on an IndexedDB `add` error (src/lib/imageGalleryDB.js:128-143);
  that rejects `saveImageAsync` and the `Promise.all` of lines 912-944, so
  the publish stops with no draft stored and no navigation. (b) When the
  first `sessionStorage.setItem` fails, the retry at line 1037 is not
  caught, so a second failure throws before `router.push` (line 1041).
  (c) `saveCurrentSession()` runs first (line 904); its effect on the
  session history is not part of the composed result.
- Concurrency is not modelled: interleaved async handlers are treated as
  finishing in the order written.

## Findings

| source | as written | input that shows it | evidently intended | confidence | as-written member | corrected member |
|---|---|---|---|---|---|---|
| src/app/admin/blog/page.jsx:410-436 with src/data/blogData.js:389-394 | `toggleStatus` sets `status` but keeps the seeded articles' legacy `published: true`, and `isArticlePublished` lets that flag win | a seeded article with `published = true` and no status, toggled twice so that its status reads `draft` | a draft is hidden from the blog | not executed | Admin.ToggleKeepsLegacyPublished | Admin.ToggleStatusFixedDecides |
| src/app/admin/blog/page.jsx:366-401 with src/data/blogData.js:389-394 | `handleSave` spreads the form over the edited article, so a seeded article keeps its legacy `published: true`, and `isArticlePublished` lets that flag win | a seeded article with `published = true` saved with status `draft` | a draft is hidden from the blog | not executed | Admin.SaveDraftKeepsLegacyPublished | Admin.HandleSaveFixedDecides |

=== FILE: admin.dfy ===
/** The article administration page (src/app/admin/blog/page.jsx): the
    editor form and its formatting toolbar, saving, deleting, publishing
    and scheduling, and the size caps applied before anything is stored.
    The clock, generated ids, date parsing and storage outcomes are
    parameters. */
module Admin {
  import opened Wrappers
  import opened Seqs
  import opened Text
  import opened Blog

  // ---------------------------------------------------------------- booking time

  /** The hour on a 12-hour clock: 0 and 12 both show as 12. */
  function ClockHour(h: nat): (r: nat)
    requires h < 24
    ensures 1 <= r <= 12
    ensures r % 12 == h % 12
  {
    if h % 12 == 0 then 12 else h % 12
  }

  function Meridiem(h: nat): string {
    if h >= 12 then "PM" else "AM"
  }

  /** Reading a 12-hour time back as a 24-hour one. */
  function To24(hour12: nat, pm: bool): nat {
    (if hour12 == 12 then 0 else hour12) + (if pm then 12 else 0)
  }

  /** The 12-hour rendering loses nothing: hour and AM/PM give back the
      hour of the day, and AM is shown exactly in the morning. */
  lemma ClockHourRoundTrip(h: nat)
    requires h < 24
    ensures To24(ClockHour(h), Meridiem(h) == "PM") == h
    ensures Meridiem(h) == "AM" <==> h < 12
  {
  }

  /** `formatBookingTime` on the local calendar fields of the date
      (`month` counts from 0 as `getMonth` does). */
  function FormatBookingTime(year: nat, month: nat, day: nat, hours: nat, minutes: nat): (r: string)
    requires month < 12 && 1 <= day <= 31 && hours < 24 && minutes < 60
    ensures StartsWith(r, "Booking : " + Dec(year) + ".")
    ensures |r| == |"Booking : " + Dec(year) + "."| + 11 + |Dec(ClockHour(hours))|
  {
    var head := "Booking : " + Dec(year) + ".";
    BookingTailLayout(month, day, hours, minutes);
    head + BookingTail(month, day, hours, minutes)
  }

  /** The fields after the year, as `formatBookingTime` lays them out. */
  function BookingTail(month: nat, day: nat, hours: nat, minutes: nat): string
    requires month < 12 && 1 <= day <= 31 && hours < 24 && minutes < 60
  {
    PadTwo(month + 1) + "." + PadTwo(day) + "." + Meridiem(hours) + Dec(ClockHour(hours)) + ":" + PadTwo(minutes)
  }

  /** The label is the year part followed by the fields. */
  lemma BookingSplit(year: nat, month: nat, day: nat, hours: nat, minutes: nat)
    requires month < 12 && 1 <= day <= 31 && hours < 24 && minutes < 60
    ensures var r := FormatBookingTime(year, month, day, hours, minutes);
      var p := |"Booking : " + Dec(year) + "."|;
      p <= |r| && r[p..] == BookingTail(month, day, hours, minutes)
  {
    var head := "Booking : " + Dec(year) + ".";
    assert (head + BookingTail(month, day, hours, minutes))[|head|..] == BookingTail(month, day, hours, minutes);
  }

  /** Where each field sits in the part after the year. */
  lemma BookingTailLayout(month: nat, day: nat, hours: nat, minutes: nat)
    requires month < 12 && 1 <= day <= 31 && hours < 24 && minutes < 60
    ensures var t := BookingTail(month, day, hours, minutes);
      |t| == 11 + |Dec(ClockHour(hours))| &&
      t[..2] == PadTwo(month + 1) && t[2] == '.' && t[3..5] == PadTwo(day) && t[5] == '.' &&
      t[6..8] == Meridiem(hours) && t[8..|t| - 3] == Dec(ClockHour(hours)) &&
      t[|t| - 3] == ':' && t[|t| - 2..] == PadTwo(minutes)
  {
    BookingTailFront(month, day, hours, minutes);
    BookingTailBack(month, day, hours, minutes);
  }

  /** The month, the day and the marker open the part after the year. */
  lemma BookingTailFront(month: nat, day: nat, hours: nat, minutes: nat)
    requires month < 12 && 1 <= day <= 31 && hours < 24 && minutes < 60
    ensures var t := BookingTail(month, day, hours, minutes);
      8 <= |t| &&
      t[..2] == PadTwo(month + 1) && t[2] == '.' && t[3..5] == PadTwo(day) && t[5] == '.' &&
      t[6..8] == Meridiem(hours)
  {
    var back := Dec(ClockHour(hours)) + ":" + PadTwo(minutes);
    assert BookingTail(month, day, hours, minutes) == PadTwo(month + 1) + "." + PadTwo(day) + "." + Meridiem(hours) + back;
    DottedFront(PadTwo(month + 1), PadTwo(day), Meridiem(hours), back);
  }

  /** Cutting `mo + "." + dd + "." + ap + back` at its fixed positions. */
  lemma DottedFront(mo: string, dd: string, ap: string, back: string)
    requires |mo| == 2 && |dd| == 2 && |ap| == 2
    ensures var t := mo + "." + dd + "." + ap + back;
      8 <= |t| && t[..2] == mo && t[2] == '.' && t[3..5] == dd && t[5] == '.' && t[6..8] == ap
  {
    var t := mo + "." + dd + "." + ap + back;
    assert t[..2] == mo by { assert t[0] == mo[0] && t[1] == mo[1]; }
    assert t[3..5] == dd by { assert t[3] == dd[0] && t[4] == dd[1]; }
    assert t[6..8] == ap by { assert t[6] == ap[0] && t[7] == ap[1]; }
  }

  /** The clock hour, a colon and the minutes close it. */
  lemma BookingTailBack(month: nat, day: nat, hours: nat, minutes: nat)
    requires month < 12 && 1 <= day <= 31 && hours < 24 && minutes < 60
    ensures var t := BookingTail(month, day, hours, minutes);
      |t| == 11 + |Dec(ClockHour(hours))| &&
      t[8..|t| - 3] == Dec(ClockHour(hours)) && t[|t| - 3] == ':' && t[|t| - 2..] == PadTwo(minutes)
  {
    var front := PadTwo(month + 1) + "." + PadTwo(day) + "." + Meridiem(hours);
    assert |front| == 8;
    assert BookingTail(month, day, hours, minutes) == front + (Dec(ClockHour(hours)) + ":" + PadTwo(minutes));
    ColonTail(front, Dec(ClockHour(hours)), PadTwo(minutes));
  }

  /** Cutting `front + (hh + ":" + mm)` back into its parts. */
  lemma ColonTail(front: string, hh: string, mm: string)
    requires |front| == 8 && |mm| == 2
    ensures var t := front + (hh + ":" + mm);
      |t| == 11 + |hh| && t[8..|t| - 3] == hh && t[|t| - 3] == ':' && t[|t| - 2..] == mm
  {
    var t := front + (hh + ":" + mm);
    assert t[8..|t| - 3] == hh by {
      forall k | 0 <= k < |hh| ensures t[8..|t| - 3][k] == hh[k] { assert t[8 + k] == hh[k]; }
    }
    assert t[|t| - 2..] == mm by {
      forall k | 0 <= k < 2 ensures t[|t| - 2..][k] == mm[k] { assert t[|t| - 2 + k] == mm[k]; }
    }
  }

  /** Reading the label back: after the year come the month (counted from
      1) and the day in two digits, the AM/PM marker (AM exactly in the
      morning), the 12-hour clock hour that gives back the hour of the
      day, and the minutes in two digits. */
  lemma BookingTimeReadBack(year: nat, month: nat, day: nat, hours: nat, minutes: nat)
    requires month < 12 && 1 <= day <= 31 && hours < 24 && minutes < 60
    ensures var r := FormatBookingTime(year, month, day, hours, minutes);
      var p := |"Booking : " + Dec(year) + "."|;
      p + 11 <= |r| && TailReads(r[p..], month, day, hours, minutes)
  {
    BookingSplit(year, month, day, hours, minutes);
    BookingTailReadBack(month, day, hours, minutes);
  }

  /** The fields of `t` read back as the given date and time: the month
      (counted from 1) and the day in two digits, the AM/PM marker (AM
      exactly in the morning), the 12-hour clock hour that gives back the
      hour of the day, and the minutes in two digits. */
  predicate TailReads(t: string, month: nat, day: nat, hours: nat, minutes: nat) {
    hours < 24 && 11 <= |t| &&
    t[..2] == PadTwo(month + 1) && ParseDec(t[..2]) == month + 1 &&
    t[3..5] == PadTwo(day) && ParseDec(t[3..5]) == day &&
    (t[6..8] == "AM" <==> hours < 12) && (t[6..8] == "PM" <==> hours >= 12) &&
    t[8..|t| - 3] == Dec(ClockHour(hours)) &&
    To24(ParseDec(t[8..|t| - 3]), t[6..8] == "PM") == hours &&
    t[|t| - 3] == ':' && t[|t| - 2..] == PadTwo(minutes) && ParseDec(t[|t| - 2..]) == minutes
  }

  /** The fields after the year read back as the values they print. */
  lemma BookingTailReadBack(month: nat, day: nat, hours: nat, minutes: nat)
    requires month < 12 && 1 <= day <= 31 && hours < 24 && minutes < 60
    ensures TailReads(BookingTail(month, day, hours, minutes), month, day, hours, minutes)
  {
    BookingTailLayout(month, day, hours, minutes);
    DecRoundTrip(ClockHour(hours));
    ClockHourRoundTrip(hours);
  }

  // ---------------------------------------------------------------- editor text

  /** `text.substring(0, start) + insert + text.substring(end)`: the
      textarea's selection replaced by `insert`. */
  function Splice(text: string, start: nat, end: nat, insert: string): (r: string)
    requires start <= end <= |text|
    ensures |r| == |text| - (end - start) + |insert|
    ensures r[..start] == text[..start]
    ensures r[start..start + |insert|] == insert
    ensures r[start + |insert|..] == text[end..]
  {
    text[..start] + insert + text[end..]
  }

  /** Taking the inserted piece out again leaves the text with the
      selection deleted. */
  lemma SpliceErase(text: string, start: nat, end: nat, insert: string)
    requires start <= end <= |text|
    ensures var r := Splice(text, start, end, insert);
      r[..start] + r[start + |insert|..] == text[..start] + text[end..]
  {
  }

  /** The opening mark, placeholder and closing mark of a toolbar format. */
  datatype Wrapping = Wrapping(open: string, placeholder: string, close: string)

  function FormatWrapping(format: string): Option<Wrapping> {
    if format == "bold" then Some(Wrapping("**", "粗體文字", "**"))
    else if format == "italic" then Some(Wrapping("*", "斜體文字", "*"))
    else if format == "heading" then Some(Wrapping("\n## ", "標題", "\n"))
    else if format == "list" then Some(Wrapping("\n- ", "列表項目", "\n"))
    else None
  }

  /** `insertFormat`: the selection (or, when nothing is selected, the
      format's placeholder) wrapped in the format's marks replaces the
      selection; an unknown format changes nothing. */
  function InsertFormat(text: string, start: nat, end: nat, format: string): (r: string)
    requires start <= end <= |text|
    ensures FormatWrapping(format).None? ==> r == text
    ensures FormatWrapping(format).Some? ==>
      var w := FormatWrapping(format).value;
      var body := if start == end then w.placeholder else text[start..end];
      var n := |w.open| + |body| + |w.close|;
      |r| == |text| - (end - start) + n &&
      r[..start] == text[..start] && r[start + n..] == text[end..] &&
      r[start..start + |w.open|] == w.open &&
      r[start + |w.open|..start + |w.open| + |body|] == body &&
      r[start + |w.open| + |body|..start + n] == w.close
  {
    match FormatWrapping(format)
    case None => text
    case Some(w) =>
      var body := if start == end then w.placeholder else text[start..end];
      SpliceWrapped(text, start, end, w.open, body, w.close);
      Splice(text, start, end, w.open + body + w.close)
  }

  /** Splicing in three pieces puts each where its length says. */
  lemma SpliceWrapped(text: string, start: nat, end: nat, a: string, b: string, c: string)
    requires start <= end <= |text|
    ensures var r := Splice(text, start, end, a + b + c);
      var n := |a| + |b| + |c|;
      |r| == |text| - (end - start) + n &&
      r[..start] == text[..start] && r[start + n..] == text[end..] &&
      r[start..start + |a|] == a &&
      r[start + |a|..start + |a| + |b|] == b &&
      r[start + |a| + |b|..start + n] == c
  {
    var r := Splice(text, start, end, a + b + c);
    var mid := r[start..start + |a| + |b| + |c|];
    assert mid == a + b + c;
    assert r[start..start + |a|] == mid[..|a|];
    assert r[start + |a|..start + |a| + |b|] == mid[|a|..|a| + |b|];
    assert r[start + |a| + |b|..start + |a| + |b| + |c|] == mid[|a| + |b|..];
  }

  /** Bold on a selection keeps the selected text between the marks. */
  lemma BoldKeepsSelection(text: string, start: nat, end: nat)
    requires start < end <= |text|
    ensures var r := InsertFormat(text, start, end, "bold");
      r[start + 2..end + 2] == text[start..end] && r[..start] == text[..start] && r[end + 4..] == text[end..]
  {
  }

  /** The editor form (`formData`).  Tags are the comma-separated text of
      the tag field; a blank schedule field is `None`. */
  datatype Form = Form(
    title: string,
    excerpt: string,
    categoryId: string,
    tags: string,
    image: string,
    content: string,
    status: string,
    scheduledAt: Option<int>)

  /** Where a picked image goes. */
  datatype Target = CoverTarget | ContentTarget

  /** `insertImageToContent`: the cover field takes the URL, or a markdown
      image replaces the selection in the content. */
  function InsertImage(form: Form, target: Target, url: string, start: nat, end: nat): (r: Form)
    requires start <= end <= |form.content|
    ensures target == CoverTarget ==> r == form.(image := url)
    ensures target == ContentTarget ==>
      r == form.(content := Splice(form.content, start, end, "\n![圖片](" + url + ")\n"))
  {
    match target
    case CoverTarget => form.(image := url)
    case ContentTarget => form.(content := Splice(form.content, start, end, "\n![圖片](" + url + ")\n"))
  }

  /** `getYoutubeId` after the pattern matched (the pattern is left out):
      the captured id counts only when it is exactly 11 characters long. */
  function YoutubeId(captured: Option<string>): (r: Option<string>)
    ensures r.Some? <==> captured.Some? && |captured.value| == 11
    ensures r.Some? ==> r == captured
  {
    if captured.Some? && |captured.value| == 11 then captured else None
  }

  /** `insertYoutube`: with a valid id the embed tag replaces the selection
      and the URL field is cleared; otherwise nothing happens. */
  function InsertYoutube(form: Form, youtubeUrl: string, captured: Option<string>, start: nat, end: nat): (r: (Form, string))
    requires start <= end <= |form.content|
    ensures YoutubeId(captured).None? ==> r == (form, youtubeUrl)
    ensures YoutubeId(captured).Some? ==> (r.1 == "" &&
      r.0 == form.(content := Splice(form.content, start, end, "\n[youtube:" + captured.value + "]\n")))
  {
    match YoutubeId(captured)
    case None => (form, youtubeUrl)
    case Some(id) => (form.(content := Splice(form.content, start, end, "\n[youtube:" + id + "]\n")), "")
  }

  // ---------------------------------------------------------------- tags

  predicate NonEmpty(s: string) { s != "" }

  /** Splitting the tag field: comma-separated, trimmed, blanks dropped. */
  function ParseTags(field: string): (r: seq<string>)
    ensures forall k :: 0 <= k < |r| ==> r[k] != "" && Trimmed(r[k]) && ',' !in r[k]
  {
    var pieces := Split(field, ',');
    var trimmed := seq(|pieces|, k requires 0 <= k < |pieces| => Trim(pieces[k]));
    forall k | 0 <= k < |trimmed|
      ensures Trimmed(trimmed[k]) && ',' !in trimmed[k]
    {
      TrimSpec(pieces[k]);
      var i :| 0 <= i <= |pieces[k]| && OccursAt(pieces[k], trimmed[k], i);
      assert forall c :: c in trimmed[k] ==> c in pieces[k];
    }
    var r := Filter(trimmed, NonEmpty);
    assert forall k :: 0 <= k < |r| ==> r[k] in r;
    r
  }

  /** The edit form shows the tags joined by ", "; saving parses them back
      to the same list when every tag is a non-blank, trimmed, comma-free
      word. */
  lemma {:induction false} TagsRoundTrip(tags: seq<string>)
    requires forall k :: 0 <= k < |tags| ==> tags[k] != "" && Trimmed(tags[k]) && ',' !in tags[k]
    ensures ParseTags(Join(tags, ", ")) == tags
  {
    if |tags| == 0 {
      assert Split("", ',') == [""];
      assert Trim("") == "";
    } else {
      SpacedPieces(tags);
      var pieces := Split(Join(tags, ", "), ',');
      TrimSpaced(tags);
      assert seq(|pieces|, k requires 0 <= k < |pieces| => Trim(pieces[k])) == tags;
      FilterAll(tags, NonEmpty);
    }
  }

  /** The tags as they stand between the commas of the joined field: all
      but the first carry the space. */
  function Spaced(tags: seq<string>): (r: seq<string>)
    ensures |r| == |tags|
  {
    seq(|tags|, k requires 0 <= k < |tags| => if k == 0 then tags[k] else " " + tags[k])
  }

  /** Splitting the joined field at its commas gives the spaced tags. */
  lemma SpacedPieces(tags: seq<string>)
    requires |tags| > 0
    requires forall k :: 0 <= k < |tags| ==> ',' !in tags[k]
    ensures Split(Join(tags, ", "), ',') == Spaced(tags)
  {
    var spaced := Spaced(tags);
    JoinSpaced(tags, spaced);
    assert forall k :: 0 <= k < |spaced| ==> ',' !in spaced[k];
    SplitJoin(spaced, ',');
  }

  /** Trimming the spaced tags gives the tags back. */
  lemma TrimSpaced(tags: seq<string>)
    requires forall k :: 0 <= k < |tags| ==> tags[k] != "" && Trimmed(tags[k])
    ensures seq(|tags|, k requires 0 <= k < |tags| => Trim(Spaced(tags)[k])) == tags
  {
    var spaced := Spaced(tags);
    forall k | 0 <= k < |tags|
      ensures Trim(spaced[k]) == tags[k]
    {
      if k == 0 {
        TrimSpec(tags[k]);
      } else {
        TrimLeadingSpace(tags[k]);
      }
    }
  }

  /** Joining with ", " is joining with "," after prefixing every part but
      the first with a space. */
  lemma {:induction false} JoinSpaced(tags: seq<string>, spaced: seq<string>)
    requires |tags| >= 1 && |spaced| == |tags|
    requires spaced[0] == tags[0]
    requires forall k :: 1 <= k < |tags| ==> spaced[k] == " " + tags[k]
    ensures Join(tags, ", ") == Join(spaced, ",")
  {
    if |tags| > 1 {
      var t1 := [" " + tags[1]] + spaced[2..];
      assert spaced[1..] == t1;
      JoinSpacedTail(tags[1..], t1);
      assert Join(tags, ", ") == tags[0] + ", " + Join(tags[1..], ", ");
      assert Join(spaced, ",") == spaced[0] + "," + Join(spaced[1..], ",");
      assert tags[0] + ", " + Join(tags[1..], ", ") == tags[0] + "," + (" " + Join(tags[1..], ", "));
    }
  }

  /** The tail form of `JoinSpaced`: every part carries the space. */
  lemma {:induction false} JoinSpacedTail(tags: seq<string>, spaced: seq<string>)
    requires |tags| >= 1 && |spaced| == |tags|
    requires forall k :: 0 <= k < |tags| ==> spaced[k] == " " + tags[k]
    ensures " " + Join(tags, ", ") == Join(spaced, ",")
    decreases |tags|
  {
    if |tags| > 1 {
      JoinSpacedTail(tags[1..], spaced[1..]);
      assert Join(tags, ", ") == tags[0] + ", " + Join(tags[1..], ", ");
      assert Join(spaced, ",") == spaced[0] + "," + Join(spaced[1..], ",");
      assert " " + (tags[0] + ", " + Join(tags[1..], ", ")) == (" " + tags[0]) + "," + (" " + Join(tags[1..], ", "));
    }
  }

  // ---------------------------------------------------------------- storage caps

  const MaxInlineLength := 50000

  /** A stored cover image longer than the cap becomes the placeholder. */
  function CapImage(image: Option<string>): (r: Option<string>)
    ensures image.Some? && |image.value| > MaxInlineLength ==> r == Some(Placeholder)
    ensures !(image.Some? && |image.value| > MaxInlineLength) ==> r == image
  {
    if image.Some? && |image.value| > MaxInlineLength then Some(Placeholder) else image
  }

  /** The end (exclusive) of a match of `!\[([^\]]*)\]\(data:image[^)]{50000,}\)`
      starting at `i`: the alt text runs to the first `]`, the inline data
      to the first `)`, and the data must be at least 50000 characters. */
  function LargeImageAt(s: string, i: nat): (r: Option<nat>)
    ensures r.Some? ==> i + 2 + 12 + MaxInlineLength + 1 <= r.value <= |s|
  {
    if !(i + 2 <= |s| && s[i..i + 2] == "![") then None
    else match FindFrom(s, "]", i + 2)
      case None => None
      case Some(j) =>
        if !OccursAt(s, "](data:image", j) then None
        else match FindFrom(s, ")", j + 12)
          case None => None
          case Some(e) =>
            if e - (j + 12) >= MaxInlineLength then Some(e + 1) else None
  }

  const ImagePlaceholderMarkdown := "![圖片](/blog/demo_1.png)"

  /** Content is left alone exactly when it holds no inline image of 50000
      characters or more; otherwise every such image becomes the
      placeholder and the content shrinks. */
  function CapContent(s: string): (r: string)
    ensures r == s <==> forall j: nat :: j < |s| ==> LargeImageAt(s, j).None?
    ensures |r| <= |s|
    ensures forall j: nat :: FirstLargeImage(s, j) ==>
      r == s[..j] + ImagePlaceholderMarkdown + ReplaceAllFrom(s, LargeImageAt(s, j).value, LargeImageAt, ImagePlaceholderMarkdown)
  {
    CapFirstImage(s);
    ReplaceAll(s, LargeImageAt, ImagePlaceholderMarkdown)
  }

  /** `j` is where the first large inline image of `s` starts. */
  predicate FirstLargeImage(s: string, j: nat) {
    j < |s| && LargeImageAt(s, j).Some? && forall k: nat :: k < j ==> LargeImageAt(s, k).None?
  }

  /** The first large image becomes the placeholder, with the text before
      it kept. */
  lemma CapFirstImage(s: string)
    ensures Shrinks(s, LargeImageAt, ImagePlaceholderMarkdown)
    ensures forall j: nat :: FirstLargeImage(s, j) ==>
      ReplaceAll(s, LargeImageAt, ImagePlaceholderMarkdown)
        == s[..j] + ImagePlaceholderMarkdown + ReplaceAllFrom(s, LargeImageAt(s, j).value, LargeImageAt, ImagePlaceholderMarkdown)
  {
    forall j: nat | FirstLargeImage(s, j)
      ensures ReplaceAll(s, LargeImageAt, ImagePlaceholderMarkdown)
        == s[..j] + ImagePlaceholderMarkdown + ReplaceAllFrom(s, LargeImageAt(s, j).value, LargeImageAt, ImagePlaceholderMarkdown)
    {
      ReplaceFirstMatch(s, 0, j, LargeImageAt, ImagePlaceholderMarkdown);
    }
  }

  /** A single large image is cut out and the placeholder put in its
      place; everything around it is kept. */
  lemma CapSingleImage(s: string, j: nat)
    requires FirstLargeImage(s, j)
    requires forall k: nat :: LargeImageAt(s, j).value <= k < |s| ==> LargeImageAt(s, k).None?
    ensures CapContent(s) == s[..j] + ImagePlaceholderMarkdown + s[LargeImageAt(s, j).value..]
  {
    CapFirstImage(s);
  }

  /** What `saveToStorage` writes for one article. */
  function CapArticle(a: Article): (r: Article)
    ensures r.image == CapImage(a.image) && r.content == CapContent(a.content)
    ensures r.(image := a.image, content := a.content) == a
  {
    a.(image := CapImage(a.image), content := CapContent(a.content))
  }

  /** An image within the cap is stored as it is. */
  lemma SmallImageKept(a: Article)
    requires a.image.Some? && |a.image.value| <= MaxInlineLength
    requires forall j: nat :: j < |a.content| ==> LargeImageAt(a.content, j).None?
    ensures CapArticle(a) == a
  {
  }

  /** Capping twice is capping once for the cover field. */
  lemma CapImageIdempotent(image: Option<string>)
    ensures CapImage(CapImage(image)) == CapImage(image)
  {
  }

  /** `saveToStorage`: every article capped; when the write fails (quota or
      otherwise) the page keeps its previous list. */
  function SaveToStorage(current: seq<Article>, articles: seq<Article>, writeOk: bool): (r: seq<Article>)
    ensures writeOk ==> |r| == |articles| && forall k :: 0 <= k < |r| ==> r[k] == CapArticle(articles[k])
    ensures !writeOk ==> r == current
  {
    if writeOk then seq(|articles|, k requires 0 <= k < |articles| => CapArticle(articles[k]))
    else current
  }

  /** An image the admin uploaded. */
  datatype Upload = Upload(id: string, name: string, data: string, uploadedAt: int)

  /** `saveImagesToStorage`: the last ten uploads are kept; a full storage
      drops them all; another error leaves the list as it was. */
  function SaveImages(current: seq<Upload>, images: seq<Upload>, outcome: WriteOutcome): (r: seq<Upload>)
    ensures outcome == Written ==> |r| <= 10 && |r| <= |images| && r == images[|images| - |r|..] && (|images| >= 10 ==> |r| == 10)
    ensures outcome == Written && |images| <= 10 ==> r == images
    ensures outcome == QuotaExceeded ==> r == []
    ensures outcome == OtherError ==> r == current
  {
    match outcome
    case Written => Last(images, 10)
    case QuotaExceeded => []
    case OtherError => current
  }

  // ---------------------------------------------------------------- lifecycle

  /** A `booking` article whose time has come. */
  predicate Due(a: Article, now: int) {
    a.status == Some("booking") && a.scheduledAt.Some? && a.scheduledAt.value <= now
  }

  /** Publishing a due article. */
  function PublishNow(a: Article, now: int): Article {
    a.(status := Some("published"), publishedAt := Some(now), scheduledAt := None)
  }

  /** `checkScheduledPublish`: every due article is published now; the
      updated list is handed back (to be saved) only if something was due. */
  function CheckScheduled(articles: seq<Article>, now: int): (r: Option<seq<Article>>)
    ensures r.Some? <==> exists k :: 0 <= k < |articles| && Due(articles[k], now)
    ensures r.Some? ==> (|r.value| == |articles| &&
      (forall k :: 0 <= k < |articles| && Due(articles[k], now) ==>
        r.value[k].status == Some("published") && r.value[k].publishedAt == Some(now) &&
        r.value[k].scheduledAt.None? &&
        r.value[k].(status := articles[k].status, publishedAt := articles[k].publishedAt,
                    scheduledAt := articles[k].scheduledAt) == articles[k]) &&
      (forall k :: 0 <= k < |articles| && !Due(articles[k], now) ==> r.value[k] == articles[k]))
  {
    var updated := seq(|articles|, k requires 0 <= k < |articles| =>
      if Due(articles[k], now) then PublishNow(articles[k], now) else articles[k]);
    if exists k :: 0 <= k < |articles| && Due(articles[k], now) then Some(updated) else None
  }

  /** After one check nothing is due any more, so the next one at the same
      time writes nothing. */
  lemma CheckScheduledSettles(articles: seq<Article>, now: int)
    requires CheckScheduled(articles, now).Some?
    ensures CheckScheduled(CheckScheduled(articles, now).value, now).None?
  {
    var u := CheckScheduled(articles, now).value;
    forall k | 0 <= k < |u|
      ensures !Due(u[k], now)
    {
      if Due(articles[k], now) {
        assert u[k].status == Some("published");
      }
    }
  }

  /** `toggleStatus` as written: `published` becomes `draft`, anything else
      `published`; the first publication time is kept; the schedule is
      cleared.  The legacy flag is left in place. */
  function ToggleStatus(a: Article, now: int): (r: Article)
    ensures a.status == Some("published") ==> r.status == Some("draft")
    ensures a.status != Some("published") ==> r.status == Some("published")
    ensures a.publishedAt.Some? ==> r.publishedAt == a.publishedAt
    ensures a.status != Some("published") && a.publishedAt.None? ==> r.publishedAt == Some(now)
    ensures r.scheduledAt.None? && r.published == a.published
    ensures a.status == Some("published") ==> r.publishedAt == a.publishedAt
    ensures r.(status := a.status, scheduledAt := a.scheduledAt, publishedAt := a.publishedAt) == a
  {
    if a.status == Some("published") then
      a.(status := Some("draft"), scheduledAt := None)
    else
      a.(status := Some("published"), scheduledAt := None,
         publishedAt := if a.publishedAt.Some? then a.publishedAt else Some(now))
  }

  /** A seeded article (legacy `published: true`, no status) toggled twice
      reads `draft` in the admin list yet is still published on the blog. */
  lemma ToggleKeepsLegacyPublished(a: Article, now: int)
    requires a.published == Some(true) && a.status.None?
    ensures var twice := ToggleStatus(ToggleStatus(a, now), now);
      twice.status == Some("draft") && IsPublished(twice)
  {
  }

  /** `toggleStatus` with the legacy flag dropped, so that the status alone
      decides what the blog shows. */
  function ToggleStatusFixed(a: Article, now: int): (r: Article)
    ensures r == ToggleStatus(a, now).(published := None)
  {
    ToggleStatus(a, now).(published := None)
  }

  /** With the fix, the blog shows an article exactly when the toggle made
      it `published`, and toggling twice restores visibility by status. */
  lemma ToggleStatusFixedDecides(a: Article, now: int)
    ensures IsPublished(ToggleStatusFixed(a, now)) <==> a.status != Some("published")
    ensures var twice := ToggleStatusFixed(ToggleStatusFixed(a, now), now);
      IsPublished(twice) <==> a.status == Some("published")
  {
  }

  /** Apply a change to every article carrying an id. */
  function ReplaceById(articles: seq<Article>, id: string, f: Article -> Article): (r: seq<Article>)
    ensures |r| == |articles|
    ensures forall k :: 0 <= k < |articles| && articles[k].id == id ==> r[k] == f(articles[k])
    ensures forall k :: 0 <= k < |articles| && articles[k].id != id ==> r[k] == articles[k]
  {
    seq(|articles|, k requires 0 <= k < |articles| =>
      if articles[k].id == id then f(articles[k]) else articles[k])
  }

  /** `toggleStatus` on the list: the article replaces every entry with its
      id. */
  function ToggleInList(articles: seq<Article>, a: Article, now: int): (r: seq<Article>)
    ensures |r| == |articles|
    ensures forall k :: 0 <= k < |articles| && articles[k].id == a.id ==> r[k] == ToggleStatus(a, now)
    ensures forall k :: 0 <= k < |articles| && articles[k].id != a.id ==> r[k] == articles[k]
  {
    ReplaceById(articles, a.id, (_: Article) => ToggleStatus(a, now))
  }

  /** The fields `handleSave` takes from the form, and the times it sets. */
  function ApplyForm(a: Article, form: Form, publishedAt: Option<int>, now: int, dateLabel: string): Article {
    a.(title := form.title, excerpt := form.excerpt, categoryId := form.categoryId,
       tags := ParseTags(form.tags), image := Some(form.image), content := form.content,
       status := Some(form.status),
       scheduledAt := if form.status == "booking" then form.scheduledAt else None,
       date := dateLabel, updatedAt := Some(now), publishedAt := publishedAt)
  }

  /** The form's text fields, cover and save time, as `handleSave` writes
      them into an article. */
  predicate TakesForm(a: Article, form: Form, now: int, dateLabel: string) {
    a.title == form.title && a.excerpt == form.excerpt && a.categoryId == form.categoryId &&
    a.image == Some(form.image) && a.content == form.content &&
    a.updatedAt == Some(now) && a.date == dateLabel
  }

  /** `handleSave`: the list handed to `saveToStorage`.  An edited article
      keeps its id, creation time and legacy flag and takes the form's
      fields; a new one goes in front. */
  function HandleSave(articles: seq<Article>, selected: Option<Article>, form: Form,
                      now: int, newId: string, dateLabel: string): (r: seq<Article>)
    ensures selected.Some? ==> (|r| == |articles| &&
      forall k :: 0 <= k < |articles| ==> r[k].id == articles[k].id && r[k].createdAt == articles[k].createdAt)
    ensures selected.None? ==> (|r| == |articles| + 1 && r[1..] == articles &&
      r[0].id == newId && r[0].createdAt == now && r[0].published.None?)
    ensures forall k :: 0 <= k < |r| && (selected.None? ==> k == 0) && (selected.Some? ==> articles[k].id == selected.value.id) ==>
      r[k].scheduledAt == (if form.status == "booking" then form.scheduledAt else None) &&
      r[k].tags == ParseTags(form.tags) && r[k].status == Some(form.status) &&
      (selected.Some? && selected.value.publishedAt.Some? ==> r[k].publishedAt == selected.value.publishedAt) &&
      (!(selected.Some? && selected.value.publishedAt.Some?) ==>
        r[k].publishedAt == (if form.status == "published" then Some(now) else None))
    ensures forall k :: 0 <= k < |r| && (selected.None? ==> k == 0) && (selected.Some? ==> articles[k].id == selected.value.id) ==>
      TakesForm(r[k], form, now, dateLabel)
    ensures selected.Some? ==> forall k :: 0 <= k < |articles| && articles[k].id == selected.value.id ==>
      r[k].published == articles[k].published
    ensures selected.Some? ==> forall k :: 0 <= k < |articles| && articles[k].id != selected.value.id ==> r[k] == articles[k]
  {
    var publishedAt :=
      if selected.Some? && selected.value.publishedAt.Some? then selected.value.publishedAt
      else if form.status == "published" then Some(now) else None;
    match selected
    case Some(s) => ReplaceById(articles, s.id, (a: Article) => ApplyForm(a, form, publishedAt, now, dateLabel))
    case None =>
      var blank := Article(newId, "", "", "", "", None, [], None, None, now, None, None, None, "");
      [ApplyForm(blank, form, publishedAt, now, dateLabel)] + articles
  }

  /** `handleDelete`. */
  function DeleteArticle(articles: seq<Article>, id: string): (r: seq<Article>)
    ensures forall a :: a in r <==> a in articles && a.id != id
    ensures Subsequence(r, articles)
    ensures |r| == Count(articles, (a: Article) => a.id != id)
  {
    FilterCount(articles, (a: Article) => a.id != id);
    Filter(articles, (a: Article) => a.id != id)
  }

  /** The form has no legacy flag, so a seeded article (`published: true`)
      saved as a draft reads `draft` yet is still published on the blog,
      as with `ToggleKeepsLegacyPublished`. */
  lemma SaveDraftKeepsLegacyPublished(articles: seq<Article>, s: Article, form: Form, now: int,
                                      newId: string, dateLabel: string, k: nat)
    requires k < |articles| && articles[k].id == s.id && articles[k].published == Some(true)
    requires form.status == "draft"
    ensures var r := HandleSave(articles, Some(s), form, now, newId, dateLabel);
      r[k].status == Some("draft") && IsPublished(r[k])
  {
  }

  /** `handleSave` with the legacy flag dropped from the edited article, so
      that the saved status alone decides what the blog shows. */
  function HandleSaveFixed(articles: seq<Article>, selected: Option<Article>, form: Form,
                           now: int, newId: string, dateLabel: string): (r: seq<Article>)
    ensures var saved := HandleSave(articles, selected, form, now, newId, dateLabel);
      |r| == |saved| &&
      forall k :: 0 <= k < |r| ==>
        r[k] == if selected.Some? && saved[k].id == selected.value.id then saved[k].(published := None) else saved[k]
  {
    var saved := HandleSave(articles, selected, form, now, newId, dateLabel);
    seq(|saved|, k requires 0 <= k < |saved| =>
      if selected.Some? && saved[k].id == selected.value.id then saved[k].(published := None) else saved[k])
  }

  /** With the fix, every article the save writes is on the blog exactly
      when the form says `published`. */
  lemma HandleSaveFixedDecides(articles: seq<Article>, selected: Option<Article>, form: Form,
                               now: int, newId: string, dateLabel: string, k: nat)
    requires selected.Some? ==> k < |articles| && articles[k].id == selected.value.id
    requires selected.None? ==> k == 0
    ensures var r := HandleSaveFixed(articles, selected, form, now, newId, dateLabel);
      k < |r| && (IsPublished(r[k]) <==> form.status == "published")
  {
    var saved := HandleSave(articles, selected, form, now, newId, dateLabel);
    assert saved[k].status == Some(form.status);
    if selected.Some? {
      assert saved[k].id == selected.value.id;
    }
  }

  /** Saving the same edit twice leaves what the first save left: every
      field the form sets it sets again to the same value. */
  lemma SaveEditIdempotent(articles: seq<Article>, s: Article, form: Form, now: int, newId: string, dateLabel: string)
    ensures HandleSave(HandleSave(articles, Some(s), form, now, newId, dateLabel), Some(s), form, now, newId, dateLabel)
         == HandleSave(articles, Some(s), form, now, newId, dateLabel)
  {
    var once := HandleSave(articles, Some(s), form, now, newId, dateLabel);
    var twice := HandleSave(once, Some(s), form, now, newId, dateLabel);
    forall k | 0 <= k < |once|
      ensures twice[k] == once[k]
    {
      if articles[k].id == s.id {
        assert once[k].id == s.id;
      }
    }
  }
}

=== FILE: api.dfy ===
/** What the analysis routes do with the language model's answer before
    parsing it: strip Markdown code fences, then trim.  Shared by
    src/app/api/analyze-image, analyze-style and analyze-article. */
module Reply {
  import opened Wrappers
  import opened Text

  /** The text `/```json\n?/` matches at `j`: the end of the match. */
  function JsonFenceAt(s: string, j: nat): Option<nat> {
    if OccursAt(s, "```json\n", j) then Some(j + 8)
    else if OccursAt(s, "```json", j) then Some(j + 7)
    else None
  }

  /** The text `/```\n?/` matches at `j`: the end of the match. */
  function FenceAt(s: string, j: nat): Option<nat> {
    if OccursAt(s, "```\n", j) then Some(j + 4)
    else if OccursAt(s, "```", j) then Some(j + 3)
    else None
  }

  predicate NoBacktick(s: string) {
    forall k :: 0 <= k < |s| ==> s[k] != '`'
  }

  /** Both fence patterns start with a backtick. */
  lemma FencesNeedBacktick(s: string, j: nat)
    requires j < |s| && s[j] != '`'
    ensures JsonFenceAt(s, j).None? && FenceAt(s, j).None?
  {
  }

  /** Every fence match ends after it starts and inside the text. */
  lemma FencePatternsShrink(s: string)
    ensures Shrinks(s, JsonFenceAt, "") && Shrinks(s, FenceAt, "")
  {
  }

  /** `text.replace(/```json\n?/g, '').replace(/```\n?/g, '').trim()`. */
  function StripFences(s: string): (r: string)
    ensures |r| <= |s|
    ensures NoBacktick(s) ==> r == Trim(s)
  {
    var once := ReplaceAll(s, JsonFenceAt, "");
    var twice := ReplaceAll(once, FenceAt, "");
    NoFences(s);
    TrimSpec(twice);
    Trim(twice)
  }

  /** Without a backtick neither fence pattern matches anywhere. */
  lemma NoFences(s: string)
    ensures NoBacktick(s) ==> forall j: nat :: j < |s| ==> JsonFenceAt(s, j).None? && FenceAt(s, j).None?
  {
    if NoBacktick(s) {
      forall j: nat | j < |s|
        ensures JsonFenceAt(s, j).None? && FenceAt(s, j).None?
      {
        FencesNeedBacktick(s, j);
      }
    }
  }

  /** An answer wrapped in a ```json fence gives back the body, trimmed. */
  lemma FencedReply(body: string)
    requires NoBacktick(body)
    ensures StripFences("```json\n" + body + "\n```") == Trim(body)
  {
    OpeningFence(body);
    ClosingFence(body);
    TrimNewline(body);
  }

  /** The first pass removes the opening fence and nothing else. */
  lemma OpeningFence(body: string)
    requires NoBacktick(body)
    ensures ReplaceAll("```json\n" + body + "\n```", JsonFenceAt, "") == body + "\n```"
  {
    var s := "```json\n" + body + "\n```";
    FencePatternsShrink(s);
    OpeningFenceShape(body);
    ReplaceQuietRun(s, 8, |s|, JsonFenceAt, "");
  }

  /** In a fenced answer the opening fence matches at the start and nowhere
      after it. */
  lemma OpeningFenceShape(body: string)
    requires NoBacktick(body)
    ensures var s := "```json\n" + body + "\n```";
      JsonFenceAt(s, 0) == Some(8) && s[8..] == body + "\n```" &&
      forall j: nat :: 8 <= j < |s| ==> JsonFenceAt(s, j).None?
  {
    var s := "```json\n" + body + "\n```";
    var n := |body|;
    assert s[..8] == "```json\n";
    assert OccursAt(s, "```json\n", 0);
    forall j: nat | 8 <= j < |s|
      ensures JsonFenceAt(s, j).None?
    {
      if j < n + 9 {
        if j < n + 8 {
          assert s[j] == body[j - 8];
        } else {
          assert s[j] == '\n';
        }
        FencesNeedBacktick(s, j);
      }
    }
    assert s[8..] == body + "\n```";
  }

  /** The second pass removes the closing fence and nothing else. */
  lemma ClosingFence(body: string)
    requires NoBacktick(body)
    ensures ReplaceAll(body + "\n```", FenceAt, "") == body + "\n"
  {
    var t := body + "\n```";
    var n := |body|;
    FencePatternsShrink(t);
    ClosingFenceShape(body);
    ReplaceQuietRun(t, 0, n + 1, FenceAt, "");
    FenceAtTail(body);
  }

  /** The closing fence itself is replaced by nothing. */
  lemma FenceAtTail(body: string)
    requires NoBacktick(body)
    ensures var t := body + "\n```";
      Shrinks(t, FenceAt, "") && ReplaceAllFrom(t, |body| + 1, FenceAt, "") == ""
  {
    FencePatternsShrink(body + "\n```");
    ClosingFenceShape(body);
  }

  /** Behind a backtick-free body the fence pattern matches only at the
      final three backticks. */
  lemma ClosingFenceShape(body: string)
    requires NoBacktick(body)
    ensures var t := body + "\n```";
      t[0..|body| + 1] == body + "\n" &&
      FenceAt(t, |body| + 1) == Some(|body| + 4) &&
      forall j: nat :: j < |body| + 1 ==> FenceAt(t, j).None?
  {
    var t := body + "\n```";
    var n := |body|;
    forall j: nat | j < n + 1
      ensures FenceAt(t, j).None?
    {
      if j < n {
        assert t[j] == body[j];
      } else {
        assert t[j] == '\n';
      }
      FencesNeedBacktick(t, j);
    }
    assert t[n + 1..n + 4] == "```";
    assert t[0..n + 1] == body + "\n";
  }

  /** `error.message || '分析失敗'`: the message of a failed model call. */
  function FailureMessage(message: Option<string>): (r: string)
    ensures r != ""
    ensures Truthy(message) ==> r == message.value
    ensures !Truthy(message) ==> r == "分析失敗"
  {
    OrString(message, "分析失敗")
  }

  /** The model call: its answer text, or the message of what it threw
      (`None` when the error carries none). */
  type Answer = Result<string, Option<string>>
}

/** src/app/api/chat/route.js: turning incoming chat messages into the
    model's message format.  The streamed model reply is not modelled. */
module ChatRoute {
  import opened Wrappers
  import opened Seqs
  import opened Text

  /** One element of a UI message's `parts`. */
  datatype Part = Part(kind: string, text: Option<string>)

  /** The `content` field: a string, or anything else. */
  datatype Content = TextContent(text: string) | OtherContent

  /** A message as it arrives; `parts` is `None` unless it is an array. */
  datatype Incoming = Incoming(role: string, content: Content, parts: Option<seq<Part>>)

  /** The request's `messages`: an array, or not. */
  datatype Messages = MessageArray(items: seq<Incoming>) | NotArray

  datatype Message = Message(role: string, content: string)

  /** The `text` parts joined with no separator; other parts count for
      nothing and a missing text for the empty string. */
  function PartsText(parts: seq<Part>): string {
    if parts == [] then ""
    else (if parts[0].kind == "text" then parts[0].text.GetOr("") else "") + PartsText(parts[1..])
  }

  /** The text of a run of parts is the texts of its pieces, in order. */
  lemma {:induction false} PartsTextAppend(a: seq<Part>, b: seq<Part>)
    ensures PartsText(a + b) == PartsText(a) + PartsText(b)
    decreases |a|
  {
    if a == [] {
      assert a + b == b;
    } else {
      var head := if a[0].kind == "text" then a[0].text.GetOr("") else "";
      assert (a + b)[0] == a[0];
      assert (a + b)[1..] == a[1..] + b;
      PartsTextAppend(a[1..], b);
      assert PartsText(a + b) == head + (PartsText(a[1..]) + PartsText(b));
      assert head + (PartsText(a[1..]) + PartsText(b)) == (head + PartsText(a[1..])) + PartsText(b);
    }
  }

  /** A string `content` wins; then the parts; otherwise nothing. */
  function Convert(m: Incoming): (r: Message)
    ensures r.role == m.role
    ensures m.content.TextContent? ==> r.content == m.content.text
    ensures m.content.OtherContent? && m.parts.Some? ==> r.content == PartsText(m.parts.value)
    ensures m.content.OtherContent? && m.parts.None? ==> r.content == ""
  {
    match m.content
    case TextContent(s) => Message(m.role, s)
    case OtherContent =>
      match m.parts
      case Some(ps) => Message(m.role, PartsText(ps))
      case None => Message(m.role, "")
  }

  function Converted(items: seq<Incoming>): (r: seq<Message>)
    ensures |r| == |items| && forall k :: 0 <= k < |items| ==> r[k] == Convert(items[k])
  {
    seq(|items|, k requires 0 <= k < |items| => Convert(items[k]))
  }

  predicate HasContent(m: Message) { |m.content| > 0 }

  /** `normalizeMessages`. */
  function Normalize(messages: Messages): (r: seq<Message>)
    ensures messages.NotArray? ==> r == []
    ensures forall k :: 0 <= k < |r| ==> r[k].content != ""
    ensures messages.MessageArray? ==>
      forall x :: x in r <==> x.content != "" && exists k :: 0 <= k < |messages.items| && x == Convert(messages.items[k])
    ensures messages.MessageArray? ==> Subsequence(r, Converted(messages.items))
  {
    match messages
    case NotArray => []
    case MessageArray(items) =>
      NormalizedMembers(items);
      Filter(Converted(items), HasContent)
  }

  lemma NormalizedMembers(items: seq<Incoming>)
    ensures forall x :: x in Filter(Converted(items), HasContent) <==>
      x.content != "" && exists k :: 0 <= k < |items| && x == Convert(items[k])
    ensures forall k :: 0 <= k < |Filter(Converted(items), HasContent)| ==>
      Filter(Converted(items), HasContent)[k].content != ""
  {
    var r := Filter(Converted(items), HasContent);
    forall x
      ensures x in r <==> x.content != "" && exists k :: 0 <= k < |items| && x == Convert(items[k])
    {
      if x.content != "" && exists k :: 0 <= k < |items| && x == Convert(items[k]) {
        var k :| 0 <= k < |items| && x == Convert(items[k]);
        assert Converted(items)[k] == x;
      }
    }
    forall k | 0 <= k < |r|
      ensures r[k].content != ""
    {
      assert r[k] in r;
    }
  }

  /** The message as it would come back in: plain string content. */
  function AsIncoming(m: Message): Incoming { Incoming(m.role, TextContent(m.content), None) }

  function AllAsIncoming(ms: seq<Message>): (r: seq<Incoming>)
    ensures |r| == |ms| && forall k :: 0 <= k < |ms| ==> r[k] == AsIncoming(ms[k])
  {
    seq(|ms|, k requires 0 <= k < |ms| => AsIncoming(ms[k]))
  }

  /** Normalising what was normalised changes nothing. */
  lemma NormalizeIdempotent(messages: Messages)
    ensures Normalize(MessageArray(AllAsIncoming(Normalize(messages)))) == Normalize(messages)
  {
    var r := Normalize(messages);
    var items := AllAsIncoming(r);
    assert Converted(items) == r;
    forall x | x in r
      ensures HasContent(x)
    {
    }
    FilterAll(r, HasContent);
  }

  /** A parts message keeps the texts in order and drops the rest. */
  lemma PartsInOrder(role: string, a: string, b: string, other: Part)
    requires other.kind != "text" && a + b != ""
    ensures Normalize(MessageArray([Incoming(role, OtherContent,
              Some([Part("text", Some(a)), other, Part("text", Some(b))]))])) == [Message(role, a + b)]
  {
    var ps := [Part("text", Some(a)), other, Part("text", Some(b))];
    assert PartsText(ps[2..]) == b + PartsText([]) by {
      assert ps[2..][1..] == [];
    }
    assert PartsText(ps[1..]) == "" + PartsText(ps[2..]) by {
      assert ps[1..][1..] == ps[2..];
    }
    assert PartsText(ps) == a + PartsText(ps[1..]);
    assert PartsText(ps) == a + b;
    var items := [Incoming(role, OtherContent, Some(ps))];
    assert Converted(items) == [Message(role, a + b)];
    FilterAll(Converted(items), HasContent);
  }

  /** The error body when the request fails: a missing API key is named,
      otherwise the thrown message or a generic one. */
  function ErrorText(hasKey: bool, message: Option<string>): (r: string)
    ensures !hasKey ==> r == "未設定 GeminiAPIKey 環境變數"
    ensures hasKey ==> r == OrString(message, "發生未知錯誤") && r != ""
  {
    if !hasKey then "未設定 GeminiAPIKey 環境變數" else OrString(message, "發生未知錯誤")
  }
}

/** src/app/api/analyze-image/route.js: scene suggestions for a passage. */
module ImageRoute {
  import opened Wrappers
  import opened Text
  import opened Reply

  const DefaultStyle := "童話插畫"
  const MissingContent := "請提供文章內容"

  datatype CoverSuggestion = CoverSuggestion(description: string, prompt: string)
  datatype SceneSuggestion = SceneSuggestion(sceneIndex: int, originalText: string, sceneDescription: string,
                                             prompt: string)

  /** The fields of the parsed answer the route reads. */
  datatype ImageAnalysis = ImageAnalysis(scenes: Option<seq<SceneSuggestion>>, coverImage: Option<CoverSuggestion>)

  datatype Body =
    | Error(error: string)
    | SuggestionOnly(suggestion: string)
    | Scenes(scenes: seq<SceneSuggestion>, coverImage: Option<CoverSuggestion>, suggestion: string)

  datatype Response = Response(status: nat, body: Body)

  /** The destructuring default applies only when `style` is absent; an
      empty style is kept. */
  function StyleOf(style: Option<string>): (r: string)
    ensures style.None? ==> r == DefaultStyle
    ensures style.Some? ==> r == style.value
  {
    style.GetOr(DefaultStyle)
  }

  /** What `JSON.parse` makes of the cleaned answer, as far as the route
      reads it: not JSON, the literal `null`, or a value whose `scenes` and
      `coverImage` are read (a number, string or boolean has neither). */
  datatype Parsed = NotJson | JsonNull | Value(analysis: ImageAnalysis)

  /** The message of the `TypeError` that reading `scenes` off `null`
      throws in V8. */
  const NullRead := "Cannot read properties of null (reading 'scenes')"

  /** `POST`.  `ask(style, content)` is the model's answer under the system
      prompt for `style`; `parse` is `JSON.parse`.  A `null` answer parses,
      and then reading its fields throws into the 500 handler. */
  function Post(content: Option<string>, style: Option<string>, ask: (string, string) -> Answer,
                parse: string -> Parsed): (r: Response)
    ensures r.status == 400 <==> !Truthy(content)
    ensures r.status == 400 ==> r.body == Error(MissingContent)
    ensures r.status == 500 <==>
      Truthy(content) &&
      (ask(StyleOf(style), content.value).Failure? ||
       parse(StripFences(ask(StyleOf(style), content.value).value)).JsonNull?)
    ensures r.status == 500 ==> var answer := ask(StyleOf(style), content.value);
      r.body == Error(if answer.Failure? then FailureMessage(answer.error) else NullRead)
    ensures r.status == 200 ==> Truthy(content) && ask(StyleOf(style), content.value).Success?
    ensures r.status == 200 ==> var raw := ask(StyleOf(style), content.value).value;
      match parse(StripFences(raw))
      case NotJson => r.body == SuggestionOnly(raw)
      case JsonNull => false
      case Value(a) => r.body == Scenes(a.scenes.GetOr([]), a.coverImage, raw)
  {
    if !Truthy(content) then Response(400, Error(MissingContent))
    else match ask(StyleOf(style), content.value)
      case Failure(m) => Response(500, Error(FailureMessage(m)))
      case Success(raw) =>
        match parse(StripFences(raw))
        case NotJson => Response(200, SuggestionOnly(raw))
        case JsonNull => Response(500, Error(NullRead))
        case Value(a) => Response(200, Scenes(a.scenes.GetOr([]), a.coverImage, raw))
  }

  /** The model is never asked about an empty or missing passage: the
      answer for it makes no difference. */
  lemma NoContentNoQuestion(content: Option<string>, style: Option<string>, ask1: (string, string) -> Answer,
                            ask2: (string, string) -> Answer, parse: string -> Parsed)
    requires !Truthy(content)
    ensures Post(content, style, ask1, parse) == Post(content, style, ask2, parse)
  {
  }

  /** An answer that is not JSON still succeeds, carrying the raw text. */
  lemma UnparsedIsSuggestion(content: Option<string>, style: Option<string>, ask: (string, string) -> Answer,
                             parse: string -> Parsed)
    requires Truthy(content) && ask(StyleOf(style), content.value).Success?
    requires parse(StripFences(ask(StyleOf(style), content.value).value)).NotJson?
    ensures Post(content, style, ask, parse).status == 200
    ensures Post(content, style, ask, parse).body.SuggestionOnly?
  {
  }

  /** A fenced `null`, which parses, is answered with 500 and the
      `TypeError`'s message, though the model call succeeded. */
  lemma NullAnswerFails(content: Option<string>, style: Option<string>, ask: (string, string) -> Answer,
                        parse: string -> Parsed)
    requires Truthy(content) && ask(StyleOf(style), content.value) == Success("```json\n" + "null" + "\n```")
    requires parse("null") == JsonNull
    ensures Post(content, style, ask, parse) == Response(500, Error(NullRead))
  {
    FencedNullStripped();
  }

  lemma FencedNullStripped()
    ensures StripFences("```json\n" + "null" + "\n```") == "null"
  {
    NullPlain();
    FencedReply("null");
  }

  lemma NullPlain()
    ensures NoBacktick("null") && Trim("null") == "null"
  {
    assert Trimmed("null");
    TrimSpec("null");
  }
}

/** src/app/api/analyze-style/route.js: a writing or visual style analysis. */
module StyleRoute {
  import opened Wrappers
  import opened Text
  import opened Reply

  const BadType := "請指定分析類型 (writing / visual)"
  const MissingContent := "請提供文章內容"
  const MissingImage := "請提供圖片"
  /** How much of an unparsed answer becomes its summary. */
  const SummaryLength := 100

  datatype Kind = Writing | Visual

  /** `type`, accepted only as one of the two names. */
  function KindOf(t: Option<string>): (r: Option<Kind>)
    ensures r == Some(Writing) <==> t == Some("writing")
    ensures r == Some(Visual) <==> t == Some("visual")
  {
    if t == Some("writing") then Some(Writing)
    else if t == Some("visual") then Some(Visual)
    else None
  }

  predicate IsWordChar(c: char) {
    ('a' <= c <= 'z') || ('A' <= c <= 'Z') || ('0' <= c <= '9') || c == '_'
  }

  /** How many word characters run from index `i`. */
  function WordRun(s: string, i: nat): (r: nat)
    ensures i + r <= |s| || (i > |s| && r == 0)
    ensures forall k :: i <= k < i + r ==> IsWordChar(s[k])
    ensures i + r < |s| ==> !IsWordChar(s[i + r])
    decreases |s| - i
  {
    if i < |s| && IsWordChar(s[i]) then 1 + WordRun(s, i + 1) else 0
  }

  const DataPrefix := "data:image/"
  const Base64Marker := ";base64,"

  /** `imageBase64.replace(/^data:image\/\w+;base64,/, '')`. */
  function StripDataUri(s: string): (r: string)
    ensures |r| <= |s| && r == s[|s| - |r|..]
    ensures !StartsWith(s, DataPrefix) ==> r == s
  {
    if StartsWith(s, DataPrefix) then
      var n := WordRun(s, 11);
      if n > 0 && OccursAt(s, Base64Marker, 11 + n) then s[11 + n + 8..] else s
    else s
  }

  /** The image format prefix comes off and the data is left. */
  lemma StripDataUriPrefix(format: string, data: string)
    requires |format| > 0 && forall k :: 0 <= k < |format| ==> IsWordChar(format[k])
    ensures StripDataUri(DataPrefix + format + Base64Marker + data) == data
  {
    var s := DataPrefix + format + Base64Marker + data;
    var n := |format|;
    assert s[..11] == DataPrefix;
    WordRunOver(s, 11, format);
    assert s[11 + n] == ';';
    assert WordRun(s, 11) == n;
    assert s[11 + n..11 + n + 8] == Base64Marker;
    assert s[11 + n + 8..] == data;
  }

  lemma {:induction false} WordRunOver(s: string, i: nat, w: string)
    requires i + |w| <= |s| && s[i..i + |w|] == w
    requires forall k :: 0 <= k < |w| ==> IsWordChar(w[k])
    ensures WordRun(s, i) >= |w|
    decreases |w|
  {
    if w != [] {
      assert s[i] == w[0];
      assert s[i + 1..i + 1 + |w[1..]|] == w[1..];
      WordRunOver(s, i + 1, w[1..]);
    }
  }

  /** The analysis body: the parsed JSON, or the raw answer packed as a
      summary (its first hundred characters), raw analysis and prompt. */
  datatype Analysis<A> = Parsed(value: A) | Unparsed(summary: string, rawAnalysis: string, promptForAI: string)

  datatype Body<A> = Error(error: string) | Analyzed(kind: Kind, analysis: Analysis<A>)

  datatype Response<A> = Response(status: nat, body: Body<A>)

  /** The answer read as JSON, or packed as text. */
  function Interpret<A>(raw: string, parse: string -> Option<A>): (r: Analysis<A>)
    ensures parse(StripFences(raw)).Some? ==> r == Parsed(parse(StripFences(raw)).value)
    ensures parse(StripFences(raw)).None? ==>
      r.Unparsed? && r.rawAnalysis == raw && r.promptForAI == raw && r.summary == Take(raw, SummaryLength)
  {
    match parse(StripFences(raw))
    case Some(a) => Parsed(a)
    case None => Unparsed(Take(raw, SummaryLength), raw, raw)
  }

  /** `POST`.  `askWriting(content)` and `askVisual(image)` are the model's
      answers to the writing and visual prompts. */
  function Post<A>(content: Option<string>, t: Option<string>, imageBase64: Option<string>,
                   askWriting: string -> Answer, askVisual: string -> Answer,
                   parse: string -> Option<A>): (r: Response<A>)
    ensures KindOf(t).None? <==> r == Response(400, Error(BadType))
    ensures KindOf(t) == Some(Writing) && !Truthy(content) <==> r == Response(400, Error(MissingContent))
    ensures KindOf(t) == Some(Visual) && !Truthy(imageBase64) <==> r == Response(400, Error(MissingImage))
    ensures r.status == 200 ==> KindOf(t).Some? && r.body.Analyzed? && r.body.kind == KindOf(t).value
    ensures KindOf(t) == Some(Visual) && Truthy(imageBase64) ==>
      match askVisual(StripDataUri(imageBase64.value))
      case Failure(m) => r == Response(500, Error(FailureMessage(m)))
      case Success(raw) => r == Response(200, Analyzed(Visual, Interpret(raw, parse)))
    ensures KindOf(t) == Some(Writing) && Truthy(content) ==>
      match askWriting(content.value)
      case Failure(m) => r == Response(500, Error(FailureMessage(m)))
      case Success(raw) => r == Response(200, Analyzed(Writing, Interpret(raw, parse)))
  {
    match KindOf(t)
    case None => Response(400, Error(BadType))
    case Some(kind) =>
      var answer: Option<Answer> :=
        if kind == Writing then
          if !Truthy(content) then None else Some(askWriting(content.value))
        else
          if !Truthy(imageBase64) then None else Some(askVisual(StripDataUri(imageBase64.value)));
      match answer
      case None => Response(400, Error(if kind == Writing then MissingContent else MissingImage))
      case Some(Failure(m)) => Response(500, Error(FailureMessage(m)))
      case Some(Success(raw)) => Response(200, Analyzed(kind, Interpret(raw, parse)))
  }

  /** A visual request sends the bare image data to the model. */
  lemma VisualSendsBareData<A>(format: string, data: string, content: Option<string>,
                               askWriting: string -> Answer, askVisual: string -> Answer, parse: string -> Option<A>)
    requires |format| > 0 && forall k :: 0 <= k < |format| ==> IsWordChar(format[k])
    requires data != "" && askVisual(data).Success?
    ensures Post(content, Some("visual"), Some(DataPrefix + format + Base64Marker + data), askWriting, askVisual, parse)
      == Response(200, Analyzed(Visual, Interpret(askVisual(data).value, parse)))
  {
    StripDataUriPrefix(format, data);
  }
}

/** src/app/api/analyze-article/route.js: image placement advice for a
    whole article of cards. */
module ArticleRoute {
  import opened Wrappers
  import opened Text
  import opened Reply

  const MissingCards := "請提供文章內容"
  const ParseFailed := "分析結果解析失敗"
  const Separator := "\n\n---\n\n"

  /** The label in front of card `i`. */
  function Label(i: nat): string { "[段落 " + Dec(i) + "]\n" }

  function Paragraph(i: nat, content: string): string { Label(i) + content }

  function Paragraphs(contents: seq<string>): (r: seq<string>)
    ensures |r| == |contents| && forall i :: 0 <= i < |contents| ==> r[i] == Paragraph(i, contents[i])
  {
    seq(|contents|, i requires 0 <= i < |contents| => Paragraph(i, contents[i]))
  }

  /** The prompt: the labelled cards, in order, between separators. */
  function Article(contents: seq<string>): (r: string)
    ensures forall i :: 0 <= i < |contents| ==> Contains(r, Paragraph(i, contents[i]))
    ensures |contents| == 1 ==> r == Paragraph(0, contents[0])
  {
    ArticleContains(contents);
    Join(Paragraphs(contents), Separator)
  }

  lemma ArticleContains(contents: seq<string>)
    ensures forall i :: 0 <= i < |contents| ==> Contains(Join(Paragraphs(contents), Separator), Paragraph(i, contents[i]))
  {
    forall i | 0 <= i < |contents|
      ensures Contains(Join(Paragraphs(contents), Separator), Paragraph(i, contents[i]))
    {
      JoinContains(Paragraphs(contents), Separator, i);
    }
  }

  /** One more card adds a separator and its labelled paragraph. */
  lemma ArticleSnoc(contents: seq<string>, c: string)
    requires |contents| >= 1
    ensures Article(contents + [c]) == Article(contents) + Separator + Paragraph(|contents|, c)
  {
    assert Paragraphs(contents + [c]) == Paragraphs(contents) + [Paragraph(|contents|, c)];
    JoinSnoc(Paragraphs(contents), Separator, Paragraph(|contents|, c));
  }

  datatype Body<A> = Error(error: string) | Unparseable(error: string, rawText: string) | Analyzed(analysis: A)

  datatype Response<A> = Response(status: nat, body: Body<A>)

  /** `POST`.  `cards` is `None` when missing; `ask(article)` is the model's
      answer. */
  function Post<A>(cards: Option<seq<string>>, ask: string -> Answer, parse: string -> Option<A>): (r: Response<A>)
    ensures r == Response(400, Error(MissingCards)) <==> cards.None? || cards.value == []
    ensures r.status == 200 <==> (cards.Some? && cards.value != [] && ask(Article(cards.value)).Success? &&
                                  parse(StripFences(ask(Article(cards.value)).value)).Some?)
    ensures r.status == 200 ==> r.body == Analyzed(parse(StripFences(ask(Article(cards.value)).value)).value)
    ensures r.body.Unparseable? <==> (cards.Some? && cards.value != [] && ask(Article(cards.value)).Success? &&
                                      parse(StripFences(ask(Article(cards.value)).value)).None?)
    ensures r.body.Unparseable? ==> r == Response(500, Unparseable(ParseFailed, ask(Article(cards.value)).value))
    ensures cards.Some? && cards.value != [] && ask(Article(cards.value)).Failure? ==>
      r == Response(500, Error(FailureMessage(ask(Article(cards.value)).error)))
  {
    if cards.None? || cards.value == [] then Response(400, Error(MissingCards))
    else match ask(Article(cards.value))
      case Failure(m) => Response(500, Error(FailureMessage(m)))
      case Success(raw) =>
        match parse(StripFences(raw))
        case None => Response(500, Unparseable(ParseFailed, raw))
        case Some(a) => Response(200, Analyzed(a))
  }
}

=== FILE: auth.dfy ===
/** The admin sign-in (src/context/AuthContext.js): fixed credentials, a
    session record in browser storage that expires after a day.  Times are
    milliseconds since the epoch, passed in. */
module Auth {
  import opened Wrappers
  import opened Text

  const AdminUsername := "bitlog-admin"
  /** The password when the environment does not set one. */
  const DefaultPassword := "CHANGE_ME"
  const WrongCredentials := "帳號或密碼錯誤"
  /** Twenty-four hours, in milliseconds. */
  const SessionLength := 86400000

  /** `process.env.REACT_APP_ADMIN_PASSWORD || 'CHANGE_ME'`. */
  function AdminPassword(env: Option<string>): (r: string)
    ensures r != ""
    ensures Truthy(env) ==> r == env.value
    ensures !Truthy(env) ==> r == DefaultPassword
  {
    OrString(env, DefaultPassword)
  }

  /** The stored record: a token and an expiry time, either possibly
      missing. */
  datatype Record = Record(token: Option<string>, expiry: Option<int>)

  /** The storage slot: nothing, something that is not valid JSON, or a
      record. */
  datatype Slot = Empty | Unreadable | Holds(record: Record)

  datatype Session = Session(authenticated: bool, loading: bool, slot: Slot)

  /** A record that still admits its holder at `now`. */
  predicate Admits(r: Record, now: int) {
    Truthy(r.token) && r.expiry.Some? && r.expiry.value > now
  }

  /** The check on mount: a live record signs the user in, a stale or
      incomplete one is removed, an unreadable one is left alone.  Loading
      ends either way. */
  function Restore(slot: Slot, now: int): (r: Session)
    ensures !r.loading
    ensures r.authenticated <==> slot.Holds? && Admits(slot.record, now)
    ensures r.authenticated ==> r.slot == slot
    ensures slot.Holds? && !Admits(slot.record, now) ==> r.slot == Empty
    ensures !slot.Holds? ==> r.slot == slot
  {
    match slot
    case Holds(record) =>
      if Admits(record, now) then Session(true, false, slot) else Session(false, false, Empty)
    case _ => Session(false, false, slot)
  }

  /** Restoring twice is restoring once. */
  lemma RestoreIdempotent(slot: Slot, now: int)
    ensures Restore(Restore(slot, now).slot, now) == Restore(slot, now)
  {
  }

  /** The token: the user name and the sign-in time (its base64 encoding
      is not modelled). */
  function Token(username: string, now: nat): (r: string)
    ensures r != "" && StartsWith(r, username + ":")
  {
    username + ":" + Dec(now)
  }

  /** How `login` ended: signed in, refused with a message, or thrown out
      of by a failing storage write, so that the page neither shows an
      error nor moves on. */
  datatype Outcome = SignedIn | Refused(error: string) | Threw

  /** `login`: the right pair stores a fresh record and then signs in;
      anything else reports the error.  The record is written first, so a
      write that fails (a full quota) throws before the sign-in and leaves
      the session as it was. */
  function Login(s: Session, username: string, password: string, env: Option<string>, now: nat,
                 write: WriteOutcome): (r: (Outcome, Session))
    ensures r.0.Refused? <==> !(username == AdminUsername && password == AdminPassword(env))
    ensures r.0 == SignedIn <==> username == AdminUsername && password == AdminPassword(env) && write == Written
    ensures r.0.Refused? ==> r.0 == Refused(WrongCredentials)
    ensures r.0 != SignedIn ==> r.1 == s
    ensures r.0 == SignedIn ==> r.1.authenticated && r.1.loading == s.loading
    ensures r.0 == SignedIn ==> r.1.slot == Holds(Record(Some(Token(username, now)), Some(now + SessionLength)))
  {
    if username == AdminUsername && password == AdminPassword(env) then
      if write == Written then
        (SignedIn, Session(true, s.loading, Holds(Record(Some(Token(username, now)), Some(now + SessionLength)))))
      else (Threw, s)
    else (Refused(WrongCredentials), s)
  }

  /** A sign-in is honoured on a later visit for exactly one day. */
  lemma LoginLastsADay(s: Session, env: Option<string>, now: nat, later: int)
    ensures var r := Login(s, AdminUsername, AdminPassword(env), env, now, Written);
      Restore(r.1.slot, later).authenticated <==> later < now + SessionLength
  {
  }

  /** Only the configured password signs in, whatever the storage does. */
  lemma WrongPasswordRefused(s: Session, password: string, env: Option<string>, now: nat, write: WriteOutcome)
    requires password != AdminPassword(env)
    ensures Login(s, AdminUsername, password, env, now, write) == (Refused(WrongCredentials), s)
  {
  }

  /** With full storage even the right pair leaves a signed-out user signed
      out, and a later visit finds no record to restore. */
  lemma FullStorageStaysSignedOut(env: Option<string>, now: nat, write: WriteOutcome, later: int)
    requires write != Written
    ensures var s := Session(false, false, Empty);
      var r := Login(s, AdminUsername, AdminPassword(env), env, now, write);
      r.0 == Threw && !r.1.authenticated && !Restore(r.1.slot, later).authenticated
  {
  }

  /** `logout`: the record goes and the user is signed out. */
  function Logout(s: Session): (r: Session)
    ensures !r.authenticated && r.slot == Empty && r.loading == s.loading
  {
    Session(false, s.loading, Empty)
  }

  /** After signing out, a later visit is not signed in. */
  lemma LogoutThenRestore(s: Session, now: int)
    ensures !Restore(Logout(s).slot, now).authenticated
  {
  }
}

=== FILE: blog.dfy ===
/** Blog articles, their categories and the public listing
    (src/data/blogData.js and src/app/blog/page.jsx).  Dates are modelled
    as the millisecond timestamps `new Date(…)` would parse them to. */
module Blog {
  import opened Wrappers
  import opened Seqs
  import opened Text

  /** An article as stored.  `published` is the legacy flag of the seeded
      articles (absent on articles the admin created); `status` is one of
      `draft`, `booking`, `published` when present. */
  datatype Article = Article(
    id: string,
    categoryId: string,
    title: string,
    excerpt: string,
    content: string,
    image: Option<string>,
    tags: seq<string>,
    status: Option<string>,
    published: Option<bool>,
    createdAt: int,
    publishedAt: Option<int>,
    scheduledAt: Option<int>,
    updatedAt: Option<int>,
    date: string)

  datatype Category = Category(id: string, title: string, subtitle: string)

  /** `BLOG_CATEGORIES`, in their declared order. */
  const Categories: seq<Category> := [
    Category("wishlist", "許願池", "WISHLIST"),
    Category("sense", "我們的 Sense", "OUR SENSE"),
    Category("ai-lab", "AI 行銷研究室", "AI MARKETING LAB"),
    Category("game-labs", "Game Labs", "INTERACTIVE PLAYGROUND"),
    Category("ops-labs", "OPS Labs", "PHYSICAL EXPERIMENTS")
  ]

  /** The placeholder image used wherever a picture is missing or too large. */
  const Placeholder := "/blog/demo_1.png"

  /** `isArticlePublished`: a defined legacy flag alone decides; otherwise
      the status does. */
  predicate IsPublished(a: Article) {
    match a.published
    case Some(flag) => flag
    case None => a.status == Some("published")
  }

  /** The two formats agree on articles that carry only one of them. */
  lemma IsPublishedFormats(a: Article)
    ensures a.published.None? ==> (IsPublished(a) <==> a.status == Some("published"))
    ensures a.published.Some? ==> (IsPublished(a) <==> a.published.value)
    ensures a.published == Some(true) ==> IsPublished(a.(status := Some("draft")))
  {
  }

  /** `getCategoryById`: the first category with that id. */
  function CategoryById(id: string): (r: Option<Category>)
    ensures r.Some? <==> exists k :: 0 <= k < |Categories| && Categories[k].id == id
    ensures r.Some? ==> r.value.id == id && r.value in Categories
  {
    match FindIndex(Categories, (c: Category) => c.id == id)
    case Some(k) => Some(Categories[k])
    case None => None
  }

  /** Exactly the five declared ids are known. */
  lemma KnownCategories(id: string)
    ensures CategoryById(id).Some? <==>
      id in {"wishlist", "sense", "ai-lab", "game-labs", "ops-labs"}
  {
    if id in {"wishlist", "sense", "ai-lab", "game-labs", "ops-labs"} {
      assert id == Categories[0].id || id == Categories[1].id || id == Categories[2].id ||
             id == Categories[3].id || id == Categories[4].id;
    }
  }

  /** What reading `blogsys_articles` gave: nothing, text that does not
      parse, or a parsed value (`null` or a list). */
  datatype Stored = Absent | Unparseable | Parsed(value: Option<seq<Article>>)

  /** `getStoredArticles`: the stored list when there is a non-empty one,
      the seeded `defaults` otherwise (also on the server, where there is no
      storage). */
  function StoredArticles(onServer: bool, stored: Stored, defaults: seq<Article>): (r: seq<Article>)
    ensures r == defaults || (stored.Parsed? && stored.value == Some(r) && |r| > 0)
    ensures !onServer && stored.Parsed? && stored.value.Some? && |stored.value.value| > 0 ==>
      r == stored.value.value
    ensures onServer || !(stored.Parsed? && stored.value.Some?) ==> r == defaults
  {
    if onServer then defaults
    else match stored
      case Parsed(Some(list)) => if |list| > 0 then list else defaults
      case _ => defaults
  }

  /** Whatever is stored, a non-empty seed yields a non-empty list. */
  lemma StoredNeverEmpty(onServer: bool, stored: Stored, defaults: seq<Article>)
    requires |defaults| > 0
    ensures |StoredArticles(onServer, stored, defaults)| > 0
  {
  }

  /** `getArticlesByCategory` over the stored list: the published articles
      of that category, in stored order. */
  function ArticlesByCategory(articles: seq<Article>, categoryId: string): (r: seq<Article>)
    ensures forall a :: a in r <==> a in articles && a.categoryId == categoryId && IsPublished(a)
    ensures Subsequence(r, articles)
  {
    Filter(articles, (a: Article) => a.categoryId == categoryId && IsPublished(a))
  }

  /** `getAllPublishedArticles`: the published seeded articles, whatever the
      admin stored. */
  function AllPublished(defaults: seq<Article>): (r: seq<Article>)
    ensures forall a :: a in r <==> a in defaults && IsPublished(a)
    ensures Subsequence(r, defaults)
  {
    Filter(defaults, IsPublished)
  }

  /** Every category listing is a part of the whole published listing. */
  lemma ByCategoryWithinAll(defaults: seq<Article>, categoryId: string)
    ensures forall a :: a in ArticlesByCategory(defaults, categoryId) ==> a in AllPublished(defaults)
  {
  }

  // ---------------------------------------------------------------- listing page

  /** Some tag contains the query, ignoring case (`tags.some(…)`). */
  predicate SomeTagMatches(tags: seq<string>, query: string) {
    exists k :: 0 <= k < |tags| && ContainsIgnoreCase(tags[k], query)
  }

  /** The search box: a non-empty query must occur in the title, the
      excerpt or a tag; an empty one lets everything through. */
  predicate MatchesQuery(a: Article, query: string) {
    query == "" ||
    ContainsIgnoreCase(a.title, query) || ContainsIgnoreCase(a.excerpt, query) ||
    SomeTagMatches(a.tags, query)
  }

  /** The category tabs: `all` or the article's own category. */
  predicate InCategory(a: Article, category: string) {
    category == "all" || a.categoryId == category
  }

  predicate Shown(a: Article, category: string, query: string) {
    InCategory(a, category) && MatchesQuery(a, query)
  }

  function CreatedAt(a: Article): int { a.createdAt }

  /** `filteredArticles`: the shown articles, newest first; articles with
      the same date keep their order. */
  function FilteredArticles(articles: seq<Article>, category: string, query: string): (r: seq<Article>)
    ensures SortedDesc(r, CreatedAt)
    ensures forall a :: a in r <==> a in articles && Shown(a, category, query)
    ensures |r| <= |articles|
    ensures multiset(r) == multiset(Filter(articles, ShownBy(category, query)))
    ensures forall t :: Filter(r, KeyIs(CreatedAt, t)) == Filter(Filter(articles, ShownBy(category, query)), KeyIs(CreatedAt, t))
  {
    SortFilterMembers(articles, ShownBy(category, query), CreatedAt);
    SortDescStable(Filter(articles, ShownBy(category, query)), CreatedAt);
    SortDesc(Filter(articles, ShownBy(category, query)), CreatedAt)
  }

  /** The listing's filter, as a predicate on articles. */
  function ShownBy(category: string, query: string): Article -> bool {
    (a: Article) => Shown(a, category, query)
  }

  /** With the `all` tab and an empty query every article is listed, each
      exactly as often as it occurs. */
  lemma ListAll(articles: seq<Article>)
    ensures multiset(FilteredArticles(articles, "all", "")) == multiset(articles)
  {
    FilterAll(articles, (a: Article) => Shown(a, "all", ""));
  }

  /** Picking a category never shows an article of another one. */
  lemma ListCategory(articles: seq<Article>, category: string, query: string)
    requires category != "all"
    ensures forall a :: a in FilteredArticles(articles, category, query) ==> a.categoryId == category
  {
  }

  /** `?category=…` selects a tab only when it names a known category. */
  function AcceptCategoryParam(current: string, param: Option<string>): (r: string)
    ensures Truthy(param) && CategoryById(param.value).Some? ==> r == param.value
    ensures !(Truthy(param) && CategoryById(param.value).Some?) ==> r == current
    ensures r == current || CategoryById(r).Some?
  {
    if Truthy(param) && CategoryById(param.value).Some? then param.value else current
  }
}

=== FILE: canvas.dfy ===
/** The AI editor's canvas: the ordered list of pinned content cards that
    make up a draft article (src/app/admin/blog/ai-editor/page.jsx).  Each
    operation is one of the page's copy-on-write `setPinnedCards(prev => …)`
    updaters; ids and timestamps, which the page draws from the clock, are
    parameters. */
module Canvas {
  import opened Wrappers
  import opened Seqs

  /** One image attached to a card.  `originalText` present and non-empty
      marks a scene-anchored image; `sceneIndex` orders those. */
  datatype ImageAttachment = ImageAttachment(
    url: string,
    prompt: Option<string>,
    originalText: Option<string>,
    sceneIndex: Option<int>)

  /** One scene of the image tool, as the analyzer proposed it plus the
      tool's per-scene generation state. */
  datatype Scene = Scene(
    sceneIndex: int,
    originalText: Option<string>,
    description: string,
    prompt: Option<string>,
    editablePrompt: Option<string>,
    referenceImage: Option<string>,
    generating: bool,
    generatedImage: Option<string>)

  /** The whole-card cover-image suggestion of the image tool. */
  datatype Cover = Cover(
    description: string,
    prompt: Option<string>,
    editablePrompt: Option<string>,
    referenceImage: Option<string>,
    generating: bool,
    generatedImage: Option<string>)

  /** A content card.  `images` is absent on cards that never received an
      image; `image`/`imagePrompt` are the legacy single-image mirror;
      `scenes`, `cover` and `referenceImage` cache the last image analysis. */
  datatype Card = Card(
    id: string,
    content: string,
    createdAt: int,
    image: Option<string>,
    imagePrompt: Option<string>,
    images: Option<seq<ImageAttachment>>,
    scenes: Option<seq<Scene>>,
    cover: Option<Cover>,
    referenceImage: Option<string>)

  /** The card `handlePin` and `addEmptyCard` create. */
  function NewCard(id: string, content: string, now: int): Card {
    Card(id, content, now, None, None, None, None, None, None)
  }

  predicate HasId(cards: seq<Card>, id: string) {
    exists k :: 0 <= k < |cards| && cards[k].id == id
  }

  /** Position of the first card with this id (`findIndex`). */
  function IndexOf(cards: seq<Card>, id: string): (r: Option<nat>)
    ensures r.Some? <==> HasId(cards, id)
    ensures r.Some? ==> r.value < |cards| && cards[r.value].id == id
    ensures r.Some? ==> forall j :: 0 <= j < r.value ==> cards[j].id != id
  {
    FindIndex(cards, (c: Card) => c.id == id)
  }

  // ---------------------------------------------------------------- add / edit / delete

  /** `handlePin`: the message's text becomes a new image-less card at the end. */
  function Pin(cards: seq<Card>, id: string, content: string, now: int): (r: seq<Card>)
    ensures |r| == |cards| + 1 && r[..|cards|] == cards
    ensures r[|cards|].id == id && r[|cards|].content == content
    ensures r[|cards|].images.None? && r[|cards|].image.None? && r[|cards|].imagePrompt.None?
  {
    cards + [NewCard(id, content, now)]
  }

  /** `addEmptyCard`: an empty card at the end, which the page then opens for
      editing (the returned id is the one being edited). */
  function AddEmpty(cards: seq<Card>, id: string, now: int): (r: (seq<Card>, string))
    ensures |r.0| == |cards| + 1 && r.0[..|cards|] == cards
    ensures r.0[|cards|].id == r.1 == id && r.0[|cards|].content == ""
  {
    (Pin(cards, id, "", now), id)
  }

  /** `handleDeleteCard`: every card with that id goes, the rest keep order. */
  function Delete(cards: seq<Card>, id: string): (r: seq<Card>)
    ensures !HasId(r, id)
    ensures Subsequence(r, cards)
    ensures forall c :: c in cards && c.id != id ==> c in r
    ensures |r| == Count(cards, (c: Card) => c.id != id)
  {
    FilterCount(cards, (c: Card) => c.id != id);
    var r := Filter(cards, (c: Card) => c.id != id);
    assert forall k :: 0 <= k < |r| ==> r[k] in r;
    r
  }

  /** `handleSaveEdit`: the card being edited gets the edited text; nothing
      else changes.  With no card being edited nothing matches. */
  function SaveEdit(cards: seq<Card>, editing: Option<string>, text: string): (r: seq<Card>)
    ensures |r| == |cards|
    ensures forall k :: 0 <= k < |cards| && editing == Some(cards[k].id) ==>
      r[k] == cards[k].(content := text)
    ensures forall k :: 0 <= k < |cards| && editing != Some(cards[k].id) ==> r[k] == cards[k]
  {
    seq(|cards|, k requires 0 <= k < |cards| =>
      if editing == Some(cards[k].id) then cards[k].(content := text) else cards[k])
  }

  // ---------------------------------------------------------------- reorder

  datatype Direction = Up | Down

  /** `moveCard`.  The page only offers it for cards on the canvas (the
      up/down buttons are disabled at the ends). */
  function Move(cards: seq<Card>, id: string, dir: Direction): (r: seq<Card>)
    requires HasId(cards, id)
    ensures |r| == |cards| && multiset(r) == multiset(cards)
  {
    var found := IndexOf(cards, id);
    assert found.Some? && found.value < |cards|;
    var i := found.value;
    match dir
    case Up => if i == 0 then cards else Swap(cards, i, i - 1)
    case Down => if i + 1 == |cards| then cards else Swap(cards, i, i + 1)
  }

  function Swap<T>(s: seq<T>, i: nat, j: nat): (r: seq<T>)
    requires i < |s| && j < |s|
    ensures |r| == |s| && multiset(r) == multiset(s)
    ensures r[i] == s[j] && r[j] == s[i]
    ensures forall k :: 0 <= k < |s| && k != i && k != j ==> r[k] == s[k]
  {
    s[i := s[j]][j := s[i]]
  }

  /** Moving the first card up or the last card down changes nothing; any
      other move swaps exactly the card and its neighbour. */
  lemma MoveSpec(cards: seq<Card>, id: string, dir: Direction)
    requires HasId(cards, id)
    ensures var i := IndexOf(cards, id).value;
      var r := Move(cards, id, dir);
      if (dir == Up && i == 0) || (dir == Down && i == |cards| - 1) then r == cards
      else
        var t := if dir == Up then i - 1 else i + 1;
        0 <= t < |cards| && r[i] == cards[t] && r[t] == cards[i] &&
        forall k :: 0 <= k < |cards| && k != i && k != t ==> r[k] == cards[k]
  {
  }

  /** The first card cannot move up and the last cannot move down. */
  lemma MoveBoundaries(cards: seq<Card>)
    requires |cards| > 0
    ensures HasId(cards, cards[0].id) && Move(cards, cards[0].id, Up) == cards
    ensures HasId(cards, cards[|cards| - 1].id)
    ensures IndexOf(cards, cards[|cards| - 1].id) == Some(|cards| - 1) ==>
      Move(cards, cards[|cards| - 1].id, Down) == cards
  {
    assert HasId(cards, cards[0].id);
    assert HasId(cards, cards[|cards| - 1].id);
  }

  /** A move up followed by a move down of the same card is undone, when ids
      are distinct. */
  lemma MoveUpDown(cards: seq<Card>, id: string)
    requires HasId(cards, id)
    requires forall a, b :: 0 <= a < b < |cards| ==> cards[a].id != cards[b].id
    ensures HasId(Move(cards, id, Up), id)
    ensures IndexOf(cards, id) != Some(0) ==> Move(Move(cards, id, Up), id, Down) == cards
  {
    var i := IndexOf(cards, id).value;
    var m := Move(cards, id, Up);
    MoveSpec(cards, id, Up);
    if i != 0 {
      assert m[i - 1].id == id;
      assert HasId(m, id);
      assert forall k :: 0 <= k < |m| && k != i - 1 ==> m[k].id != id;
      assert IndexOf(m, id) == Some(i - 1);
      MoveSpec(m, id, Down);
    } else {
      assert HasId(m, id);
    }
  }

  /** `s` without its element at index `i`. */
  function RemoveAt<T>(s: seq<T>, i: nat): seq<T>
    requires i < |s|
  {
    s[..i] + s[i + 1..]
  }

  /** `s` with `x` inserted at index `i`. */
  function InsertAt<T>(s: seq<T>, i: nat, x: T): seq<T>
    requires i <= |s|
  {
    s[..i] + [x] + s[i..]
  }

  /** Taking an element out and putting it back elsewhere permutes. */
  lemma MoveElementMultiset<T>(s: seq<T>, d: nat, t: nat)
    requires d < |s| && t < |s|
    ensures |InsertAt(RemoveAt(s, d), t, s[d])| == |s|
    ensures multiset(InsertAt(RemoveAt(s, d), t, s[d])) == multiset(s)
  {
    var rest := RemoveAt(s, d);
    assert s == s[..d] + [s[d]] + s[d + 1..];
    assert multiset(s) == multiset(rest) + multiset{s[d]};
    assert rest == rest[..t] + rest[t..];
    assert multiset(rest) == multiset(rest[..t]) + multiset(rest[t..]);
  }

  /** `handleDrop`: the dragged card is spliced out and spliced back in at
      the target's original index.  Nothing happens when no card is being
      dragged, when it is dropped on itself, or when either id is missing. */
  function Drop(cards: seq<Card>, dragged: Option<string>, target: string): (r: seq<Card>)
    ensures |r| == |cards| && multiset(r) == multiset(cards)
  {
    if dragged.None? || dragged.value == target then cards
    else match (IndexOf(cards, dragged.value), IndexOf(cards, target))
      case (Some(d), Some(t)) =>
        MoveElementMultiset(cards, d, t);
        InsertAt(RemoveAt(cards, d), t, cards[d])
      case _ => cards
  }

  /** The drop places the dragged card at the target's original index and
      keeps every other card in its relative order; it is a no-op in the
      cases the handler ignores. */
  lemma DropSpec(cards: seq<Card>, dragged: Option<string>, target: string)
    ensures dragged.None? || dragged == Some(target) ==> Drop(cards, dragged, target) == cards
    ensures dragged.Some? && !(HasId(cards, dragged.value) && HasId(cards, target)) ==>
      Drop(cards, dragged, target) == cards
    ensures dragged.Some? && dragged != Some(target) && HasId(cards, dragged.value) && HasId(cards, target) ==>
      var d := IndexOf(cards, dragged.value).value;
      var t := IndexOf(cards, target).value;
      var r := Drop(cards, dragged, target);
      r[t] == cards[d] && RemoveAt(r, t) == RemoveAt(cards, d)
  {
    if dragged.Some? && dragged != Some(target) && HasId(cards, dragged.value) && HasId(cards, target) {
      var d := IndexOf(cards, dragged.value).value;
      var t := IndexOf(cards, target).value;
      var rest := RemoveAt(cards, d);
      var r := InsertAt(rest, t, cards[d]);
      assert r[t] == cards[d];
      assert RemoveAt(r, t) == rest[..t] + rest[t..];
      assert rest[..t] + rest[t..] == rest;
    }
  }

  // ---------------------------------------------------------------- duplicate

  /** `duplicateCard`: a copy of the card with a fresh id and timestamp goes
      right after the first card carrying the source's id (at the front
      when, unexpectedly, there is none: `findIndex` gives -1). */
  function Duplicate(cards: seq<Card>, card: Card, newId: string, now: int): (r: seq<Card>)
    ensures |r| == |cards| + 1
    ensures var copy := card.(id := newId, createdAt := now);
      match IndexOf(cards, card.id)
      case Some(k) => r[..k + 1] == cards[..k + 1] && r[k + 1] == copy && r[k + 2..] == cards[k + 1..]
      case None => r == [copy] + cards
  {
    var copy := card.(id := newId, createdAt := now);
    match IndexOf(cards, card.id)
    case Some(k) => cards[..k + 1] + [copy] + cards[k + 1..]
    case None => [copy] + cards
  }

  /** The copy carries the same content, images and cached analysis as its
      source; only id and timestamp differ, and removing it gives back the
      original canvas. */
  lemma DuplicateSpec(cards: seq<Card>, k: nat, newId: string, now: int)
    requires k < |cards| && IndexOf(cards, cards[k].id) == Some(k)
    ensures var r := Duplicate(cards, cards[k], newId, now);
      r[k + 1].content == cards[k].content && r[k + 1].images == cards[k].images &&
      r[k + 1].image == cards[k].image && r[k + 1].scenes == cards[k].scenes &&
      r[k + 1].id == newId && RemoveAt(r, k + 1) == cards
  {
    var r := Duplicate(cards, cards[k], newId, now);
    assert RemoveAt(r, k + 1) == r[..k + 1] + r[k + 2..];
    assert cards[..k + 1] + cards[k + 1..] == cards;
  }

  // ---------------------------------------------------------------- images

  /** `c.images || []`, with the legacy `image` promoted to the first
      attachment when the list is empty (the `existingImages.push` step). */
  function ExistingImages(c: Card): seq<ImageAttachment> {
    var e := c.images.GetOr([]);
    if |e| == 0 && Truthy(c.image) then
      [ImageAttachment(c.image.value, Some(OrString(c.imagePrompt, "")), None, None)]
    else e
  }

  /** Appending one image to a card (generate, gallery pick, per-paragraph
      generate): existing images (legacy promoted) then the new one; the
      legacy mirror keeps its value when set and takes the new one otherwise. */
  function WithImage(c: Card, url: string, prompt: Option<string>): (r: Card)
    ensures r.images.Some?
    ensures var e := ExistingImages(c);
      r.images.value == e + [ImageAttachment(url, prompt, None, None)]
    ensures r.image == (if Truthy(c.image) then c.image else Some(url))
    ensures r.imagePrompt == (if Truthy(c.imagePrompt) then c.imagePrompt else prompt)
    ensures r.(images := c.images, image := c.image, imagePrompt := c.imagePrompt) == c
  {
    c.(images := Some(ExistingImages(c) + [ImageAttachment(url, prompt, None, None)]),
       image := OrElse(c.image, Some(url)),
       imagePrompt := OrElse(c.imagePrompt, prompt))
  }

  /** A card that had only a legacy image gets it as first attachment, in
      front of the new one: nothing previously shown is lost. */
  lemma WithImagePromotesLegacy(c: Card, url: string, prompt: Option<string>)
    requires c.images.None? || c.images == Some([])
    requires Truthy(c.image)
    ensures var r := WithImage(c, url, prompt);
      |r.images.value| == 2 && r.images.value[0].url == c.image.value &&
      r.images.value[1].url == url && r.image == c.image
  {
  }

  /** `handleGenerateImage` / `handleSelectFromGallery`: append to every card
      carrying that id. */
  function AppendImage(cards: seq<Card>, id: string, url: string, prompt: Option<string>): (r: seq<Card>)
    ensures |r| == |cards|
    ensures forall k :: 0 <= k < |cards| && cards[k].id == id ==> r[k] == WithImage(cards[k], url, prompt)
    ensures forall k :: 0 <= k < |cards| && cards[k].id != id ==> r[k] == cards[k]
  {
    seq(|cards|, k requires 0 <= k < |cards| =>
      if cards[k].id == id then WithImage(cards[k], url, prompt) else cards[k])
  }

  /** `handleGenerateForParagraph`: append to the card at a position. */
  function AppendImageAt(cards: seq<Card>, index: int, url: string, prompt: Option<string>): (r: seq<Card>)
    ensures |r| == |cards|
    ensures 0 <= index < |cards| ==> r[index] == WithImage(cards[index], url, prompt)
    ensures forall k :: 0 <= k < |cards| && k != index ==> r[k] == cards[k]
  {
    seq(|cards|, k requires 0 <= k < |cards| =>
      if k == index then WithImage(cards[k], url, prompt) else cards[k])
  }

  /** `images.splice(imageIndex, 1)` on `c.images || []`, the legacy mirror
      then following the new first image (or cleared). */
  function WithoutImage(c: Card, imageIndex: nat): (r: Card)
    ensures var before := c.images.GetOr([]);
      r.images == Some(if imageIndex < |before| then RemoveAt(before, imageIndex) else before)
    ensures var after := r.images.value;
      (|after| > 0 ==> r.image == Some(after[0].url) && r.imagePrompt == after[0].prompt) &&
      (|after| == 0 ==> r.image.None? && r.imagePrompt.None?)
    ensures r.(images := c.images, image := c.image, imagePrompt := c.imagePrompt) == c
  {
    var before := c.images.GetOr([]);
    var after := if imageIndex < |before| then RemoveAt(before, imageIndex) else before;
    c.(images := Some(after),
       image := if |after| > 0 then Some(after[0].url) else None,
       imagePrompt := if |after| > 0 then after[0].prompt else None)
  }

  /** `removeImageFromCard`: only cards carrying the id change. */
  function RemoveImage(cards: seq<Card>, id: string, imageIndex: nat): (r: seq<Card>)
    ensures |r| == |cards|
    ensures forall k :: 0 <= k < |cards| && cards[k].id == id ==> r[k] == WithoutImage(cards[k], imageIndex)
    ensures forall k :: 0 <= k < |cards| && cards[k].id != id ==> r[k] == cards[k]
  {
    seq(|cards|, k requires 0 <= k < |cards| =>
      if cards[k].id == id then WithoutImage(cards[k], imageIndex) else cards[k])
  }

  /** Removing the image just appended restores the attachment list, but the
      legacy mirror now follows the first attachment. */
  lemma RemoveUndoesAppend(c: Card, url: string, prompt: Option<string>)
    requires c.images.Some? && |c.images.value| > 0
    ensures var w := WithImage(c, url, prompt);
      WithoutImage(w, |c.images.value|).images == c.images
  {
    var w := WithImage(c, url, prompt);
    var e := c.images.value;
    assert w.images.value == e + [ImageAttachment(url, prompt, None, None)];
    assert RemoveAt(w.images.value, |e|) == e;
  }
}

=== FILE: compositor.dfy ===
/** Publishing the canvas as an article draft (`handlePreviewPublish` in
    src/app/admin/blog/ai-editor/page.jsx): each card's text with its images
    placed either after the passages they illustrate or by the card's
    layout, the cards joined by a rule, a cover picked, and the base64
    images dropped when the draft does not fit in session storage.  Saving
    images to the gallery (`save`) and the title extraction are parameters. */
module Compositor {
  import opened Wrappers
  import opened Seqs
  import opened Text
  import opened Canvas
  import Blog

  const CardSeparator := "\n\n---\n\n"

  const EmptyCanvasMessage := "請先 Pin 一些內容到創作白板"

  // ---------------------------------------------------------------- anchored images

  /** The markdown a scene image is spliced in as. */
  function SceneMarkdown(url: string): string {
    "\n\n![配圖](" + url + ")\n\n"
  }

  /** `text.replace(anchor, anchor + insert)` with a literal pattern:
      `insert` goes right after the first occurrence of `anchor`, if any. */
  function InsertAfterFirst(text: string, anchor: string, insert: string): (r: string)
    ensures Find(text, anchor).None? ==> r == text
    ensures Find(text, anchor).Some? ==>
      var e := Find(text, anchor).value + |anchor|;
      e <= |text| && |r| == |text| + |insert| &&
      r[..e] == text[..e] && r[e..e + |insert|] == insert && r[e + |insert|..] == text[e..]
  {
    match Find(text, anchor)
    case None => text
    case Some(i) => text[..i + |anchor|] + insert + text[i + |anchor|..]
  }

  /** Removing what was inserted gives the text back. */
  lemma InsertAfterFirstErase(text: string, anchor: string, insert: string)
    requires Contains(text, anchor)
    ensures var e := Find(text, anchor).value + |anchor|;
      var r := InsertAfterFirst(text, anchor, insert);
      r[..e] + r[e + |insert|..] == text
  {
  }

  /** An image anchored to a passage (truthy `originalText`). */
  predicate Anchored(a: ImageAttachment) { Truthy(a.originalText) }

  predicate Unanchored(a: ImageAttachment) { !Anchored(a) }

  /** `a.sceneIndex || 0`. */
  function SceneKey(a: ImageAttachment): int { a.sceneIndex.GetOr(0) }

  /** One step of the `forEach`: an anchored image whose passage occurs is
      spliced in after it; one whose passage is missing is dropped. */
  function SpliceScene(text: string, img: ImageAttachment): (r: string)
    ensures !(Anchored(img) && Contains(text, img.originalText.value)) ==> r == text
    ensures Anchored(img) && Contains(text, img.originalText.value) ==>
      r == InsertAfterFirst(text, img.originalText.value, SceneMarkdown(img.url))
  {
    if Anchored(img) && Contains(text, img.originalText.value) then
      InsertAfterFirst(text, img.originalText.value, SceneMarkdown(img.url))
    else text
  }

  /** The `forEach` over the images in the given order. */
  function SpliceScenes(text: string, imgs: seq<ImageAttachment>): string
    decreases |imgs|
  {
    if imgs == [] then text else SpliceScenes(SpliceScene(text, imgs[0]), imgs[1..])
  }

  // ---------------------------------------------------------------- image markup

  /** The alt text of the `imgNo`-th image of the `cardNo`-th card. */
  function Alt(cardNo: nat, imgNo: nat): string {
    "文章配圖-" + Dec(cardNo) + "-" + Dec(imgNo)
  }

  /** Markdown images, numbered from 1 within the card, one per paragraph. */
  function MarkdownImages(imgs: seq<ImageAttachment>, idx: nat): string {
    Join(seq(|imgs|, k requires 0 <= k < |imgs| => "![" + Alt(idx + 1, k + 1) + "](" + imgs[k].url + ")"), "\n\n")
  }

  /** HTML images with the given class, one per line. */
  function HtmlImages(imgs: seq<ImageAttachment>, cls: string): string {
    Join(seq(|imgs|, k requires 0 <= k < |imgs| =>
      "<img src=\"" + imgs[k].url + "\" alt=\"配圖-" + Dec(k + 1) + "\" class=\"" + cls + "\" />"), "\n")
  }

  const SideImageClass := "w-full object-cover rounded"
  const CenterImageClass := "mx-auto max-w-lg rounded"
  const RowOpen := "<div class=\"flex flex-col md:flex-row gap-4 items-start\">\n"
  const ImageColumnOpen := "<div class=\"w-full md:w-1/2 space-y-4\">\n"
  const TextColumnOpen := "<div class=\"flex-1\">\n\n"

  /** The card's layout, `full` unless one was chosen. */
  function LayoutOf(layouts: map<string, string>, id: string): string {
    if id in layouts && layouts[id] != "" then layouts[id] else "full"
  }

  /** What goes before and after the text when the layout places the
      images (no anchored images): beside the text on the left or right,
      centred above it, or, for `full` and anything else, after it as
      markdown. */
  function LayoutFrame(imgs: seq<ImageAttachment>, layout: string, idx: nat): (string, string) {
    if layout == "left" then
      (RowOpen + ImageColumnOpen + HtmlImages(imgs, SideImageClass) + "\n</div>\n" + TextColumnOpen,
       "\n\n</div>\n</div>")
    else if layout == "right" then
      (RowOpen + TextColumnOpen,
       "\n\n</div>\n" + ImageColumnOpen + HtmlImages(imgs, SideImageClass) + "\n</div>\n</div>")
    else if layout == "center" then
      ("<div class=\"text-center space-y-4 my-6\">\n" + HtmlImages(imgs, CenterImageClass) + "\n</div>\n\n", "")
    else
      ("", "\n\n" + MarkdownImages(imgs, idx))
  }

  function LayoutText(text: string, imgs: seq<ImageAttachment>, layout: string, idx: nat): string {
    var frame := LayoutFrame(imgs, layout, idx);
    frame.0 + text + frame.1
  }

  /** One card of the article.  With anchored images, those are spliced in
      (highest scene index first) and the others appended; otherwise the
      layout decides. */
  function ComposeCard(text: string, imgs: seq<ImageAttachment>, layout: string, idx: nat): (r: string)
    ensures imgs == [] ==> r == text
  {
    if |imgs| == 0 then text
    else
      var scenes := Filter(imgs, Anchored);
      var regular := Filter(imgs, Unanchored);
      if |scenes| > 0 then
        var spliced := SpliceScenes(text, SortDesc(scenes, SceneKey));
        if |regular| > 0 then spliced + "\n\n" + MarkdownImages(regular, idx) else spliced
      else LayoutText(text, imgs, layout, idx)
  }

  /** Once a card has an anchored image its layout no longer matters. */
  lemma LayoutIgnoredWithScenes(text: string, imgs: seq<ImageAttachment>, l1: string, l2: string, idx: nat)
    requires exists k :: 0 <= k < |imgs| && Anchored(imgs[k])
    ensures ComposeCard(text, imgs, l1, idx) == ComposeCard(text, imgs, l2, idx)
  {
    var k :| 0 <= k < |imgs| && Anchored(imgs[k]);
    assert imgs[k] in imgs;
    assert imgs[k] in Filter(imgs, Anchored);
  }

  /** Without anchored images the text is kept whole, whatever the layout,
      and the `full` layout appends the images after it. */
  lemma LayoutKeepsText(text: string, imgs: seq<ImageAttachment>, layout: string, idx: nat)
    requires forall k :: 0 <= k < |imgs| ==> !Anchored(imgs[k])
    ensures Contains(ComposeCard(text, imgs, layout, idx), text)
    ensures imgs != [] && layout !in {"left", "right", "center"} ==>
      ComposeCard(text, imgs, layout, idx) == text + "\n\n" + MarkdownImages(imgs, idx)
  {
    if imgs != [] {
      NoScenesUseLayout(text, imgs, layout, idx);
      var frame := LayoutFrame(imgs, layout, idx);
      ContainsMiddle(frame.0, text, frame.1);
      if layout !in {"left", "right", "center"} {
        assert frame == ("", "\n\n" + MarkdownImages(imgs, idx));
      }
    } else {
      ContainsMiddle("", text, "");
      assert "" + text + "" == text;
    }
  }

  /** A card with images but no anchored ones is laid out by its layout. */
  lemma NoScenesUseLayout(text: string, imgs: seq<ImageAttachment>, layout: string, idx: nat)
    requires imgs != [] && forall k :: 0 <= k < |imgs| ==> !Anchored(imgs[k])
    ensures ComposeCard(text, imgs, layout, idx) == LayoutText(text, imgs, layout, idx)
  {
    FilterNone(imgs, Anchored);
  }

  /** The single anchored image of a card lands right after the first
      occurrence of its passage. */
  lemma OneAnchoredImage(text: string, img: ImageAttachment, layout: string, idx: nat)
    requires Anchored(img) && Contains(text, img.originalText.value)
    ensures var e := Find(text, img.originalText.value).value + |img.originalText.value|;
      e <= |text| &&
      ComposeCard(text, [img], layout, idx) == text[..e] + SceneMarkdown(img.url) + text[e..]
  {
    SingleAnchored(text, img, layout, idx);
    var o := img.originalText.value;
    InsertAfterAt(text, o, SceneMarkdown(img.url), Find(text, o).value);
  }

  /** An anchored image whose passage is not in the text is dropped from
      the card: nothing is appended in its place. */
  lemma BrokenAnchorDropped(text: string, img: ImageAttachment, layout: string, idx: nat)
    requires Anchored(img) && !Contains(text, img.originalText.value)
    ensures ComposeCard(text, [img], layout, idx) == text
  {
    SingleAnchored(text, img, layout, idx);
  }

  /** A card with one anchored image splices just that image. */
  lemma SingleAnchored(text: string, img: ImageAttachment, layout: string, idx: nat)
    requires Anchored(img)
    ensures ComposeCard(text, [img], layout, idx) == SpliceScene(text, img)
  {
    SingletonFilters(img);
    AllAnchored(text, [img], layout, idx);
    SpliceScenesCons(text, img, []);
    assert [img] + [] == [img];
  }

  /** When every image is anchored, composing is splicing them in,
      highest scene index first. */
  lemma AllAnchored(text: string, imgs: seq<ImageAttachment>, layout: string, idx: nat)
    requires imgs != [] && forall k :: 0 <= k < |imgs| ==> Anchored(imgs[k])
    ensures ComposeCard(text, imgs, layout, idx) == SpliceScenes(text, SortDesc(imgs, SceneKey))
  {
    forall x | x in imgs
      ensures Anchored(x)
    {
    }
    FilterAll(imgs, Anchored);
    FilterNone(imgs, Unanchored);
  }

  /** Inserting after a known first occurrence. */
  lemma InsertAfterAt(text: string, anchor: string, insert: string, p: nat)
    requires Find(text, anchor) == Some(p)
    ensures p + |anchor| <= |text|
    ensures InsertAfterFirst(text, anchor, insert) ==
      text[..p + |anchor|] + insert + text[p + |anchor|..]
  {
  }

  /** An occurrence with none before it is the first one. */
  lemma FindAt(s: string, t: string, p: nat)
    requires OccursAt(s, t, p)
    requires forall j :: 0 <= j < p ==> !OccursAt(s, t, j)
    ensures Find(s, t) == Some(p)
  {
    assert Contains(s, t);
  }

  /** Filtering and sorting a one-image list. */
  lemma SingletonFilters(img: ImageAttachment)
    requires Anchored(img)
    ensures Filter([img], Anchored) == [img] && Filter([img], Unanchored) == []
    ensures SortDesc([img], SceneKey) == [img]
  {
    FilterAll([img], Anchored);
    FilterNone([img], Unanchored);
  }

  // ---------------------------------------------------------------- anchors reconstruct the text

  /** The concatenation of a list of passages. */
  function Concat(parts: seq<string>): string {
    if parts == [] then "" else parts[0] + Concat(parts[1..])
  }

  lemma {:induction false} ConcatAppend(a: seq<string>, b: seq<string>)
    ensures Concat(a + b) == Concat(a) + Concat(b)
  {
    if a != [] {
      assert (a + b)[1..] == a[1..] + b;
      ConcatAppend(a[1..], b);
    } else {
      assert a + b == b;
    }
  }

  /** The passages from `m` on, each followed by its image. */
  function Illustrated(spans: seq<string>, imgs: seq<ImageAttachment>, m: nat): string
    requires |imgs| == |spans| && m <= |spans|
    decreases |spans| - m
  {
    if m == |spans| then "" else spans[m] + SceneMarkdown(imgs[m].url) + Illustrated(spans, imgs, m + 1)
  }

  /** The card text split into passages, one anchored image per passage
      numbered in text order, each passage first occurring where it stands. */
  predicate Decomposes(text: string, spans: seq<string>, imgs: seq<ImageAttachment>) {
    |imgs| == |spans| &&
    text == Concat(spans) &&
    (forall k :: 0 <= k < |spans| ==> AnchoredAt(spans, imgs, k)) &&
    (forall k :: 0 <= k < |spans| ==> FirstAtOwnPlace(text, spans, k))
  }

  /** Image `k` is anchored to passage `k` and numbered `k`. */
  predicate AnchoredAt(spans: seq<string>, imgs: seq<ImageAttachment>, k: nat)
    requires k < |spans| && |imgs| == |spans|
  {
    spans[k] != "" && imgs[k].originalText == Some(spans[k]) && imgs[k].sceneIndex == Some(k)
  }

  /** Passage `k` first occurs in the text where it stands. */
  predicate FirstAtOwnPlace(text: string, spans: seq<string>, k: nat)
    requires k < |spans|
  {
    Find(text, spans[k]) == Some(|Concat(spans[..k])|)
  }

  /** When a card's text is the concatenation of its anchored images'
      passages, each first occurring in its own place, composing the card
      puts each image right after its passage, in text order, even though
      the images are processed from the last scene to the first. */
  lemma AnchorsReconstruct(text: string, spans: seq<string>, imgs: seq<ImageAttachment>, layout: string, idx: nat)
    requires |spans| > 0 && Decomposes(text, spans, imgs)
    ensures ComposeCard(text, imgs, layout, idx) == Illustrated(spans, imgs, 0)
  {
    ComposeInReverse(text, spans, imgs, layout, idx);
    SpliceAll(text, spans, imgs);
  }

  /** With every image anchored and numbered in text order, the card is the
      text with the images spliced in from the last to the first. */
  lemma ComposeInReverse(text: string, spans: seq<string>, imgs: seq<ImageAttachment>, layout: string, idx: nat)
    requires |spans| > 0 && Decomposes(text, spans, imgs)
    ensures ComposeCard(text, imgs, layout, idx) == SpliceScenes(text, Reverse(imgs))
  {
    forall k | 0 <= k < |imgs|
      ensures Anchored(imgs[k]) && SceneKey(imgs[k]) == k
    {
      assert AnchoredAt(spans, imgs, k);
    }
    AllAnchored(text, imgs, layout, idx);
    SortDescOfAscending(imgs, SceneKey);
  }

  /** Splicing every image, last first, gives each passage its image. */
  lemma SpliceAll(text: string, spans: seq<string>, imgs: seq<ImageAttachment>)
    requires Decomposes(text, spans, imgs)
    ensures SpliceScenes(text, Reverse(imgs)) == Illustrated(spans, imgs, 0)
  {
    SpliceInOrder(text, spans, imgs, |spans|);
    assert imgs[..|imgs|] == imgs;
    assert spans[..|spans|] == spans;
    assert Illustrated(spans, imgs, |spans|) == "";
    assert Concat(spans[..|spans|]) + "" == text;
  }

  /** The induction behind `AnchorsReconstruct`: having spliced the images
      of passages `m` onwards, splicing the rest (last first) finishes the
      job. */
  lemma {:induction false} SpliceInOrder(text: string, spans: seq<string>, imgs: seq<ImageAttachment>, m: nat)
    requires Decomposes(text, spans, imgs) && m <= |spans|
    ensures SpliceScenes(Concat(spans[..m]) + Illustrated(spans, imgs, m), Reverse(imgs[..m])) ==
      Illustrated(spans, imgs, 0)
  {
    if m == 0 {
      assert spans[..0] == [];
      assert Reverse(imgs[..0]) == [];
    } else {
      var k := m - 1;
      assert AnchoredAt(spans, imgs, k) && FirstAtOwnPlace(text, spans, k);
      var before := Concat(spans[..k]);
      PrefixConcat(spans, k);
      ReverseSnoc(imgs[..k], imgs[k]);
      assert imgs[..m] == imgs[..k] + [imgs[k]];
      SpliceScenesCons(Concat(spans[..m]) + Illustrated(spans, imgs, m), imgs[k], Reverse(imgs[..k]));
      SpliceStep(text, spans, imgs, k);
      SpliceInOrder(text, spans, imgs, k);
    }
  }

  /** The passages up to and including `k`. */
  lemma PrefixConcat(spans: seq<string>, k: nat)
    requires k < |spans|
    ensures Concat(spans[..k + 1]) == Concat(spans[..k]) + spans[k]
  {
    assert spans[..k + 1] == spans[..k] + [spans[k]];
    ConcatAppend(spans[..k], [spans[k]]);
    assert Concat([spans[k]]) == spans[k];
  }

  /** The whole text is the passages before `k`, passage `k`, and the rest. */
  lemma SplitConcat(spans: seq<string>, k: nat)
    requires k < |spans|
    ensures Concat(spans) == (Concat(spans[..k]) + spans[k]) + Concat(spans[k + 1..])
  {
    assert spans == spans[..k] + spans[k..];
    ConcatAppend(spans[..k], spans[k..]);
    assert spans[k..][1..] == spans[k + 1..];
  }

  lemma SpliceScenesCons(text: string, x: ImageAttachment, rest: seq<ImageAttachment>)
    ensures SpliceScenes(text, [x] + rest) == SpliceScenes(SpliceScene(text, x), rest)
  {
    assert ([x] + rest)[1..] == rest;
  }

  /** One step: in the partly spliced text the `k`-th passage still first
      occurs where it stands, so its image lands right after it. */
  lemma SpliceStep(text: string, spans: seq<string>, imgs: seq<ImageAttachment>, k: nat)
    requires |imgs| == |spans| && k < |spans| && text == Concat(spans)
    requires AnchoredAt(spans, imgs, k) && FirstAtOwnPlace(text, spans, k)
    ensures var before := Concat(spans[..k]);
      SpliceScene(before + spans[k] + Illustrated(spans, imgs, k + 1), imgs[k]) ==
      before + Illustrated(spans, imgs, k)
  {
    var before := Concat(spans[..k]);
    var after := Illustrated(spans, imgs, k + 1);
    SplitConcat(spans, k);
    SpliceAfterPassage(text, before, spans[k], Concat(spans[k + 1..]), after, imgs[k]);
    assert Illustrated(spans, imgs, k) == spans[k] + SceneMarkdown(imgs[k].url) + after;
  }

  /** The step on plain strings: a passage first occurring right after
      `before` still does so once the text after it changes, and its image
      lands right after it. */
  lemma SpliceAfterPassage(text: string, before: string, o: string, rest: string, after: string,
                           img: ImageAttachment)
    requires text == (before + o) + rest && Find(text, o) == Some(|before|)
    requires o != "" && img.originalText == Some(o)
    ensures SpliceScene(before + o + after, img) == before + (o + SceneMarkdown(img.url) + after)
  {
    var x := (before + o) + after;
    var m := SceneMarkdown(img.url);
    assert Find(x, o) == Some(|before|) by {
      PrefixOf(before + o, rest);
      PrefixOf(before + o, after);
      FindSamePrefix(text, x, o, |before|);
    }
    assert SpliceScene(x, img) == (before + o) + m + after by {
      InsertAfterAt(x, o, m, |before|);
      PrefixOf(before + o, after);
    }
    Regroup(before, o, m, after);
  }

  lemma Regroup(a: string, b: string, c: string, d: string)
    ensures (a + b) + c + d == a + (b + c + d)
  {
  }

  lemma PrefixOf(a: string, b: string)
    ensures (a + b)[..|a|] == a && (a + b)[|a|..] == b
  {
  }

  /** The first occurrence of `t` depends only on the text up to its end. */
  lemma FindSamePrefix(a: string, b: string, t: string, p: nat)
    requires Find(a, t) == Some(p)
    requires p + |t| <= |b| && a[..p + |t|] == b[..p + |t|]
    ensures Find(b, t) == Some(p)
  {
    var n := p + |t|;
    assert OccursAt(a, t, p);
    SameSlices(a, b, n, p, n);
    forall j | 0 <= j < p
      ensures !OccursAt(b, t, j)
    {
      SameSlices(a, b, n, j, j + |t|);
      assert !OccursAt(a, t, j);
    }
    FindAt(b, t, p);
  }

  /** Two strings that agree up to `n` agree on every slice below `n`. */
  lemma SameSlices(a: string, b: string, n: nat, i: nat, j: nat)
    requires n <= |a| && n <= |b| && a[..n] == b[..n] && i <= j <= n
    ensures a[i..j] == b[i..j]
  {
    forall k | 0 <= k < j - i
      ensures a[i..j][k] == b[i..j][k]
    {
      assert a[..n][i + k] == b[..n][i + k];
    }
  }

  lemma ReverseSnoc<T>(s: seq<T>, x: T)
    ensures Reverse(s + [x]) == [x] + Reverse(s)
  {
    var l := Reverse(s + [x]);
    var r := [x] + Reverse(s);
    assert |l| == |r|;
    forall i | 0 <= i < |l|
      ensures l[i] == r[i]
    {
      if i > 0 {
        assert l[i] == (s + [x])[|s| - i];
      }
    }
  }

  /** Without the first-occurrence condition the images can land in the
      wrong place: in "abb" split as "ab" + "b", the passage "b" of the
      second scene also occurs inside the first passage "ab", so its image
      is put inside "ab" and ends up before the final "b" instead of after
      it. */
  lemma AmbiguousAnchorMisplaced(text: string, u: string, v: string)
    requires text == "abb"
    ensures var i0 := ImageAttachment(u, None, Some("ab"), Some(0));
      var i1 := ImageAttachment(v, None, Some("b"), Some(1));
      ComposeCard(text, [i0, i1], "full", 0) ==
        "ab" + SceneMarkdown(u) + SceneMarkdown(v) + "b" &&
      ComposeCard(text, [i0, i1], "full", 0) !=
        "ab" + SceneMarkdown(u) + "b" + SceneMarkdown(v)
  {
    var i0 := ImageAttachment(u, None, Some("ab"), Some(0));
    var i1 := ImageAttachment(v, None, Some("b"), Some(1));
    TwoScenesLastFirst(text, i0, i1);
    AmbiguousFirstStep(text, i1);
    AmbiguousSecondStep("ab" + SceneMarkdown(v) + "b", i0, SceneMarkdown(v));
    EndsDiffer(SceneMarkdown(u), SceneMarkdown(v), v);
  }

  /** Two anchored images numbered 0 and 1 are spliced second one first. */
  lemma TwoScenesLastFirst(text: string, i0: ImageAttachment, i1: ImageAttachment)
    requires Anchored(i0) && Anchored(i1) && i0.sceneIndex == Some(0) && i1.sceneIndex == Some(1)
    ensures ComposeCard(text, [i0, i1], "full", 0) == SpliceScene(SpliceScene(text, i1), i0)
  {
    var imgs := [i0, i1];
    assert Anchored(imgs[0]) && Anchored(imgs[1]);
    AllAnchored(text, imgs, "full", 0);
    SortTwoScenes(i0, i1);
    SpliceScenesCons(text, i1, [i0]);
    SpliceScenesCons(SpliceScene(text, i1), i0, []);
    assert [i0] + [] == [i0];
  }

  /** Scene 1 sorts before scene 0. */
  lemma SortTwoScenes(i0: ImageAttachment, i1: ImageAttachment)
    requires i0.sceneIndex == Some(0) && i1.sceneIndex == Some(1)
    ensures SortDesc([i0, i1], SceneKey) == [i1] + [i0]
  {
    assert [i0, i1][1..] == [i1] && [i1][1..] == [];
    assert SortDesc([i1], SceneKey) == [i1];
    assert SortDesc([i0, i1], SceneKey) == InsertDesc(i0, [i1], SceneKey);
  }

  /** The image of passage "b" goes after the first "b" of "abb", inside "ab". */
  lemma AmbiguousFirstStep(text: string, img: ImageAttachment)
    requires text == "abb" && img.originalText == Some("b")
    ensures SpliceScene(text, img) == "ab" + SceneMarkdown(img.url) + "b"
  {
    assert text[0..1] == "a" && text[1..2] == "b";
    FindAt(text, "b", 1);
    InsertAfterAt(text, "b", SceneMarkdown(img.url), 1);
    assert text[..2] == "ab" && text[2..] == "b";
  }

  /** The image of passage "ab" then goes right after it, before the first. */
  lemma AmbiguousSecondStep(t1: string, img: ImageAttachment, mv: string)
    requires t1 == "ab" + mv + "b" && img.originalText == Some("ab")
    ensures SpliceScene(t1, img) == "ab" + SceneMarkdown(img.url) + mv + "b"
  {
    assert t1[0..2] == "ab";
    FindAt(t1, "ab", 0);
    InsertAfterAt(t1, "ab", SceneMarkdown(img.url), 0);
    assert t1[..2] == "ab" && t1[2..] == mv + "b";
  }

  /** The two placements differ in their last character. */
  lemma EndsDiffer(mu: string, mv: string, v: string)
    requires mv == SceneMarkdown(v)
    ensures "ab" + mu + mv + "b" != "ab" + mu + "b" + mv
  {
    var bad := "ab" + mu + mv + "b";
    var good := "ab" + mu + "b" + mv;
    assert bad[|bad| - 1] == 'b';
    assert mv[|mv| - 1] == '\n';
    assert good[|good| - 1] == mv[|mv| - 1];
  }

  // ---------------------------------------------------------------- resolving images

  /** `card.images || (card.image ? [{url, prompt}] : [])`. */
  function CardImages(c: Card): seq<ImageAttachment> {
    match c.images
    case Some(list) => list
    case None => if Truthy(c.image) then [ImageAttachment(c.image.value, c.imagePrompt, None, None)] else []
  }

  /** An inline (`data:`) image is replaced by the URL the gallery saved it
      under, when it returned one. */
  function ResolveImage(img: ImageAttachment, save: string -> Option<string>): (r: ImageAttachment)
    ensures !StartsWith(img.url, "data:") ==> r == img
    ensures r.(url := img.url) == img
  {
    if StartsWith(img.url, "data:") then img.(url := OrString(save(img.url), img.url)) else img
  }

  /** The resolved card: its images resolved one by one, the legacy mirror
      following the first resolved image when there is one. */
  function ResolveCard(c: Card, save: string -> Option<string>): (r: Card)
    ensures |CardImages(r)| == |CardImages(c)|
    ensures forall k :: 0 <= k < |CardImages(c)| ==> CardImages(r)[k] == ResolveImage(CardImages(c)[k], save)
    ensures r.id == c.id && r.content == c.content
  {
    var all := CardImages(c);
    var resolved := seq(|all|, k requires 0 <= k < |all| => ResolveImage(all[k], save));
    c.(images := if |resolved| > 0 then Some(resolved) else c.images,
       image := if |resolved| > 0 && resolved[0].url != "" then Some(resolved[0].url) else c.image,
       imagePrompt := if |resolved| > 0 && Truthy(resolved[0].prompt) then resolved[0].prompt else c.imagePrompt)
  }

  // ---------------------------------------------------------------- the draft

  /** A card that can give the article its cover. */
  predicate HasPicture(c: Card) {
    Truthy(c.image) || (c.images.Some? && |c.images.value| > 0)
  }

  /** Card `k` is the first one with a picture. */
  predicate FirstPicture(cards: seq<Card>, k: int) {
    0 <= k < |cards| && HasPicture(cards[k]) && forall j :: 0 <= j < k ==> !HasPicture(cards[j])
  }

  /** `url` is the cover the card gives: its image, or else the URL of its
      first attachment, or the placeholder when that URL is empty. */
  predicate PictureOf(c: Card, url: string)
    requires HasPicture(c)
  {
    if Truthy(c.image) then url == c.image.value
    else if c.images.value[0].url != "" then url == c.images.value[0].url
    else url == Blog.Placeholder
  }

  /** `image || images[0].url || placeholder`. */
  function CoverUrl(c: Card): string {
    if Truthy(c.image) then c.image.value
    else if c.images.Some? && |c.images.value| > 0 && c.images.value[0].url != "" then c.images.value[0].url
    else Blog.Placeholder
  }

  /** The cover: from the first card with a picture, else the placeholder. */
  function CoverOf(cards: seq<Card>): (r: string)
    ensures (forall k :: 0 <= k < |cards| ==> !HasPicture(cards[k])) ==> r == Blog.Placeholder
    ensures forall k :: FirstPicture(cards, k) ==> PictureOf(cards[k], r)
  {
    match FindIndex(cards, HasPicture)
    case None => Blog.Placeholder
    case Some(k) =>
      assert forall j :: FirstPicture(cards, j) ==> j == k;
      CoverUrl(cards[k])
  }

  /** Cards without a picture in front of the others do not change the
      cover, and a card with one decides it whatever follows. */
  lemma CoverSkipsBareCards(bare: seq<Card>, c: Card, rest: seq<Card>)
    requires forall j :: 0 <= j < |bare| ==> !HasPicture(bare[j])
    requires HasPicture(c)
    ensures CoverOf(bare + [c] + rest) == CoverOf([c])
  {
    assert FirstPicture(bare + [c] + rest, |bare|);
    assert FirstPicture([c], 0);
  }

  /** A character `replace(/[#*_]/g, '')` keeps. */
  predicate Unmarked(ch: char) {
    ch !in "#*_"
  }

  /** The excerpt: the first 100 characters without `#`, `*` and `_`,
      followed by an ellipsis. */
  function Excerpt(content: string): (r: string)
    ensures |r| <= 103 && EndsWith(r, "...")
    ensures forall k :: 0 <= k < |r| - 3 ==> Unmarked(r[k])
    ensures r[..|r| - 3] == Filter(Take(content, 100), Unmarked)
  {
    var kept := Filter(Take(content, 100), Unmarked);
    assert forall k :: 0 <= k < |kept| ==> kept[k] in kept;
    assert (kept + "...")[..|kept|] == kept;
    kept + "..."
  }

  /** Text without markdown marks loses nothing but its tail past the
      hundredth character. */
  lemma PlainExcerpt(content: string)
    requires forall k :: 0 <= k < |content| ==> Unmarked(content[k])
    ensures Excerpt(content) == Take(content, 100) + "..."
  {
    var head := Take(content, 100);
    assert forall k :: 0 <= k < |head| ==> Unmarked(head[k]) by {
      forall k | 0 <= k < |head| ensures Unmarked(head[k]) { assert head[k] == content[k]; }
    }
    FilterAll(head, Unmarked);
    assert Excerpt(content)[..|Excerpt(content)| - 3] == head;
  }

  /** The draft handed to the admin page. */
  datatype Draft = Draft(
    title: string,
    excerpt: string,
    content: string,
    image: string,
    categoryId: string,
    tags: seq<string>,
    status: string,
    hasAIImages: bool)

  /** The text of every card, composed. */
  function ComposeCards(cards: seq<Card>, layouts: map<string, string>): (r: seq<string>)
    ensures |r| == |cards|
    ensures forall k :: 0 <= k < |cards| ==>
      r[k] == ComposeCard(cards[k].content, CardImages(cards[k]), LayoutOf(layouts, cards[k].id), k)
  {
    seq(|cards|, k requires 0 <= k < |cards| =>
      ComposeCard(cards[k].content, CardImages(cards[k]), LayoutOf(layouts, cards[k].id), k))
  }

  /** `handlePreviewPublish`: an empty canvas is refused before anything
      else; otherwise the draft article. */
  function Compose(cards: seq<Card>, layouts: map<string, string>, title: string,
                   save: string -> Option<string>): (r: Result<Draft, string>)
    ensures r.Failure? <==> cards == []
    ensures r.Failure? ==> r.error == EmptyCanvasMessage
    ensures r.Success? ==>
      var resolved := seq(|cards|, k requires 0 <= k < |cards| => ResolveCard(cards[k], save));
      r.value.content == Join(ComposeCards(resolved, layouts), CardSeparator) &&
      r.value.image == CoverOf(resolved) &&
      r.value.excerpt == Excerpt(cards[0].content) &&
      r.value.categoryId == Blog.Categories[0].id && r.value.tags == ["AI Generated"] &&
      r.value.status == "draft" && r.value.hasAIImages && r.value.title == title
  {
    if cards == [] then Failure(EmptyCanvasMessage)
    else
      var resolved := seq(|cards|, k requires 0 <= k < |cards| => ResolveCard(cards[k], save));
      Success(Draft(title, Excerpt(cards[0].content), Join(ComposeCards(resolved, layouts), CardSeparator),
                    CoverOf(resolved), Blog.Categories[0].id, ["AI Generated"], "draft", true))
  }

  /** Cards without images are published as their texts joined by the rule. */
  lemma TextOnlyArticle(cards: seq<Card>, layouts: map<string, string>, title: string, save: string -> Option<string>)
    requires cards != []
    requires forall k :: 0 <= k < |cards| ==> cards[k].images.GetOr([]) == [] && !Truthy(cards[k].image)
    ensures Compose(cards, layouts, title, save).value.content ==
      Join(seq(|cards|, k requires 0 <= k < |cards| => cards[k].content), CardSeparator)
    ensures Compose(cards, layouts, title, save).value.image == Blog.Placeholder
  {
    var resolved := seq(|cards|, k requires 0 <= k < |cards| => ResolveCard(cards[k], save));
    assert ComposeCards(resolved, layouts) == seq(|cards|, k requires 0 <= k < |cards| => cards[k].content);
    forall k | 0 <= k < |resolved|
      ensures !HasPicture(resolved[k])
    {
      assert CardImages(cards[k]) == [];
    }
  }

  // ---------------------------------------------------------------- storage full

  predicate Base64Char(c: char) {
    'A' <= c <= 'Z' || 'a' <= c <= 'z' || '0' <= c <= '9' || c == '+' || c == '/' || c == '='
  }

  /** The end of the longest run of base64 characters from `i`. */
  function Base64RunEnd(s: string, i: nat): (e: nat)
    requires i <= |s|
    ensures i <= e <= |s|
    ensures forall j :: i <= j < e ==> Base64Char(s[j])
    ensures e < |s| ==> !Base64Char(s[e])
    decreases |s| - i
  {
    if i < |s| && Base64Char(s[i]) then Base64RunEnd(s, i + 1) else i
  }

  /** The end (exclusive) of a match of
      `data:image/[^;]+;base64,[A-Za-z0-9+/=]+` starting at `i`: the media
      type runs to the first `;`, the payload as far as it can. */
  function DataUriAt(s: string, i: nat): (r: Option<nat>)
    ensures r.Some? ==> i + 21 <= r.value <= |s|
  {
    if !(i + 11 <= |s| && s[i..i + 11] == "data:image/") then None
    else match FindFrom(s, ";", i + 11)
      case None => None
      case Some(j) =>
        if j == i + 11 || !OccursAt(s, ";base64,", j) then None
        else
          var e := Base64RunEnd(s, j + 8);
          if e == j + 8 then None else Some(e)
  }

  /** The content with every base64 image replaced by the placeholder. */
  function StripDataUris(s: string): (r: string)
    ensures |r| <= |s|
    ensures r == s <==> forall j: nat :: j < |s| ==> DataUriAt(s, j).None?
  {
    ReplaceAll(s, DataUriAt, Blog.Placeholder)
  }

  /** The retry after session storage refused the draft: base64 images go,
      the cover becomes the placeholder and the draft no longer claims AI
      images; everything else is kept. */
  function OnQuotaExceeded(d: Draft): (r: Draft)
    ensures r.content == StripDataUris(d.content) && |r.content| <= |d.content|
    ensures r.image == Blog.Placeholder && !r.hasAIImages
    ensures r.(content := d.content, image := d.image, hasAIImages := d.hasAIImages) == d
  {
    d.(content := StripDataUris(d.content), image := Blog.Placeholder, hasAIImages := false)
  }

  /** A draft without inline images keeps its content on the retry. */
  lemma QuotaRetryKeepsPlainContent(d: Draft)
    requires forall j: nat :: j < |d.content| ==> DataUriAt(d.content, j).None?
    ensures OnQuotaExceeded(d).content == d.content
  {
  }
}

=== FILE: gallery.dfy ===
/** The image gallery's local database (src/lib/imageGalleryDB.js): the
    image records, their defaults, queries and statistics.  The IndexedDB
    store is a sequence of records passed in and returned, in the order of
    their `id` keys, as `getAll` reads them. */
module GalleryDb {
  import opened Wrappers
  import opened Seqs
  import opened Text

  datatype GalleryImage = GalleryImage(
    id: string,
    imageUrl: string,
    prompt: Option<string>,
    cardContent: Option<string>,
    tags: Option<seq<string>>,
    favorite: bool,
    category: string,
    createdAt: int)

  /** What a caller hands over to be saved: the picture and its context,
      and optionally the fields that otherwise get default values. */
  datatype ImageData = ImageData(
    imageUrl: string,
    prompt: Option<string>,
    cardContent: Option<string>,
    id: Option<string>,
    createdAt: Option<int>,
    favorite: Option<bool>,
    tags: Option<seq<string>>,
    category: Option<string>)

  /** The fields an update supplies; absent ones are left as they are. */
  datatype Patch = Patch(
    id: Option<string>,
    imageUrl: Option<string>,
    prompt: Option<string>,
    cardContent: Option<string>,
    tags: Option<seq<string>>,
    favorite: Option<bool>,
    category: Option<string>,
    createdAt: Option<int>)

  const DefaultCategory := "other"

  /** A new record: not a favourite, no tags, category `other`, the given
      id and time, and every field the caller supplied winning over these. */
  function WithDefaults(data: ImageData, id: string, now: int): (r: GalleryImage)
    ensures r.id == data.id.GetOr(id) && r.createdAt == data.createdAt.GetOr(now)
    ensures r.favorite == data.favorite.GetOr(false) && r.tags == Some(data.tags.GetOr([]))
    ensures r.category == data.category.GetOr(DefaultCategory)
    ensures r.imageUrl == data.imageUrl && r.prompt == data.prompt && r.cardContent == data.cardContent
  {
    GalleryImage(data.id.GetOr(id), data.imageUrl, data.prompt, data.cardContent, Some(data.tags.GetOr([])),
                 data.favorite.GetOr(false), data.category.GetOr(DefaultCategory), data.createdAt.GetOr(now))
  }

  /** `a` sorts before `b` as the object store orders its string keys:
      the first differing character decides, and a proper prefix comes
      first. */
  predicate KeyBefore(a: string, b: string)
    decreases |a|
  {
    b != [] && (a == [] || a[0] < b[0] || (a[0] == b[0] && KeyBefore(a[1..], b[1..])))
  }

  lemma {:induction false} KeyBeforeIrreflexive(a: string)
    ensures !KeyBefore(a, a)
    decreases |a|
  {
    if a != [] {
      KeyBeforeIrreflexive(a[1..]);
    }
  }

  lemma {:induction false} KeyBeforeTransitive(a: string, b: string, c: string)
    requires KeyBefore(a, b) && KeyBefore(b, c)
    ensures KeyBefore(a, c)
    decreases |a|
  {
    if a != [] && a[0] == b[0] && b[0] == c[0] {
      KeyBeforeTransitive(a[1..], b[1..], c[1..]);
    }
  }

  lemma {:induction false} KeyBeforeTotal(a: string, b: string)
    requires a != b
    ensures KeyBefore(a, b) || KeyBefore(b, a)
    decreases |a|
  {
    if a != [] && b != [] && a[0] == b[0] {
      assert a == [a[0]] + a[1..] && b == [b[0]] + b[1..];
      KeyBeforeTotal(a[1..], b[1..]);
    }
  }

  /** The store as `getAll` reads it: in ascending key order, which also
      makes the ids distinct. */
  predicate KeyOrdered(store: seq<GalleryImage>) {
    forall i, j :: 0 <= i < j < |store| ==> KeyBefore(store[i].id, store[j].id)
  }

  /** Some record is stored under `id`. */
  predicate Stored(store: seq<GalleryImage>, id: string) {
    exists k :: 0 <= k < |store| && store[k].id == id
  }

  /** The store with `img` put at its key's place. */
  function InsertByKey(store: seq<GalleryImage>, img: GalleryImage): (r: seq<GalleryImage>)
    ensures multiset(r) == multiset(store) + multiset{img}
  {
    if store == [] || KeyBefore(img.id, store[0].id) then [img] + store
    else
      assert store == [store[0]] + store[1..];
      [store[0]] + InsertByKey(store[1..], img)
  }

  /** Putting a new key at its place keeps the store ordered. */
  lemma {:induction false} InsertKeepsOrder(store: seq<GalleryImage>, img: GalleryImage)
    requires KeyOrdered(store) && !Stored(store, img.id)
    ensures KeyOrdered(InsertByKey(store, img))
  {
    var r := InsertByKey(store, img);
    if store == [] {
    } else if KeyBefore(img.id, store[0].id) {
      forall j | 1 <= j < |r|
        ensures KeyBefore(r[0].id, r[j].id)
      {
        if j > 1 {
          KeyBeforeTransitive(img.id, store[0].id, store[j - 1].id);
        }
      }
    } else {
      assert store[0].id != img.id;
      KeyBeforeTotal(img.id, store[0].id);
      var rest := InsertByKey(store[1..], img);
      assert !Stored(store[1..], img.id) by {
        forall k | 0 <= k < |store[1..]|
          ensures store[1..][k].id != img.id
        {
          assert store[1..][k] == store[k + 1];
        }
      }
      InsertKeepsOrder(store[1..], img);
      forall j | 0 <= j < |rest|
        ensures KeyBefore(store[0].id, rest[j].id)
      {
        assert rest[j] in multiset(rest);
        if rest[j] != img {
          assert rest[j] in store[1..];
          var k :| 0 <= k < |store[1..]| && store[1..][k] == rest[j];
          assert store[k + 1] == rest[j];
        }
      }
      assert r == [store[0]] + rest;
    }
  }

  /** What a rejected `add` reports: the key is already taken. */
  const ConstraintError := "ConstraintError"

  /** `saveImage`: the record gets an `img-` id unless the caller gave one
      and goes in at its key's place; `add` refuses a key that is already
      stored, and the save then fails. */
  function Save(store: seq<GalleryImage>, data: ImageData, suffix: string, now: nat)
    : (r: Result<(GalleryImage, seq<GalleryImage>), string>)
    ensures var image := WithDefaults(data, "img-" + Dec(now) + "-" + suffix, now);
      (r.Failure? <==> Stored(store, image.id)) &&
      (r.Failure? ==> r.error == ConstraintError) &&
      (r.Success? ==> r.value.0 == image && multiset(r.value.1) == multiset(store) + multiset{image})
    ensures r.Success? && KeyOrdered(store) ==> KeyOrdered(r.value.1)
    ensures r.Success? && data == ImageData(data.imageUrl, data.prompt, data.cardContent, None, None, None, None, None) ==>
      !r.value.0.favorite && r.value.0.tags == Some([]) && r.value.0.category == DefaultCategory && r.value.0.createdAt == now
  {
    var image := WithDefaults(data, "img-" + Dec(now) + "-" + suffix, now);
    if Stored(store, image.id) then Failure(ConstraintError)
    else
      assert KeyOrdered(store) ==> KeyOrdered(InsertByKey(store, image)) by {
        if KeyOrdered(store) {
          InsertKeepsOrder(store, image);
        }
      }
      Success((image, InsertByKey(store, image)))
  }

  /** Saving twice under an id the caller chose fails the second time. */
  lemma SaveTwiceRefused(store: seq<GalleryImage>, data: ImageData, suffix1: string, suffix2: string,
                         now1: nat, now2: nat)
    requires data.id.Some? && Save(store, data, suffix1, now1).Success?
    ensures Save(Save(store, data, suffix1, now1).value.1, data, suffix2, now2) == Failure(ConstraintError)
  {
    var stored := Save(store, data, suffix1, now1).value;
    assert stored.0 in multiset(stored.1);
    var k :| 0 <= k < |stored.1| && stored.1[k] == stored.0;
    assert Stored(stored.1, data.id.value);
  }

  function CreatedAt(img: GalleryImage): int { img.createdAt }

  /** `getAllImages`: every record, newest first. */
  function All(store: seq<GalleryImage>): (r: seq<GalleryImage>)
    ensures SortedDesc(r, CreatedAt)
    ensures multiset(r) == multiset(store)
    ensures forall t :: Filter(r, KeyIs(CreatedAt, t)) == Filter(store, KeyIs(CreatedAt, t))
  {
    SortDescStable(store, CreatedAt);
    SortDesc(store, CreatedAt)
  }

  /** Filtering an ordered store keeps it ordered. */
  lemma {:induction false} FilterKeepsOrder(store: seq<GalleryImage>, p: GalleryImage -> bool)
    requires KeyOrdered(store)
    ensures KeyOrdered(Filter(store, p))
  {
    if store != [] {
      var rest := Filter(store[1..], p);
      FilterKeepsOrder(store[1..], p);
      if p(store[0]) {
        forall j | 0 <= j < |rest|
          ensures KeyBefore(store[0].id, rest[j].id)
        {
          assert rest[j] in store[1..];
          var k :| 0 <= k < |store[1..]| && store[1..][k] == rest[j];
          assert store[k + 1] == rest[j];
        }
        assert Filter(store, p) == [store[0]] + rest;
      }
    }
  }

  /** Images stored in the same millisecond come back in key order, not
      in the order they were saved: the sort by time keeps the store's
      order among them. */
  lemma SameTimeByKey(store: seq<GalleryImage>, t: int)
    requires KeyOrdered(store)
    ensures KeyOrdered(Filter(All(store), KeyIs(CreatedAt, t)))
  {
    FilterKeepsOrder(store, KeyIs(CreatedAt, t));
  }

  predicate IsFavorite(img: GalleryImage) { img.favorite }

  /** `getFavoriteImages`. */
  function Favorites(images: seq<GalleryImage>): (r: seq<GalleryImage>)
    ensures forall x :: x in r <==> x in images && x.favorite
    ensures Subsequence(r, images)
  {
    Filter(images, IsFavorite)
  }

  function InCategory(category: string): GalleryImage -> bool {
    (img: GalleryImage) => img.category == category
  }

  /** `getImagesByCategory`: everything for `all`, otherwise that category. */
  function ByCategory(images: seq<GalleryImage>, category: string): (r: seq<GalleryImage>)
    ensures category == "all" ==> r == images
    ensures category != "all" ==> (forall x :: x in r <==> x in images && x.category == category)
    ensures Subsequence(r, images)
  {
    if category == "all" then
      SubsequenceRefl(images);
      images
    else Filter(images, InCategory(category))
  }

  /** Some tag contains the query, ignoring case. */
  predicate SomeTagMatches(tags: Option<seq<string>>, query: string) {
    tags.Some? && exists k :: 0 <= k < |tags.value| && ContainsIgnoreCase(tags.value[k], query)
  }

  /** The prompt, the card text or a tag contains the query, ignoring case;
      a missing field matches nothing. */
  predicate Matches(img: GalleryImage, query: string) {
    (img.prompt.Some? && ContainsIgnoreCase(img.prompt.value, query)) ||
    (img.cardContent.Some? && ContainsIgnoreCase(img.cardContent.value, query)) ||
    SomeTagMatches(img.tags, query)
  }

  function MatchesQuery(query: string): GalleryImage -> bool { (img: GalleryImage) => Matches(img, query) }

  /** `searchImages`. */
  function Search(images: seq<GalleryImage>, query: string): (r: seq<GalleryImage>)
    ensures forall x :: x in r <==> x in images && Matches(x, query)
    ensures Subsequence(r, images)
  {
    Filter(images, MatchesQuery(query))
  }

  // ---------------------------------------------------------------- statistics

  /** Per-category counts in the order the categories first appear, as the
      keys of a JavaScript object are. */
  type Counts = seq<(string, nat)>

  /** Adding one to the category's count, or adding the category with one. */
  function Bump(counts: Counts, c: string): Counts {
    if counts == [] then [(c, 1)]
    else if counts[0].0 == c then [(c, counts[0].1 + 1)] + counts[1..]
    else [counts[0]] + Bump(counts[1..], c)
  }

  /** `byCategory[c] || 0`. */
  function CountOf(counts: Counts, c: string): nat {
    if counts == [] then 0 else if counts[0].0 == c then counts[0].1 else CountOf(counts[1..], c)
  }

  function Total(counts: Counts): nat {
    if counts == [] then 0 else counts[0].1 + Total(counts[1..])
  }

  lemma {:induction false} BumpCounts(counts: Counts, c: string, d: string)
    ensures Total(Bump(counts, c)) == Total(counts) + 1
    ensures CountOf(Bump(counts, c), d) == CountOf(counts, d) + (if c == d then 1 else 0)
  {
    if counts != [] && counts[0].0 != c {
      BumpCounts(counts[1..], c, d);
      assert ([counts[0]] + Bump(counts[1..], c))[1..] == Bump(counts[1..], c);
    } else if counts != [] {
      assert ([(c, counts[0].1 + 1)] + counts[1..])[1..] == counts[1..];
    }
  }

  /** The counts after going through `images` in order. */
  function Tally(counts: Counts, images: seq<GalleryImage>): (r: Counts)
    ensures Total(r) == Total(counts) + |images|
    ensures forall d :: CountOf(r, d) == CountOf(counts, d) + Count(images, InCategory(d))
    decreases |images|
  {
    if images == [] then counts
    else
      var next := Bump(counts, images[0].category);
      forall d
        ensures CountOf(next, d) == CountOf(counts, d) + (if images[0].category == d then 1 else 0)
      {
        BumpCounts(counts, images[0].category, d);
      }
      BumpCounts(counts, images[0].category, images[0].category);
      Tally(next, images[1..])
  }

  datatype Stats = Stats(total: nat, byCategory: Counts, favorites: nat)

  /** `getGalleryStats`. */
  function GalleryStats(images: seq<GalleryImage>): (r: Stats)
    ensures r.total == |images|
    ensures Total(r.byCategory) == r.total
    ensures forall c :: CountOf(r.byCategory, c) == |Filter(images, InCategory(c))|
    ensures r.favorites == |Favorites(images)| && r.favorites <= r.total
  {
    var counts := Tally([], images);
    forall c
      ensures CountOf(counts, c) == |Filter(images, InCategory(c))|
    {
      FilterCount(images, InCategory(c));
    }
    FilterCount(images, IsFavorite);
    Stats(|images|, counts, Count(images, IsFavorite))
  }

  /** The fields of `img` with the patch applied. */
  function Merge(img: GalleryImage, p: Patch): (r: GalleryImage)
    ensures p == Patch(None, None, None, None, None, None, None, None) ==> r == img
    ensures r.id == p.id.GetOr(img.id) && r.imageUrl == p.imageUrl.GetOr(img.imageUrl)
    ensures r.favorite == p.favorite.GetOr(img.favorite) && r.category == p.category.GetOr(img.category)
    ensures r.createdAt == p.createdAt.GetOr(img.createdAt)
    ensures p.prompt.Some? ==> r.prompt == p.prompt
    ensures p.prompt.None? ==> r.prompt == img.prompt
    ensures p.cardContent.Some? ==> r.cardContent == p.cardContent
    ensures p.cardContent.None? ==> r.cardContent == img.cardContent
    ensures p.tags.Some? ==> r.tags == p.tags
    ensures p.tags.None? ==> r.tags == img.tags
  {
    GalleryImage(p.id.GetOr(img.id), p.imageUrl.GetOr(img.imageUrl),
                 if p.prompt.Some? then p.prompt else img.prompt,
                 if p.cardContent.Some? then p.cardContent else img.cardContent,
                 if p.tags.Some? then p.tags else img.tags,
                 p.favorite.GetOr(img.favorite), p.category.GetOr(img.category), p.createdAt.GetOr(img.createdAt))
  }

  function WithId(id: string): GalleryImage -> bool { (img: GalleryImage) => img.id == id }

  /** `updateImage`: the record with that id merged with the patch, or
      `null` when there is none. */
  function Update(store: seq<GalleryImage>, id: string, p: Patch): (r: Option<(GalleryImage, seq<GalleryImage>)>)
    ensures r.None? <==> forall k :: 0 <= k < |store| ==> store[k].id != id
    ensures r.Some? ==>
      exists i :: 0 <= i < |store| && store[i].id == id && r.value.0 == Merge(store[i], p) && r.value.1 == store[i := r.value.0]
    ensures r.Some? && KeyOrdered(store) && r.value.0.id == id ==> KeyOrdered(r.value.1)
  {
    match FindIndex(store, WithId(id))
    case Some(i) => Some((Merge(store[i], p), store[i := Merge(store[i], p)]))
    case None => None
  }
}

/** The gallery's in-memory cache (src/lib/imageGallery.js), kept in front
    of the remote store: `None` until the gallery is first loaded.  The
    remote writes it triggers are not modelled. */
module Gallery {
  import opened Wrappers
  import opened Seqs
  import opened Text
  import opened GalleryDb

  type Cache = Option<seq<GalleryImage>>

  /** How long a cached list counts as fresh, in milliseconds. */
  const CacheTtl := 10000

  /** `getAllImages`: the cache, fresh or not, or nothing. */
  function AllImages(cache: Cache, now: int, stamp: int): (r: seq<GalleryImage>)
    ensures r == cache.GetOr([])
  {
    if cache.Some? && now - stamp < CacheTtl then cache.value else cache.GetOr([])
  }

  /** An image saved locally that the remote store has not confirmed. */
  predicate IsTemp(img: GalleryImage) { StartsWith(img.id, "temp-") }

  function Temps(cache: Cache): seq<GalleryImage> { Filter(cache.GetOr([]), IsTemp) }

  predicate SharesUrl(temps: seq<GalleryImage>, img: GalleryImage) {
    exists k :: 0 <= k < |temps| && temps[k].imageUrl == img.imageUrl
  }

  function Unshadowed(temps: seq<GalleryImage>): GalleryImage -> bool {
    (img: GalleryImage) => !SharesUrl(temps, img)
  }

  /** The remote list merged with the unconfirmed images: those come first,
      and a remote image with the same URL as one of them is dropped. */
  function MergeFetched(cache: Cache, fetched: seq<GalleryImage>): (r: seq<GalleryImage>)
    ensures |Temps(cache)| <= |r| && r[..|Temps(cache)|] == Temps(cache)
    ensures forall x :: x in r[|Temps(cache)|..] <==> x in fetched && !SharesUrl(Temps(cache), x)
    ensures Subsequence(r[|Temps(cache)|..], fetched)
  {
    var temps := Temps(cache);
    if |temps| > 0 then
      var rest := Filter(fetched, Unshadowed(temps));
      assert (temps + rest)[|temps|..] == rest;
      temps + rest
    else
      SubsequenceRefl(fetched);
      fetched
  }

  /** Without unconfirmed images the remote list is taken as it is. */
  lemma MergeWithoutTemps(cache: Cache, fetched: seq<GalleryImage>)
    requires forall k :: 0 <= k < |cache.GetOr([])| ==> !IsTemp(cache.GetOr([])[k])
    ensures MergeFetched(cache, fetched) == fetched
  {
    FilterNone(cache.GetOr([]), IsTemp);
  }

  datatype Loaded = Loaded(images: seq<GalleryImage>, cache: Cache, useRemote: bool)

  /** `getAllImagesAsync`: the merged remote list when the remote store
      answers, else the local database's list; either becomes the cache. */
  function LoadAsync(cache: Cache, useRemote: bool, remote: Result<seq<GalleryImage>, string>,
                     store: seq<GalleryImage>): (r: Loaded)
    ensures r.cache == Some(r.images)
    ensures useRemote && remote.Success? ==> r.images == MergeFetched(cache, remote.value) && r.useRemote
    ensures !(useRemote && remote.Success?) ==> r.images == All(store) && !r.useRemote
  {
    if useRemote && remote.Success? then
      var merged := MergeFetched(cache, remote.value);
      Loaded(merged, Some(merged), true)
    else
      Loaded(All(store), Some(All(store)), false)
  }

  /** `saveImage`: the unconfirmed `temp-` image goes in front of the
      cache, if there is one. */
  function SaveTemp(cache: Cache, data: ImageData, now: nat): (r: (GalleryImage, Cache))
    ensures r.0 == WithDefaults(data, "temp-" + Dec(now), now)
    ensures cache.None? ==> r.1.None?
    ensures cache.Some? ==> r.1 == Some([r.0] + cache.value)
  {
    var temp := WithDefaults(data, "temp-" + Dec(now), now);
    (temp, if cache.Some? then Some([temp] + cache.value) else None)
  }

  /** Once the remote store confirms, the record it returned replaces the
      temporary one in the cache. */
  function Confirm(cache: Cache, tempId: string, saved: GalleryImage): (r: Cache)
    ensures cache.None? ==> r.None?
    ensures cache.Some? ==> r.Some? && |r.value| == |cache.value|
    ensures cache.Some? ==> forall k :: 0 <= k < |cache.value| ==>
      r.value[k] == cache.value[k] || (cache.value[k].id == tempId && r.value[k] == saved)
    ensures cache.Some? ==> forall i :: FirstWithId(cache.value, i, tempId) ==> r == Some(cache.value[i := saved])
    ensures cache.Some? && (forall k :: 0 <= k < |cache.value| ==> cache.value[k].id != tempId) ==> r == cache
  {
    match cache
    case None => None
    case Some(c) =>
      match FindIndex(c, WithId(tempId))
      case Some(i) =>
        assert forall j :: FirstWithId(c, j, tempId) ==> j == i;
        Some(c[i := saved])
      case None => cache
  }

  /** Saving and then confirming: the stored record takes the front of the
      cache, ahead of the images that were there. */
  lemma SaveThenConfirm(cache: Cache, data: ImageData, now: nat, saved: GalleryImage)
    requires cache.Some?
    ensures var (temp, withTemp) := SaveTemp(cache, data, now);
      Confirm(withTemp, temp.id, saved) == Some([saved] + cache.value)
  {
    var (temp, withTemp) := SaveTemp(cache, data, now);
    assert FirstWithId(withTemp.value, 0, temp.id);
    assert withTemp.value[0 := saved] == [saved] + cache.value;
  }

  function Distinct(saved: GalleryImage): GalleryImage -> bool {
    (img: GalleryImage) => img.id != saved.id && img.imageUrl != saved.imageUrl
  }

  /** `updateCache` in `saveImageAsync`: the saved image first, and no
      other entry with its id or its URL. */
  function UpdateCache(cache: Cache, saved: GalleryImage): (r: Cache)
    ensures r.Some? && |r.value| > 0 && r.value[0] == saved
    ensures forall k :: 1 <= k < |r.value| ==> r.value[k].id != saved.id && r.value[k].imageUrl != saved.imageUrl
    ensures Subsequence(r.value[1..], cache.GetOr([]))
    ensures forall x :: x in cache.GetOr([]) && x.id != saved.id && x.imageUrl != saved.imageUrl ==> x in r.value
  {
    match cache
    case None =>
      assert [saved][1..] == [];
      Some([saved])
    case Some(c) =>
      var rest := Filter(c, Distinct(saved));
      assert ([saved] + rest)[1..] == rest;
      forall k | 1 <= k < |[saved] + rest|
        ensures ([saved] + rest)[k].id != saved.id && ([saved] + rest)[k].imageUrl != saved.imageUrl
      {
        assert ([saved] + rest)[k] in rest;
      }
      Some([saved] + rest)
  }

  /** Saving the same image again leaves the cache as it is. */
  lemma UpdateCacheIdempotent(cache: Cache, saved: GalleryImage)
    ensures UpdateCache(UpdateCache(cache, saved), saved) == UpdateCache(cache, saved)
  {
    var c := UpdateCache(cache, saved).value;
    var rest := c[1..];
    assert c == [saved] + rest;
    forall x | x in rest
      ensures Distinct(saved)(x)
    {
    }
    FilterAll(rest, Distinct(saved));
  }

  /** `deleteImage`: the image leaves the cache, the rest keep their order. */
  function Delete(cache: Cache, id: string): (r: Cache)
    ensures cache.None? <==> r.None?
    ensures cache.Some? ==> forall x :: x in r.value <==> x in cache.value && x.id != id
    ensures cache.Some? ==> Subsequence(r.value, cache.value)
    ensures cache.Some? ==> |r.value| == Count(cache.value, (img: GalleryImage) => img.id != id)
  {
    match cache
    case None => None
    case Some(c) =>
      FilterCount(c, (img: GalleryImage) => img.id != id);
      Some(Filter(c, (img: GalleryImage) => img.id != id))
  }

  /** `updateImage`: the first cached image with the id is merged with the
      patch; the image then found under that id is returned. */
  function UpdateImage(cache: Cache, id: string, p: Patch): (r: (Cache, Option<GalleryImage>))
    ensures cache.None? ==> r == (None, None)
    ensures cache.Some? && (forall k :: 0 <= k < |cache.value| ==> cache.value[k].id != id) ==> r == (cache, None)
    ensures cache.Some? ==> forall i :: FirstWithId(cache.value, i, id) ==>
      r.0 == Some(cache.value[i := Merge(cache.value[i], p)]) &&
      (p.id.GetOr(id) == id ==> r.1 == Some(Merge(cache.value[i], p)))
  {
    match cache
    case None => (None, None)
    case Some(c) =>
      match FindIndex(c, WithId(id))
      case None => (cache, None)
      case Some(i) =>
        var updated := c[i := Merge(c[i], p)];
        assert FirstWithId(c, i, id);
        FirstWithIdStays(c, i, id, Merge(c[i], p));
        (Some(updated), match FindIndex(updated, WithId(id)) case Some(j) => Some(updated[j]) case None => None)
  }

  /** A changed image whose id is kept is still the first with that id. */
  lemma FirstWithIdStays(c: seq<GalleryImage>, i: nat, id: string, x: GalleryImage)
    requires FirstWithId(c, i, id)
    ensures x.id == id ==> FirstWithId(c[i := x], i, id)
    ensures x.id == id ==> FindIndex(c[i := x], WithId(id)) == Some(i)
  {
    if x.id == id {
      var j := FindIndex(c[i := x], WithId(id));
      assert WithId(id)(c[i := x][i]);
    }
  }

  /** `setImageCategory`: an update of the category alone. */
  function SetCategory(cache: Cache, id: string, category: string): (r: (Cache, Option<GalleryImage>))
    ensures cache.Some? ==> forall i :: FirstWithId(cache.value, i, id) ==>
      r.0 == Some(cache.value[i := cache.value[i].(category := category)]) &&
      r.1 == Some(cache.value[i].(category := category))
    ensures cache.None? || (forall k :: 0 <= k < |cache.value| ==> cache.value[k].id != id) ==> r == (cache, None)
  {
    UpdateImage(cache, id, Patch(None, None, None, None, None, None, Some(category), None))
  }

  /** `toggleFavorite`: the first image with the id is flipped and the new
      flag returned; without a cache or such an image, `false` and no
      change. */
  function ToggleFavorite(cache: Cache, id: string): (r: (Cache, bool))
    ensures cache.None? || (forall k :: 0 <= k < |cache.value| ==> cache.value[k].id != id) ==>
      r == (cache, false)
    ensures cache.Some? ==> forall i :: FirstWithId(cache.value, i, id) ==>
      r.0 == Some(cache.value[i := cache.value[i].(favorite := !cache.value[i].favorite)]) &&
      r.1 == !cache.value[i].favorite
  {
    match cache
    case None => (cache, false)
    case Some(c) =>
      match FindIndex(c, WithId(id))
      case Some(i) =>
        var flipped := c[i].(favorite := !c[i].favorite);
        (Some(c[i := flipped]), flipped.favorite)
      case None => (cache, false)
  }

  /** Image `i` is the first with that id. */
  predicate FirstWithId(c: seq<GalleryImage>, i: int, id: string) {
    0 <= i < |c| && c[i].id == id && forall j :: 0 <= j < i ==> c[j].id != id
  }

  /** Toggling twice restores the cache. */
  lemma ToggleTwice(cache: Cache, id: string)
    ensures ToggleFavorite(ToggleFavorite(cache, id).0, id).0 == cache
  {
    if cache.Some? {
      var c := cache.value;
      match FindIndex(c, WithId(id)) {
        case Some(i) =>
          var once := ToggleFavorite(cache, id).0.value;
          assert FirstWithId(c, i, id);
          assert FirstWithId(once, i, id);
          assert once[i := once[i].(favorite := !once[i].favorite)] == c;
        case None =>
      }
    }
  }

  /** No tag occurs twice. */
  predicate NoDuplicates(tags: seq<string>) {
    forall i, j :: 0 <= i < j < |tags| ==> tags[i] != tags[j]
  }

  /** `addTagToImage`: the tag is appended to the first image with the id
      unless it already carries it. */
  function AddTag(cache: Cache, id: string, tag: string): (r: Cache)
    ensures cache.None? ==> r.None?
    ensures cache.Some? ==> r.Some? && |r.value| == |cache.value|
    ensures cache.Some? ==> forall i :: FirstWithId(cache.value, i, id) ==>
      tag in r.value[i].tags.GetOr([]) &&
      (forall k :: 0 <= k < |cache.value| && k != i ==> r.value[k] == cache.value[k]) &&
      (NoDuplicates(cache.value[i].tags.GetOr([])) ==> NoDuplicates(r.value[i].tags.GetOr([])))
    ensures cache.Some? ==> forall i :: FirstWithId(cache.value, i, id) ==>
      var before := cache.value[i].tags.GetOr([]);
      (tag !in before ==> r.value[i] == cache.value[i].(tags := Some(before + [tag]))) &&
      (tag in before ==> r == cache)
    ensures cache.Some? && (forall k :: 0 <= k < |cache.value| ==> cache.value[k].id != id) ==> r == cache
  {
    match cache
    case None => None
    case Some(c) =>
      match FindIndex(c, WithId(id))
      case Some(i) =>
        var tags := c[i].tags.GetOr([]);
        if tag in tags then cache
        else Some(c[i := c[i].(tags := Some(tags + [tag]))])
      case None => cache
  }

  /** `removeTagFromImage`: every occurrence of the tag leaves the first
      image with the id; its other tags keep their order. */
  function RemoveTag(cache: Cache, id: string, tag: string): (r: Cache)
    ensures cache.None? ==> r.None?
    ensures cache.Some? ==> r.Some? && |r.value| == |cache.value|
    ensures cache.Some? ==> forall i :: FirstWithId(cache.value, i, id) ==>
      r.value[i].tags.Some? && tag !in r.value[i].tags.value &&
      (forall t :: t in r.value[i].tags.value <==> t in cache.value[i].tags.GetOr([]) && t != tag) &&
      Subsequence(r.value[i].tags.value, cache.value[i].tags.GetOr([])) &&
      |r.value[i].tags.value| == Count(cache.value[i].tags.GetOr([]), (t: string) => t != tag) &&
      r.value[i] == cache.value[i].(tags := r.value[i].tags) &&
      (forall k :: 0 <= k < |cache.value| && k != i ==> r.value[k] == cache.value[k])
    ensures cache.Some? && (forall k :: 0 <= k < |cache.value| ==> cache.value[k].id != id) ==> r == cache
  {
    match cache
    case None => None
    case Some(c) =>
      match FindIndex(c, WithId(id))
      case Some(i) =>
        assert forall j :: FirstWithId(c, j, id) ==> j == i;
        FilterCount(c[i].tags.GetOr([]), (t: string) => t != tag);
        Some(c[i := c[i].(tags := Some(Filter(c[i].tags.GetOr([]), (t: string) => t != tag)))])
      case None => cache
  }

  /** Removing a tag that was just added gives the old tags back. */
  lemma AddThenRemoveTag(cache: Cache, id: string, tag: string, i: nat)
    requires cache.Some? && FirstWithId(cache.value, i, id)
    requires tag !in cache.value[i].tags.GetOr([])
    ensures RemoveTag(AddTag(cache, id, tag), id, tag).value[i].tags == Some(cache.value[i].tags.GetOr([]))
  {
    var c := cache.value;
    var added := AddTag(cache, id, tag).value;
    assert FirstWithId(added, i, id);
    var tags := c[i].tags.GetOr([]);
    assert added[i].tags == Some(tags + [tag]);
    FilterSnoc(tags, tag);
  }

  /** Filtering out a tag that was appended to a list without it. */
  lemma FilterSnoc(tags: seq<string>, tag: string)
    requires tag !in tags
    ensures Filter(tags + [tag], (t: string) => t != tag) == tags
  {
    FilterAppendLast(tags, tag, (t: string) => t != tag);
    forall x | x in tags
      ensures x != tag
    {
    }
    FilterAll(tags, (t: string) => t != tag);
  }

  lemma {:induction false} FilterAppendLast<T>(s: seq<T>, x: T, p: T -> bool)
    requires !p(x)
    ensures Filter(s + [x], p) == Filter(s, p)
  {
    if s == [] {
      assert [] + [x] == [x];
      assert [x][1..] == [];
    } else {
      assert (s + [x])[0] == s[0];
      assert (s + [x])[1..] == s[1..] + [x];
      FilterAppendLast(s[1..], x, p);
    }
  }

  /** `tags` added to `acc`, each one not already there, in order. */
  function AddTags(acc: seq<string>, tags: seq<string>): (r: seq<string>)
    requires NoDuplicates(acc)
    ensures NoDuplicates(r)
    ensures forall t :: t in r <==> t in acc || t in tags
    ensures |acc| <= |r| && r[..|acc|] == acc
    decreases |tags|
  {
    if tags == [] then acc
    else
      var next := if tags[0] in acc then acc else acc + [tags[0]];
      assert next[..|acc|] == acc;
      var r := AddTags(next, tags[1..]);
      assert forall t :: t in tags ==> t == tags[0] || t in tags[1..];
      assert r[..|acc|] == r[..|next|][..|acc|];
      r
  }

  /** Some image in the list carries the tag. */
  predicate Tagged(images: seq<GalleryImage>, t: string) {
    exists k :: 0 <= k < |images| && t in images[k].tags.GetOr([])
  }

  function CollectTags(acc: seq<string>, images: seq<GalleryImage>): (r: seq<string>)
    requires NoDuplicates(acc)
    ensures NoDuplicates(r)
    ensures forall t :: t in r <==> t in acc || Tagged(images, t)
    decreases |images|
  {
    if images == [] then acc
    else
      var r := CollectTags(AddTags(acc, images[0].tags.GetOr([])), images[1..]);
      forall t
        ensures Tagged(images, t) <==> t in images[0].tags.GetOr([]) || Tagged(images[1..], t)
      {
        if Tagged(images[1..], t) {
          var k :| 0 <= k < |images[1..]| && t in images[1..][k].tags.GetOr([]);
          assert images[k + 1] == images[1..][k];
        }
        if Tagged(images, t) && t !in images[0].tags.GetOr([]) {
          var k :| 0 <= k < |images| && t in images[k].tags.GetOr([]);
          assert images[1..][k - 1] == images[k];
        }
      }
      r
  }

  /** `getAllTags`: every tag of the cached images, once each, in the order
      they first appear. */
  function AllTags(cache: Cache): (r: seq<string>)
    ensures NoDuplicates(r)
    ensures forall t :: t in r <==> Tagged(cache.GetOr([]), t)
  {
    CollectTags([], cache.GetOr([]))
  }
}

/** The gallery dialog (src/components/ImageGalleryModal.jsx): which
    images it lists and how it adds tags. */
module GalleryModal {
  import opened Wrappers
  import opened Seqs
  import opened Text
  import opened GalleryDb
  import Gallery

  /** `loadImages`: a search term wins over the favourites switch, which
      wins over the category; a failed load lists nothing. */
  function Shown(loaded: Result<seq<GalleryImage>, string>, searchTerm: string, favoritesOnly: bool,
                 category: string): (r: seq<GalleryImage>)
    ensures loaded.Failure? ==> r == []
    ensures loaded.Success? && searchTerm != "" ==> r == Search(loaded.value, searchTerm)
    ensures loaded.Success? && searchTerm == "" && favoritesOnly ==> r == Favorites(loaded.value)
    ensures loaded.Success? && searchTerm == "" && !favoritesOnly ==> r == ByCategory(loaded.value, category)
  {
    match loaded
    case Failure(_) => []
    case Success(images) =>
      if searchTerm != "" then Search(images, searchTerm)
      else if favoritesOnly then Favorites(images)
      else ByCategory(images, category)
  }

  /** Whatever the filters, only loaded images are listed. */
  lemma ShownAreLoaded(loaded: Result<seq<GalleryImage>, string>, searchTerm: string, favoritesOnly: bool,
                       category: string)
    ensures loaded.Success? ==> Subsequence(Shown(loaded, searchTerm, favoritesOnly, category), loaded.value)
    ensures searchTerm != "" ==> forall f1, f2, c1, c2 ::
      Shown(loaded, searchTerm, f1, c1) == Shown(loaded, searchTerm, f2, c2)
  {
  }

  /** `handleAddTag`: a tag that is not blank is added trimmed and the
      input cleared; a blank one changes nothing. */
  function AddTagFromInput(cache: Gallery.Cache, id: string, input: string): (r: (Gallery.Cache, string))
    ensures Blank(input) ==> r == (cache, input)
    ensures !Blank(input) ==> r == (Gallery.AddTag(cache, id, Trim(input)), "")
  {
    TrimEmptyIffBlank(input);
    var tag := Trim(input);
    if tag != "" then (Gallery.AddTag(cache, id, tag), "") else (cache, input)
  }

  /** `handleSelect`: with a handler the image is handed over and the
      dialog closes; without one nothing happens. */
  function Select(hasHandler: bool, image: GalleryImage): (r: (Option<GalleryImage>, bool))
    ensures r.0.Some? <==> hasHandler
    ensures r.0.Some? ==> r.0.value == image
    ensures r.1 == hasHandler
  {
    if hasHandler then (Some(image), true) else (None, false)
  }
}

=== FILE: history.dfy ===
/** The AI editor's conversation history (`saveCurrentSession`,
    `loadSession`, `startNewSession` and `deleteSession` in
    src/app/admin/blog/ai-editor/page.jsx): the conversation and its canvas
    are saved as a session, at most twenty are kept, and when local storage
    is full the stored copy is cut down before it is given up. */
module History {
  import opened Wrappers
  import opened Seqs
  import opened Text
  import opened Canvas

  /** A chat message with its text already extracted. */
  datatype Message = Message(id: string, role: string, content: string)

  datatype Session = Session(
    id: string,
    title: string,
    createdAt: int,
    updatedAt: int,
    messages: seq<Message>,
    canvas: seq<Card>)

  /** What the editor holds: the conversation, the canvas, the id of the
      session being edited, and the history list. */
  datatype Editor = Editor(
    messages: seq<Message>,
    cards: seq<Card>,
    currentId: Option<string>,
    history: seq<Session>)

  /** What local storage holds for the history after a save. */
  datatype Persisted = Unchanged | Stored(sessions: seq<Session>) | Removed

  const MaxSessions := 20

  /** How many sessions survive when storage is full. */
  const QuotaSessions := 10

  const TitleLength := 50

  const UntitledTitle := "新對話"

  // ---------------------------------------------------------------- one session

  predicate IsUser(m: Message) { m.role == "user" }

  /** Message `k` is the first one the user wrote. */
  predicate FirstUser(messages: seq<Message>, k: int) {
    0 <= k < |messages| && IsUser(messages[k]) && forall j :: 0 <= j < k ==> !IsUser(messages[j])
  }

  /** The first 50 characters of the first user message and an ellipsis, or
      `新對話` when the user has not spoken. */
  function Title(messages: seq<Message>): (r: string)
    ensures (forall k :: 0 <= k < |messages| ==> !IsUser(messages[k])) ==> r == UntitledTitle
    ensures forall k :: FirstUser(messages, k) ==> r == Take(messages[k].content, TitleLength) + "..."
    ensures |r| <= TitleLength + 3
  {
    match FindIndex(messages, IsUser)
    case Some(k) => Take(messages[k].content, TitleLength) + "..."
    case None => UntitledTitle
  }

  /** A canvas card as it is stored with a session: its pictures dropped. */
  function WithoutPictures(c: Card): (r: Card)
    ensures r.image.None? && r.imagePrompt.None? && r.images == Some([])
    ensures r.(image := c.image, imagePrompt := c.imagePrompt, images := c.images) == c
  {
    c.(image := None, imagePrompt := None, images := Some([]))
  }

  predicate Pictureless(c: Card) {
    c.image.None? && c.imagePrompt.None? && c.images == Some([])
  }

  function StripCanvas(cards: seq<Card>): (r: seq<Card>)
    ensures |r| == |cards|
    ensures forall k :: 0 <= k < |cards| ==> r[k] == WithoutPictures(cards[k])
  {
    seq(|cards|, k requires 0 <= k < |cards| => WithoutPictures(cards[k]))
  }

  /** The id of the session being saved: the current one, or a new
      `session-<now>`. */
  function SessionId(current: Option<string>, now: nat): (r: string)
    ensures Truthy(current) ==> r == current.value
    ensures !Truthy(current) ==> StartsWith(r, "session-") && r[8..] == Dec(now)
  {
    var made := "session-" + Dec(now);
    assert made[8..] == Dec(now);
    OrString(current, made)
  }

  /** Sessions started at different times get different ids. */
  lemma NewIdsDiffer(now1: nat, now2: nat)
    requires now1 != now2
    ensures SessionId(None, now1) != SessionId(None, now2)
  {
    if SessionId(None, now1) == SessionId(None, now2) {
      DecInjective(now1, now2);
    }
  }

  /** The session recorded for the editor's state at time `now`. */
  function Snapshot(e: Editor, now: nat): (s: Session)
    ensures s.id == SessionId(e.currentId, now) && s.title == Title(e.messages)
    ensures s.messages == e.messages && s.createdAt == now && s.updatedAt == now
    ensures |s.canvas| == |e.cards|
    ensures forall k :: 0 <= k < |e.cards| ==> (Pictureless(s.canvas[k]) &&
      s.canvas[k].(image := e.cards[k].image, imagePrompt := e.cards[k].imagePrompt,
                   images := e.cards[k].images) == e.cards[k])
  {
    Session(SessionId(e.currentId, now), Title(e.messages), now, now, e.messages, StripCanvas(e.cards))
  }

  // ---------------------------------------------------------------- the list

  /** Whether a session has the given id, and its negation, as values for
      the list operations. */
  function SameId(id: string): Session -> bool { (h: Session) => h.id == id }

  function OtherId(id: string): Session -> bool { (h: Session) => h.id != id }

  /** Session `i` is the first with that id. */
  predicate FirstWithId(history: seq<Session>, i: int, id: string) {
    0 <= i < |history| && history[i].id == id && forall j :: 0 <= j < i ==> history[j].id != id
  }

  /** The session replaces the one with its id in place, or goes first;
      then the list is cut to twenty. */
  function Upsert(history: seq<Session>, s: Session): (r: seq<Session>)
    ensures |r| <= MaxSessions
    ensures (forall k :: 0 <= k < |history| ==> history[k].id != s.id) ==>
      r == First([s] + history, MaxSessions)
    ensures forall i :: FirstWithId(history, i, s.id) ==> (
      |r| == (if |history| < MaxSessions then |history| else MaxSessions) &&
      forall k :: 0 <= k < |r| ==> r[k] == if k == i then s else history[k])
  {
    match FindIndex(history, SameId(s.id))
    case Some(i) => First(history[i := s], MaxSessions)
    case None => First([s] + history, MaxSessions)
  }

  /** The saved session is in the list whenever the list was within its
      bound, and it is the only entry changed or added. */
  lemma UpsertKeepsSession(history: seq<Session>, s: Session)
    requires |history| <= MaxSessions
    ensures s in Upsert(history, s)
    ensures forall h :: h in Upsert(history, s) ==> h == s || h in history
  {
    var r := Upsert(history, s);
    match FindIndex(history, SameId(s.id))
    case Some(i) =>
      assert r[i] == s;
    case None =>
      assert r[0] == s;
  }

  /** No two sessions share an id. */
  predicate DistinctIds(h: seq<Session>) {
    forall i, j :: 0 <= i < j < |h| ==> h[i].id != h[j].id
  }

  /** Saving never produces two sessions with the same id. */
  lemma UpsertKeepsIdsDistinct(history: seq<Session>, s: Session)
    requires DistinctIds(history)
    ensures DistinctIds(Upsert(history, s))
  {
    var r := Upsert(history, s);
    match FindIndex(history, SameId(s.id))
    case Some(i) =>
      forall a, b | 0 <= a < b < |r|
        ensures r[a].id != r[b].id
      {
        assert r[a] == history[a] || r[a] == s;
      }
    case None =>
      var full := [s] + history;
      forall a, b | 0 <= a < b < |r|
        ensures r[a].id != r[b].id
      {
        assert r[b] == history[b - 1];
        if a > 0 {
          assert r[a] == history[a - 1];
        }
      }
  }

  /** Saving the same session twice is saving it once. */
  lemma UpsertIdempotent(history: seq<Session>, s: Session)
    requires |history| <= MaxSessions
    ensures Upsert(Upsert(history, s), s) == Upsert(history, s)
  {
    match FindIndex(history, SameId(s.id))
    case Some(i) => UpsertAgainInPlace(history, s, i);
    case None => UpsertAgainAtFront(history, s);
  }

  /** A session already in the list is found again where it was put. */
  lemma UpsertAgainInPlace(history: seq<Session>, s: Session, i: nat)
    requires |history| <= MaxSessions && FindIndex(history, SameId(s.id)) == Some(i)
    ensures Upsert(Upsert(history, s), s) == Upsert(history, s)
  {
    assert FirstWithId(history, i, s.id);
    UpsertFound(history, s, i);
    var r := history[i := s];
    assert FirstWithId(r, i, s.id);
    UpsertFound(r, s, i);
    assert r[i := s] == r;
  }

  /** Within the bound, a session whose id is found is written over that
      entry. */
  lemma UpsertFound(history: seq<Session>, s: Session, i: nat)
    requires |history| <= MaxSessions && FirstWithId(history, i, s.id)
    ensures Upsert(history, s) == history[i := s]
  {
    var r := Upsert(history, s);
    assert |r| == |history[i := s]|;
    forall k | 0 <= k < |r|
      ensures r[k] == history[i := s][k]
    {
    }
  }

  /** A new session, put first, is found again at the front. */
  lemma UpsertAgainAtFront(history: seq<Session>, s: Session)
    requires |history| <= MaxSessions && FindIndex(history, SameId(s.id)).None?
    ensures Upsert(Upsert(history, s), s) == Upsert(history, s)
  {
    var r := Upsert(history, s);
    assert r[0] == s;
    assert FindIndex(r, SameId(s.id)) == Some(0);
    assert r[0 := s] == r;
  }

  /** The sessions that survive a full storage: the newest ten, their canvas
      pictures dropped. */
  function TrimForQuota(sessions: seq<Session>): (r: seq<Session>)
    ensures |r| <= QuotaSessions && |r| <= |sessions|
    ensures forall k :: 0 <= k < |r| ==>
      r[k] == sessions[k].(canvas := StripCanvas(sessions[k].canvas))
  {
    var kept := First(sessions, QuotaSessions);
    seq(|kept|, k requires 0 <= k < |kept| => kept[k].(canvas := StripCanvas(kept[k].canvas)))
  }

  /** Sessions saved by the editor already carry no pictures, so trimming
      them only shortens the list. */
  lemma TrimSnapshotsOnlyShortens(sessions: seq<Session>)
    requires forall k, j :: 0 <= k < |sessions| && 0 <= j < |sessions[k].canvas| ==>
      Pictureless(sessions[k].canvas[j])
    ensures TrimForQuota(sessions) == First(sessions, QuotaSessions)
  {
    var r := TrimForQuota(sessions);
    var f := First(sessions, QuotaSessions);
    forall k | 0 <= k < |r|
      ensures r[k] == f[k]
    {
      var c := sessions[k].canvas;
      assert StripCanvas(c) == c;
    }
  }

  /** Trimming twice is trimming once. */
  lemma TrimIdempotent(sessions: seq<Session>)
    ensures TrimForQuota(TrimForQuota(sessions)) == TrimForQuota(sessions)
  {
    var r := TrimForQuota(sessions);
    forall k | 0 <= k < |r|
      ensures TrimForQuota(r)[k] == r[k]
    {
      var c := r[k].canvas;
      assert StripCanvas(c) == c;
    }
  }

  /** Writing the list: as it is; when storage is full, trimmed; and when
      even that does not fit, the stored history is removed.  Another error
      leaves storage alone. */
  function Persist(updated: seq<Session>, write: seq<Session> -> WriteOutcome): (p: Persisted)
    ensures write(updated) == Written ==> p == Stored(updated)
    ensures write(updated) == OtherError ==> p == Unchanged
    ensures write(updated) == QuotaExceeded ==>
      (write(TrimForQuota(updated)) == Written ==> p == Stored(TrimForQuota(updated))) &&
      (write(TrimForQuota(updated)) != Written ==> p == Removed)
    ensures p.Stored? ==> |p.sessions| <= |updated| && write(p.sessions) == Written
  {
    match write(updated)
    case Written => Stored(updated)
    case OtherError => Unchanged
    case QuotaExceeded =>
      var trimmed := TrimForQuota(updated);
      if write(trimmed) == Written then Stored(trimmed) else Removed
  }

  // ---------------------------------------------------------------- the editor

  /** `saveCurrentSession` at time `now`: nothing without messages;
      otherwise the editor keeps the session id it saved under and its
      history holds the session (all twenty in memory, whatever storage
      accepted). */
  function Save(e: Editor, now: nat, write: seq<Session> -> WriteOutcome): (r: (Editor, Persisted))
    ensures e.messages == [] ==> r == (e, Unchanged)
    ensures e.messages != [] ==>
      var s := Snapshot(e, now);
      r.0 == e.(currentId := Some(s.id), history := Upsert(e.history, s)) &&
      r.1 == Persist(Upsert(e.history, s), write)
    ensures |e.history| <= MaxSessions ==> |r.0.history| <= MaxSessions
  {
    if e.messages == [] then (e, Unchanged)
    else
      var s := Snapshot(e, now);
      var updated := Upsert(e.history, s);
      (e.(currentId := Some(s.id), history := updated), Persist(updated, write))
  }

  /** `loadSession`: the session's conversation and canvas come back and
      become the current session. */
  function Load(e: Editor, s: Session): (r: Editor)
    ensures r.messages == s.messages && r.cards == s.canvas && r.currentId == Some(s.id)
    ensures r.history == e.history
  {
    e.(messages := s.messages, cards := s.canvas, currentId := Some(s.id))
  }

  /** Saving and then opening the saved session gives back the conversation
      and the canvas without its pictures, under the same session id. */
  lemma SaveThenLoad(e: Editor, now: nat, write: seq<Session> -> WriteOutcome)
    requires e.messages != [] && |e.history| <= MaxSessions
    ensures var saved := Save(e, now, write).0;
      exists s :: s in saved.history && s.id == saved.currentId.value &&
        Load(saved, s).messages == e.messages && Load(saved, s).cards == StripCanvas(e.cards) &&
        Load(saved, s).currentId == saved.currentId
  {
    var s := Snapshot(e, now);
    UpsertKeepsSession(e.history, s);
    assert s.canvas == StripCanvas(e.cards);
  }

  /** `startNewSession`: the current conversation is saved first, then the
      editor is cleared. */
  function StartNew(e: Editor, now: nat, write: seq<Session> -> WriteOutcome): (r: (Editor, Persisted))
    ensures r.0.messages == [] && r.0.cards == [] && r.0.currentId == None
    ensures r.0.history == Save(e, now, write).0.history && r.1 == Save(e, now, write).1
  {
    var saved := Save(e, now, write);
    (saved.0.(messages := [], cards := [], currentId := None), saved.1)
  }

  /** `deleteSession`: every session with that id goes; the others stay in
      order.  A failed write is ignored. */
  function Delete(history: seq<Session>, id: string): (r: seq<Session>)
    ensures forall s :: s in r <==> s in history && s.id != id
    ensures Subsequence(r, history)
    ensures |r| == Count(history, OtherId(id))
  {
    FilterCount(history, OtherId(id));
    Filter(history, OtherId(id))
  }

  /** Deleting what was just saved, in a list that did not hold it, gives
      back the list as it was (when it was short enough not to be cut). */
  lemma DeleteUndoesNewSave(history: seq<Session>, s: Session)
    requires forall k :: 0 <= k < |history| ==> history[k].id != s.id
    requires |history| < MaxSessions
    ensures Delete(Upsert(history, s), s.id) == history
  {
    assert Upsert(history, s) == [s] + history;
    assert ([s] + history)[1..] == history;
    FilterAll(history, OtherId(s.id));
    forall x | x in history
      ensures x.id != s.id
    {
    }
  }
}

=== FILE: imagetool.dfy ===
/** The AI editor's image tool (src/app/admin/blog/ai-editor/page.jsx): the
    per-card modal state holding the scene analysis, the cover suggestion and
    the generation progress of each, and the SAVE button that merges what was
    generated into the card.  Network results (the analysis response, the
    generated and the gallery-saved URL) are parameters. */
module ImageTool {
  import opened Wrappers
  import opened Seqs
  import opened Canvas

  /** A legacy prompt option (from `parsePromptOptions`, which is left out)
      with the image generated for it, if any. */
  datatype PromptOption = PromptOption(prompt: Option<string>, generatedImage: Option<string>)

  /** The modal's state: `scenes`, `coverImageSuggestion`, `promptOptions`,
      `imageSuggestion`, `imagePrompt` and the global `referenceImage`. */
  datatype Tool = Tool(
    scenes: seq<Scene>,
    cover: Option<Cover>,
    options: seq<PromptOption>,
    suggestion: Option<string>,
    imagePrompt: string,
    referenceImage: Option<string>)

  /** A scene as the analyzer returns it. */
  datatype RawScene = RawScene(originalText: Option<string>, description: string, prompt: Option<string>)

  /** The cover suggestion as the analyzer returns it. */
  datatype RawCover = RawCover(description: string, prompt: Option<string>)

  /** The JSON body of `/api/analyze-image` as the page reads it. */
  datatype Analysis = Analysis(
    error: Option<string>,
    scenes: Option<seq<RawScene>>,
    coverImage: Option<RawCover>,
    suggestion: Option<string>)

  // ---------------------------------------------------------------- opening

  /** `openImageTool`: the tool starts from the card's cached analysis when
      it has scenes, and from a blank analysis otherwise. */
  function Open(card: Card): (r: Tool)
    ensures r.imagePrompt == (if Truthy(card.imagePrompt) then card.imagePrompt.value else "")
    ensures r.options == [] && r.suggestion.None?
    ensures card.scenes.Some? && |card.scenes.value| > 0 ==>
      r.scenes == card.scenes.value && r.cover == card.cover
    ensures !(card.scenes.Some? && |card.scenes.value| > 0) ==> r.scenes == [] && r.cover.None?
    ensures Truthy(r.referenceImage) <==> Truthy(card.referenceImage)
  {
    var cached := card.scenes.Some? && |card.scenes.value| > 0;
    Tool(if cached then card.scenes.value else [],
         if cached then card.cover else None,
         [], None,
         OrString(card.imagePrompt, ""),
         if Truthy(card.referenceImage) then card.referenceImage else None)
  }

  // ---------------------------------------------------------------- analysis

  /** A freshly analysed scene: numbered by its position, not generating,
      nothing generated yet, the editable prompt starting as the proposal. */
  function FreshScene(s: RawScene, index: int): Scene {
    Scene(index, s.originalText, s.description, s.prompt, s.prompt, None, false, None)
  }

  function FreshCover(c: RawCover): Cover {
    Cover(c.description, c.prompt, c.prompt, None, false, None)
  }

  /** `handleAnalyzeForImage` once the response arrived.  The handler clears
      scenes, options and cover first; an error leaves them cleared, a scene
      list replaces them, and a response without scenes falls back to the
      legacy suggestion whose options `parse` extracts.  With no suggestion
      at all the extraction throws and the options stay cleared. */
  function ApplyAnalysis(tool: Tool, data: Analysis, parse: string -> seq<PromptOption>): (r: Tool)
    ensures r.referenceImage == tool.referenceImage
    ensures Truthy(data.error) ==> r.scenes == [] && r.cover.None? && r.options == []
    ensures !Truthy(data.error) && data.scenes.Some? && |data.scenes.value| > 0 ==>
      |r.scenes| == |data.scenes.value| &&
      (forall k :: 0 <= k < |r.scenes| ==>
        r.scenes[k].sceneIndex == k && !r.scenes[k].generating && r.scenes[k].generatedImage.None? &&
        r.scenes[k].editablePrompt == r.scenes[k].prompt == data.scenes.value[k].prompt &&
        r.scenes[k].originalText == data.scenes.value[k].originalText) &&
      (r.cover.Some? <==> data.coverImage.Some?)
    ensures !Truthy(data.error) && !(data.scenes.Some? && |data.scenes.value| > 0) ==>
      r.scenes == [] && r.cover.None? && r.suggestion == data.suggestion
    ensures !Truthy(data.error) && !(data.scenes.Some? && |data.scenes.value| > 0) && data.suggestion.Some? ==>
      r.options == parse(data.suggestion.value) &&
      r.imagePrompt == (if |r.options| > 0 then r.options[0].prompt.GetOr("") else tool.imagePrompt)
    ensures !Truthy(data.error) && !(data.scenes.Some? && |data.scenes.value| > 0) && data.suggestion.None? ==>
      r.options == [] && r.imagePrompt == tool.imagePrompt
  {
    var cleared := tool.(scenes := [], options := [], cover := None);
    if Truthy(data.error) then cleared
    else if data.scenes.Some? && |data.scenes.value| > 0 then
      var raw := data.scenes.value;
      cleared.(scenes := seq(|raw|, k requires 0 <= k < |raw| => FreshScene(raw[k], k)),
               cover := match data.coverImage
                        case Some(c) => Some(FreshCover(c))
                        case None => None)
    else if data.suggestion.None? then
      // splitting the missing suggestion throws: the options stay cleared
      cleared.(suggestion := None)
    else
      var options := parse(data.suggestion.value);
      cleared.(suggestion := data.suggestion, options := options,
               imagePrompt := if |options| > 0 then options[0].prompt.GetOr("") else tool.imagePrompt)
  }

  // ---------------------------------------------------------------- scene generation

  /** `prev.map((s, i) => i === index ? f(s) : s)`. */
  function UpdateAt(scenes: seq<Scene>, index: int, f: Scene -> Scene): (r: seq<Scene>)
    ensures |r| == |scenes|
    ensures 0 <= index < |scenes| ==> r[index] == f(scenes[index])
    ensures forall k :: 0 <= k < |scenes| && k != index ==> r[k] == scenes[k]
  {
    seq(|scenes|, k requires 0 <= k < |scenes| => if k == index then f(scenes[k]) else scenes[k])
  }

  /** Pressing generate on scene `index`: only that scene shows progress. */
  function StartScene(scenes: seq<Scene>, index: int): (r: seq<Scene>)
    ensures |r| == |scenes|
    ensures 0 <= index < |scenes| ==> r[index].generating && r[index].(generating := scenes[index].generating) == scenes[index]
    ensures forall k :: 0 <= k < |scenes| && k != index ==> r[k] == scenes[k]
  {
    UpdateAt(scenes, index, (s: Scene) => s.(generating := true))
  }

  /** The generated image arrived: the gallery's URL when the save returned
      one, the generator's otherwise; the prompt used becomes the editable one. */
  function FinishScene(scenes: seq<Scene>, index: int, prompt: Option<string>,
                       saved: Option<string>, generated: Option<string>): (r: seq<Scene>)
    ensures |r| == |scenes|
    ensures 0 <= index < |scenes| ==>
      !r[index].generating && r[index].editablePrompt == prompt &&
      (Truthy(saved) ==> r[index].generatedImage == saved) &&
      (!Truthy(saved) ==> r[index].generatedImage == generated) &&
      r[index].(generating := scenes[index].generating, editablePrompt := scenes[index].editablePrompt,
                generatedImage := scenes[index].generatedImage) == scenes[index]
    ensures forall k :: 0 <= k < |scenes| && k != index ==> r[k] == scenes[k]
  {
    var finalUrl := OrElse(saved, generated);
    UpdateAt(scenes, index, (s: Scene) => s.(generatedImage := finalUrl, generating := false, editablePrompt := prompt))
  }

  /** Generation failed: the scene only stops showing progress. */
  function FailScene(scenes: seq<Scene>, index: int): (r: seq<Scene>)
    ensures |r| == |scenes|
    ensures 0 <= index < |scenes| ==> !r[index].generating && r[index].(generating := scenes[index].generating) == scenes[index]
    ensures forall k :: 0 <= k < |scenes| && k != index ==> r[k] == scenes[k]
  {
    UpdateAt(scenes, index, (s: Scene) => s.(generating := false))
  }

  /** A failed attempt on an idle scene leaves every scene as it was. */
  lemma StartFailRestores(scenes: seq<Scene>, index: int)
    requires forall k :: 0 <= k < |scenes| ==> !scenes[k].generating
    ensures FailScene(StartScene(scenes, index), index) == scenes
  {
    var r := FailScene(StartScene(scenes, index), index);
    assert forall k :: 0 <= k < |scenes| ==> r[k] == scenes[k];
  }

  /** A successful attempt shows an image on that scene exactly when the
      store or the generator returned a URL, and on no other scene anew. */
  lemma StartFinishShowsImage(scenes: seq<Scene>, index: int, prompt: Option<string>,
                              saved: Option<string>, generated: Option<string>)
    requires 0 <= index < |scenes|
    ensures var r := FinishScene(StartScene(scenes, index), index, prompt, saved, generated);
      (Truthy(r[index].generatedImage) <==> Truthy(saved) || Truthy(generated)) &&
      forall k :: 0 <= k < |scenes| && k != index ==> r[k] == scenes[k]
  {
  }

  // ---------------------------------------------------------------- cover generation

  /** The cover updater `{...prev, …}` applied to a cover that has since
      been cleared: spreading `null` yields only the updated fields. */
  const EmptyCover := Cover("", None, None, None, false, None)

  /** `handleGenerateCoverImage` start: returns at once without a cover. */
  function StartCover(cover: Option<Cover>): (r: Option<Cover>)
    ensures cover.None? ==> r.None?
    ensures cover.Some? ==> r == Some(cover.value.(generating := true))
  {
    match cover
    case None => None
    case Some(c) => Some(c.(generating := true))
  }

  /** The cover image arrived. */
  function FinishCover(cover: Option<Cover>, saved: Option<string>, generated: Option<string>): (r: Option<Cover>)
    ensures r.Some? && !r.value.generating
    ensures r.value.generatedImage == (if Truthy(saved) then saved else generated)
    ensures cover.Some? ==> r.value.(generating := cover.value.generating, generatedImage := cover.value.generatedImage) == cover.value
  {
    Some(cover.GetOr(EmptyCover).(generatedImage := OrElse(saved, generated), generating := false))
  }

  /** Cover generation failed. */
  function FailCover(cover: Option<Cover>): (r: Option<Cover>)
    ensures r.Some? && !r.value.generating
    ensures cover.Some? ==> r.value == cover.value.(generating := false)
  {
    Some(cover.GetOr(EmptyCover).(generating := false))
  }

  /** Generating the cover never touches the scenes, and a failure on an
      idle cover restores it. */
  lemma CoverStartFailRestores(c: Cover)
    requires !c.generating
    ensures FailCover(StartCover(Some(c))) == Some(c)
  {
  }

  // ---------------------------------------------------------------- style switch

  /** Choosing another global style discards a scene analysis made in the
      old style (and its cover); with no scenes the cover stays. */
  function SwitchStyle(tool: Tool): (r: Tool)
    ensures r.scenes == []
    ensures |tool.scenes| > 0 ==> r.cover.None?
    ensures tool.scenes == [] ==> r == tool
    ensures r.(scenes := tool.scenes, cover := tool.cover) == tool
  {
    if |tool.scenes| > 0 then tool.(scenes := [], cover := None) else tool
  }

  /** Switching twice is switching once. */
  lemma SwitchStyleIdempotent(tool: Tool)
    ensures SwitchStyle(SwitchStyle(tool)) == SwitchStyle(tool)
  {
  }

  // ---------------------------------------------------------------- commit (SAVE)

  predicate OptionGenerated(o: PromptOption) { Truthy(o.generatedImage) }

  predicate SceneGenerated(s: Scene) { Truthy(s.generatedImage) }

  function OptionImage(o: PromptOption): ImageAttachment {
    ImageAttachment(o.generatedImage.GetOr(""), Some(OrString(o.prompt, "")), None, None)
  }

  /** A scene image remembers which text it illustrates and its index. */
  function SceneImage(s: Scene): ImageAttachment {
    ImageAttachment(s.generatedImage.GetOr(""), Some(OrString(OrElse(s.editablePrompt, s.prompt), "")),
                    s.originalText, Some(s.sceneIndex))
  }

  /** `promptOptions.filter(o => o.generatedImage).map(…)`. */
  function OptionImages(options: seq<PromptOption>): (r: seq<ImageAttachment>)
    ensures var g := Filter(options, OptionGenerated);
      |r| == |g| && forall k :: 0 <= k < |g| ==> r[k] == OptionImage(g[k])
    ensures forall k :: 0 <= k < |r| ==> r[k].url != ""
  {
    var g := Filter(options, OptionGenerated);
    assert forall k :: 0 <= k < |g| ==> g[k] in g;
    seq(|g|, k requires 0 <= k < |g| => OptionImage(g[k]))
  }

  /** `scenes.filter(s => s.generatedImage).map(…)`. */
  function SceneImages(scenes: seq<Scene>): (r: seq<ImageAttachment>)
    ensures var g := Filter(scenes, SceneGenerated);
      |r| == |g| && forall k :: 0 <= k < |g| ==> r[k] == SceneImage(g[k])
    ensures forall k :: 0 <= k < |r| ==> r[k].url != ""
  {
    var g := Filter(scenes, SceneGenerated);
    assert forall k :: 0 <= k < |g| ==> g[k] in g;
    seq(|g|, k requires 0 <= k < |g| => SceneImage(g[k]))
  }

  /** The option images followed by the scene images, in tool order. */
  function Generated(tool: Tool): seq<ImageAttachment> {
    OptionImages(tool.options) + SceneImages(tool.scenes)
  }

  /** Every collected image has a URL, and there are as many as the SAVE
      label counts apart from the cover. */
  lemma GeneratedCount(tool: Tool)
    ensures |Generated(tool)| == Count(tool.options, OptionGenerated) + Count(tool.scenes, SceneGenerated)
    ensures forall k :: 0 <= k < |Generated(tool)| ==> Generated(tool)[k].url != ""
  {
    FilterCount(tool.options, OptionGenerated);
    FilterCount(tool.scenes, SceneGenerated);
    var a := OptionImages(tool.options);
    var b := SceneImages(tool.scenes);
    assert forall k :: 0 <= k < |a + b| ==> (a + b)[k] == if k < |a| then a[k] else b[k - |a|];
  }

  /** The cover's generated image, if any (`coverImageSuggestion?.generatedImage`). */
  function CoverImage(tool: Tool): Option<string> {
    match tool.cover
    case Some(c) => c.generatedImage
    case None => None
  }

  /** The SAVE button is enabled when an option, a scene or the cover has an
      image. */
  predicate CanCommit(tool: Tool) {
    (exists k :: 0 <= k < |tool.options| && OptionGenerated(tool.options[k])) ||
    (exists k :: 0 <= k < |tool.scenes| && SceneGenerated(tool.scenes[k])) ||
    Truthy(CoverImage(tool))
  }

  /** The number the SAVE button shows. */
  function TotalImages(tool: Tool): nat {
    Count(tool.options, OptionGenerated) + Count(tool.scenes, SceneGenerated) +
    (if Truthy(CoverImage(tool)) then 1 else 0)
  }

  /** A positive count exactly when some element meets the predicate. */
  lemma {:induction false} CountPositive<T>(s: seq<T>, p: T -> bool)
    ensures Count(s, p) > 0 <==> exists k :: 0 <= k < |s| && p(s[k])
  {
    if s != [] {
      CountPositive(s[1..], p);
      if exists k :: 0 <= k < |s[1..]| && p(s[1..][k]) {
        var k :| 0 <= k < |s[1..]| && p(s[1..][k]);
        assert p(s[k + 1]);
      }
      if exists k :: 0 <= k < |s| && p(s[k]) {
        var k :| 0 <= k < |s| && p(s[k]);
        if k > 0 {
          assert p(s[1..][k - 1]);
        }
      }
    }
  }

  /** The button is enabled exactly when the label counts at least one image. */
  lemma CanCommitIffCount(tool: Tool)
    ensures CanCommit(tool) <==> TotalImages(tool) > 0
  {
    CountPositive(tool.options, OptionGenerated);
    CountPositive(tool.scenes, SceneGenerated);
  }

  /** The card after SAVE: previous images (legacy promoted), then the new
      ones; the cover takes the primary slot first, then the old image, then
      the first new image; the analysis is cached for the next opening. */
  function CommitCard(c: Card, tool: Tool): (r: Card)
    ensures var all := Generated(tool);
      r.images == Some(ExistingImages(c) + all) &&
      r.image == (if Truthy(CoverImage(tool)) then CoverImage(tool)
                  else if Truthy(c.image) then c.image
                  else if |all| > 0 then Some(all[0].url) else None)
    ensures r.imagePrompt.Some?
    ensures Truthy(c.imagePrompt) ==> r.imagePrompt == c.imagePrompt
    ensures var all := Generated(tool);
      !Truthy(c.imagePrompt) && |all| > 0 && Truthy(all[0].prompt) ==> r.imagePrompt == all[0].prompt
    ensures var all := Generated(tool);
      !Truthy(c.imagePrompt) && (|all| == 0 || !Truthy(all[0].prompt)) ==> r.imagePrompt == Some("")
    ensures r.scenes == Some(tool.scenes) && r.cover == tool.cover && r.referenceImage == tool.referenceImage
    ensures r.id == c.id && r.content == c.content && r.createdAt == c.createdAt
  {
    var all := Generated(tool);
    var first := if |all| > 0 then all[0].prompt else None;
    c.(images := Some(ExistingImages(c) + all),
       image := OrElse(CoverImage(tool), OrElse(c.image, if |all| > 0 then Some(all[0].url) else None)),
       imagePrompt := Some(OrString(c.imagePrompt, OrString(first, ""))),
       scenes := Some(tool.scenes),
       cover := tool.cover,
       referenceImage := tool.referenceImage)
  }

  /** SAVE updates every card carrying the selected card's id. */
  function Commit(cards: seq<Card>, selectedId: string, tool: Tool): (r: seq<Card>)
    ensures |r| == |cards|
    ensures forall k :: 0 <= k < |cards| && cards[k].id == selectedId ==> r[k] == CommitCard(cards[k], tool)
    ensures forall k :: 0 <= k < |cards| && cards[k].id != selectedId ==> r[k] == cards[k]
  {
    seq(|cards|, k requires 0 <= k < |cards| =>
      if cards[k].id == selectedId then CommitCard(cards[k], tool) else cards[k])
  }

  /** No image the card showed before is lost: every earlier attachment, and
      a legacy image when there were none, is among the new attachments,
      and so is every generated image. */
  lemma CommitKeepsImages(c: Card, tool: Tool)
    ensures var r := CommitCard(c, tool);
      (forall a :: a in c.images.GetOr([]) ==> a in r.images.value) &&
      (c.images.GetOr([]) == [] && Truthy(c.image) ==>
        exists a :: a in r.images.value && a.url == c.image.value) &&
      (forall a :: a in Generated(tool) ==> a in r.images.value)
  {
    var r := CommitCard(c, tool);
    var e := ExistingImages(c);
    assert r.images.value == e + Generated(tool);
    if c.images.GetOr([]) == [] && Truthy(c.image) {
      assert e[0] in r.images.value;
    }
  }

  /** The cover image, once generated, becomes the card's primary image
      whatever the card showed before. */
  lemma CommitCoverWins(c: Card, tool: Tool)
    requires Truthy(CoverImage(tool))
    ensures CommitCard(c, tool).image == CoverImage(tool)
  {
  }

  /** Reopening a committed card brings back the analysis it was committed
      with, provided it had scenes. */
  lemma CommitThenOpen(c: Card, tool: Tool)
    requires |tool.scenes| > 0
    ensures Open(CommitCard(c, tool)).scenes == tool.scenes
    ensures Open(CommitCard(c, tool)).cover == tool.cover
  {
  }
}

=== FILE: seqs.dfy ===
/** Sequence combinators that stand for JavaScript's `Array.prototype`
    `filter`, `find`, `slice` and the stable `sort`. */
module Seqs {
  import opened Wrappers

  /** `a` is `b` with some elements removed, the rest in the same order. */
  predicate Subsequence<T(==)>(a: seq<T>, b: seq<T>)
    decreases |b|
  {
    if a == [] then true
    else if b == [] then false
    else if a[0] == b[0] then Subsequence(a[1..], b[1..])
    else Subsequence(a, b[1..])
  }

  /** Every sequence is a subsequence of itself. */
  lemma {:induction false} SubsequenceRefl<T>(a: seq<T>)
    ensures Subsequence(a, a)
  {
    if a != [] {
      SubsequenceRefl(a[1..]);
    }
  }

  /** Putting the same element in front of both sides keeps the relation. */
  lemma SubsequenceCons<T>(x: T, a: seq<T>, b: seq<T>)
    requires Subsequence(a, b)
    ensures Subsequence([x] + a, [x] + b)
  {
    assert ([x] + a)[1..] == a;
    assert ([x] + b)[1..] == b;
  }

  /** Putting an element in front of the larger side keeps the relation. */
  lemma SubsequenceSkip<T>(x: T, a: seq<T>, b: seq<T>)
    requires Subsequence(a, b)
    ensures Subsequence(a, [x] + b)
    decreases |b|, 2
  {
    assert ([x] + b)[1..] == b;
    if a != [] && a[0] == x {
      SubsequenceDrop(a, b);
    }
  }

  /** A subsequence without its head is still a subsequence. */
  lemma {:induction false} SubsequenceDrop<T>(a: seq<T>, b: seq<T>)
    requires a != [] && Subsequence(a, b)
    ensures Subsequence(a[1..], b)
    decreases |b|, 1
  {
    if a[0] == b[0] {
      SubsequenceSkip(b[0], a[1..], b[1..]);
      assert [b[0]] + b[1..] == b;
    } else {
      SubsequenceDrop(a, b[1..]);
      SubsequenceSkip(b[0], a[1..], b[1..]);
      assert [b[0]] + b[1..] == b;
    }
  }

  /** Elements of a subsequence come from the larger sequence. */
  lemma {:induction false} SubsequenceMembers<T>(a: seq<T>, b: seq<T>)
    requires Subsequence(a, b)
    ensures forall x :: x in a ==> x in b
    decreases |b|
  {
    if a != [] {
      if a[0] == b[0] {
        SubsequenceMembers(a[1..], b[1..]);
        assert forall x :: x in a ==> x == a[0] || x in a[1..];
      } else {
        SubsequenceMembers(a, b[1..]);
      }
    }
  }

  /** JavaScript `s.filter(p)`. */
  function Filter<T>(s: seq<T>, p: T -> bool): (r: seq<T>)
    ensures |r| <= |s|
    ensures forall x :: x in r ==> x in s && p(x)
    ensures forall x :: x in s && p(x) ==> x in r
    ensures Subsequence(r, s)
  {
    if s == [] then []
    else
      var rest := Filter(s[1..], p);
      assert forall x :: x in s ==> x == s[0] || x in s[1..];
      if p(s[0]) then
        SubsequenceCons(s[0], rest, s[1..]);
        assert [s[0]] + s[1..] == s;
        [s[0]] + rest
      else
        SubsequenceSkip(s[0], rest, s[1..]);
        assert [s[0]] + s[1..] == s;
        rest
  }

  /** Filtering with a predicate no element meets leaves nothing. */
  lemma FilterNone<T>(s: seq<T>, p: T -> bool)
    requires forall k :: 0 <= k < |s| ==> !p(s[k])
    ensures Filter(s, p) == []
  {
  }

  /** Filtering with a predicate every element meets changes nothing. */
  lemma {:induction false} FilterAll<T>(s: seq<T>, p: T -> bool)
    requires forall x :: x in s ==> p(x)
    ensures Filter(s, p) == s
  {
    if s != [] {
      FilterAll(s[1..], p);
      assert [s[0]] + s[1..] == s;
    }
  }

  /** Filtering twice with the same predicate is filtering once. */
  lemma {:induction false} FilterIdempotent<T>(s: seq<T>, p: T -> bool)
    ensures Filter(Filter(s, p), p) == Filter(s, p)
  {
    FilterAll(Filter(s, p), p);
  }

  /** Number of elements meeting `p`. */
  function Count<T>(s: seq<T>, p: T -> bool): nat {
    if s == [] then 0 else (if p(s[0]) then 1 else 0) + Count(s[1..], p)
  }

  /** A filter keeps exactly the counted elements. */
  lemma {:induction false} FilterCount<T>(s: seq<T>, p: T -> bool)
    ensures |Filter(s, p)| == Count(s, p)
  {
    if s != [] {
      FilterCount(s[1..], p);
    }
  }

  /** Index of the first element meeting `p` (`findIndex`, -1 as `None`). */
  function FindIndex<T>(s: seq<T>, p: T -> bool): (r: Option<nat>)
    ensures r.Some? ==> r.value < |s| && p(s[r.value])
    ensures r.Some? ==> forall j :: 0 <= j < r.value ==> !p(s[j])
    ensures r.None? ==> forall j :: 0 <= j < |s| ==> !p(s[j])
  {
    if s == [] then None
    else if p(s[0]) then Some(0)
    else match FindIndex(s[1..], p)
      case None => None
      case Some(k) => Some(k + 1)
  }

  /** JavaScript `s.slice(-n)`: the last `n` elements (all when fewer). */
  function Last<T>(s: seq<T>, n: nat): (r: seq<T>)
    ensures |r| == if |s| < n then |s| else n
    ensures r == s[|s| - |r|..]
  {
    if |s| <= n then s else s[|s| - n..]
  }

  /** JavaScript `s.slice(0, n)`: the first `n` elements (all when fewer). */
  function First<T>(s: seq<T>, n: nat): (r: seq<T>)
    ensures |r| == if |s| < n then |s| else n
    ensures r == s[..|r|]
  {
    if |s| <= n then s else s[..n]
  }

  // ---------------------------------------------------------------- sorting

  /** Non-increasing by `key`. */
  predicate SortedDesc<T>(s: seq<T>, key: T -> int) {
    forall i, j :: 0 <= i < j < |s| ==> key(s[i]) >= key(s[j])
  }

  /** Inserts `x` before the first element whose key is not larger. */
  function InsertDesc<T>(x: T, s: seq<T>, key: T -> int): (r: seq<T>)
    requires SortedDesc(s, key)
    ensures SortedDesc(r, key)
    ensures multiset(r) == multiset(s) + multiset{x}
  {
    if s == [] then [x]
    else if key(x) >= key(s[0]) then [x] + s
    else
      SortedTail(s, key);
      var rest := InsertDesc(x, s[1..], key);
      assert s == [s[0]] + s[1..];
      HeadBounds(x, s, rest, key);
      ConsSorted(s[0], rest, key);
      [s[0]] + rest
  }

  /** What `InsertDesc` puts behind the head of a sorted list stays below
      the head when `x` does. */
  lemma HeadBounds<T>(x: T, s: seq<T>, rest: seq<T>, key: T -> int)
    requires s != [] && SortedDesc(s, key) && key(x) < key(s[0])
    requires multiset(rest) == multiset(s[1..]) + multiset{x}
    ensures forall y :: y in rest ==> key(y) <= key(s[0])
  {
    forall y | y in rest
      ensures key(y) <= key(s[0])
    {
      assert y in multiset(rest);
      if y != x {
        assert y in multiset(s[1..]);
        var k :| 0 <= k < |s[1..]| && s[1..][k] == y;
        assert s[k + 1] == y;
      }
    }
  }

  /** A head no smaller than every element keeps a sorted list sorted. */
  lemma ConsSorted<T>(h: T, rest: seq<T>, key: T -> int)
    requires SortedDesc(rest, key)
    requires forall y :: y in rest ==> key(y) <= key(h)
    ensures SortedDesc([h] + rest, key)
  {
    forall i, j | 0 <= i < j < |[h] + rest|
      ensures key(([h] + rest)[i]) >= key(([h] + rest)[j])
    {
      assert ([h] + rest)[j] == rest[j - 1];
      if i > 0 {
        assert ([h] + rest)[i] == rest[i - 1];
      } else {
        assert rest[j - 1] in rest;
      }
    }
  }

  /** The stable sort `sort((a, b) => key(b) - key(a))`: largest key first,
      elements with equal keys keep their input order. */
  function SortDesc<T>(s: seq<T>, key: T -> int): (r: seq<T>)
    ensures SortedDesc(r, key)
    ensures multiset(r) == multiset(s)
    ensures |r| == |s|
  {
    if s == [] then []
    else
      assert s == [s[0]] + s[1..];
      var r := InsertDesc(s[0], SortDesc(s[1..], key), key);
      assert |r| == |multiset(r)|;
      r
  }

  /** The elements whose key is `v`. */
  function KeyIs<T>(key: T -> int, v: int): T -> bool {
    (x: T) => key(x) == v
  }

  /** `[x]` when its key is `v`, else nothing. */
  function IfKey<T>(x: T, key: T -> int, v: int): seq<T> {
    if key(x) == v then [x] else []
  }

  /** Stability of one insertion: among the elements with any one key,
      the inserted one comes first and the others keep their order. */
  lemma {:induction false} InsertDescStable<T>(x: T, s: seq<T>, key: T -> int, v: int)
    requires SortedDesc(s, key)
    ensures Filter(InsertDesc(x, s, key), KeyIs(key, v)) == IfKey(x, key, v) + Filter(s, KeyIs(key, v))
  {
    if s == [] {
      assert InsertDesc(x, s, key) == [x] + s;
      KeyCons(x, s, key, v);
    } else if key(x) >= key(s[0]) {
      assert InsertDesc(x, s, key) == [x] + s;
      KeyCons(x, s, key, v);
    } else {
      SortedTail(s, key);
      InsertDescStable(x, s[1..], key, v);
      InsertBehindHead(x, s, key, v);
    }
  }

  /** The step of `InsertDescStable` where `x` goes behind the head. */
  lemma InsertBehindHead<T>(x: T, s: seq<T>, key: T -> int, v: int)
    requires s != [] && SortedDesc(s, key) && SortedDesc(s[1..], key) && key(x) < key(s[0])
    requires Filter(InsertDesc(x, s[1..], key), KeyIs(key, v)) == IfKey(x, key, v) + Filter(s[1..], KeyIs(key, v))
    ensures Filter(InsertDesc(x, s, key), KeyIs(key, v)) == IfKey(x, key, v) + Filter(s, KeyIs(key, v))
  {
    FilterBehindHead(x, s, key, v);
    FilterHead(s, key, v);
    SwapSingles(Filter(InsertDesc(x, s, key), KeyIs(key, v)), Filter(InsertDesc(x, s[1..], key), KeyIs(key, v)),
                IfKey(x, key, v), IfKey(s[0], key, v), Filter(s[1..], KeyIs(key, v)), Filter(s, KeyIs(key, v)));
  }

  /** Inserting behind the head, filtered by key. */
  lemma FilterBehindHead<T>(x: T, s: seq<T>, key: T -> int, v: int)
    requires s != [] && SortedDesc(s, key) && SortedDesc(s[1..], key) && key(x) < key(s[0])
    ensures Filter(InsertDesc(x, s, key), KeyIs(key, v)) == IfKey(s[0], key, v) + Filter(InsertDesc(x, s[1..], key), KeyIs(key, v))
  {
    var rest := InsertDesc(x, s[1..], key);
    assert InsertDesc(x, s, key) == [s[0]] + rest;
    KeyCons(s[0], rest, key, v);
  }

  /** A non-empty list filtered by key. */
  lemma FilterHead<T>(s: seq<T>, key: T -> int, v: int)
    requires s != []
    ensures Filter(s, KeyIs(key, v)) == IfKey(s[0], key, v) + Filter(s[1..], KeyIs(key, v))
  {
    KeyCons(s[0], s[1..], key, v);
    assert [s[0]] + s[1..] == s;
  }

  /** The list algebra of the step: a part that is empty can trade places
      with its neighbour. */
  lemma SwapSingles<T>(whole: seq<T>, inner: seq<T>, a: seq<T>, b: seq<T>, tail: seq<T>, orig: seq<T>)
    requires whole == b + inner && inner == a + tail && orig == b + tail
    requires a == [] || b == []
    ensures whole == a + orig
  {
  }

  /** Filtering by key a list with a head: the head if its key is `v`,
      then the rest. */
  lemma KeyCons<T>(h: T, t: seq<T>, key: T -> int, v: int)
    ensures Filter([h] + t, KeyIs(key, v)) == IfKey(h, key, v) + Filter(t, KeyIs(key, v))
  {
    assert ([h] + t)[0] == h && ([h] + t)[1..] == t;
  }

  /** The sort is stable: the elements with any one key appear in the
      order they had in the input. */
  lemma {:induction false} SortDescStable<T>(s: seq<T>, key: T -> int)
    ensures forall v :: Filter(SortDesc(s, key), KeyIs(key, v)) == Filter(s, KeyIs(key, v))
  {
    forall v
      ensures Filter(SortDesc(s, key), KeyIs(key, v)) == Filter(s, KeyIs(key, v))
    {
      SortDescStableAt(s, key, v);
    }
  }

  lemma {:induction false} SortDescStableAt<T>(s: seq<T>, key: T -> int, v: int)
    ensures Filter(SortDesc(s, key), KeyIs(key, v)) == Filter(s, KeyIs(key, v))
  {
    if s != [] {
      SortDescStableAt(s[1..], key, v);
      InsertDescStable(s[0], SortDesc(s[1..], key), key, v);
    }
  }

  /** Sorting what a filter keeps holds exactly the elements that pass. */
  lemma SortFilterMembers<T>(s: seq<T>, p: T -> bool, key: T -> int)
    ensures forall x :: x in SortDesc(Filter(s, p), key) <==> x in s && p(x)
  {
    var r := SortDesc(Filter(s, p), key);
    forall x
      ensures x in r <==> x in Filter(s, p)
    {
      assert x in r <==> x in multiset(r);
    }
  }

  /** Sorting a list whose keys strictly increase reverses it. */
  lemma {:induction false} SortDescOfAscending<T>(s: seq<T>, key: T -> int)
    requires forall i, j :: 0 <= i < j < |s| ==> key(s[i]) < key(s[j])
    ensures SortDesc(s, key) == Reverse(s)
  {
    if s != [] {
      SortDescOfAscending(s[1..], key);
      InsertSmallest(s[0], Reverse(s[1..]), key);
    }
  }

  /** An element smaller than all others goes to the end. */
  lemma {:induction false} InsertSmallest<T>(x: T, s: seq<T>, key: T -> int)
    requires SortedDesc(s, key)
    requires forall y :: y in s ==> key(x) < key(y)
    ensures InsertDesc(x, s, key) == s + [x]
  {
    if s != [] {
      SortedTail(s, key);
      assert forall y :: y in s[1..] ==> y in s;
      InsertSmallest(x, s[1..], key);
      assert key(x) < key(s[0]);
      assert InsertDesc(x, s, key) == [s[0]] + InsertDesc(x, s[1..], key);
      assert [s[0]] + (s[1..] + [x]) == s + [x];
    }
  }

  lemma SortedTail<T>(s: seq<T>, key: T -> int)
    requires s != [] && SortedDesc(s, key)
    ensures SortedDesc(s[1..], key)
  {
    forall i, j | 0 <= i < j < |s| - 1
      ensures key(s[1..][i]) >= key(s[1..][j])
    {
      assert s[1..][i] == s[i + 1] && s[1..][j] == s[j + 1];
    }
  }

  function Reverse<T>(s: seq<T>): (r: seq<T>)
    ensures |r| == |s|
    ensures forall i :: 0 <= i < |s| ==> r[i] == s[|s| - 1 - i]
  {
    if s == [] then [] else Reverse(s[1..]) + [s[0]]
  }
}

=== FILE: styles.dfy ===
/** The style library (src/lib/styleLibrary.js) and its modal
    (src/components/StyleLibraryModal.jsx): writing and visual styles the AI
    is told to imitate, kept newest first in local storage, at most fifty.
    Storage reads and writes, the clock and the random part of new ids are
    parameters. */
module Styles {
  import opened Wrappers
  import opened Seqs
  import opened Text

  const Writing := "writing"
  const Visual := "visual"

  const MaxStyles := 50

  datatype Style = Style(
    id: string,
    name: string,
    styleType: string,
    description: string,
    analysis: string,
    sourceContent: string,
    prompt: string,
    tags: seq<string>,
    createdAt: int,
    updatedAt: int)

  /** What a caller hands to `saveStyle`: the style's own fields, and
      optionally the fields the library would otherwise fill in itself. */
  datatype StyleData = StyleData(
    name: string,
    styleType: string,
    description: string,
    analysis: string,
    sourceContent: string,
    prompt: string,
    tags: Option<seq<string>>,
    id: Option<string>,
    createdAt: Option<int>,
    updatedAt: Option<int>)

  /** The fields an update supplies; absent ones are left as they are. */
  datatype Patch = Patch(
    id: Option<string>,
    name: Option<string>,
    styleType: Option<string>,
    description: Option<string>,
    analysis: Option<string>,
    sourceContent: Option<string>,
    prompt: Option<string>,
    tags: Option<seq<string>>,
    createdAt: Option<int>)

  // ---------------------------------------------------------------- queries

  function OfType(t: string): Style -> bool { (s: Style) => s.styleType == t }

  function WithId(id: string): Style -> bool { (s: Style) => s.id == id }

  function WithoutId(id: string): Style -> bool { (s: Style) => s.id != id }

  /** `getStylesByType`: exactly the styles of that type, in library order. */
  function ByType(styles: seq<Style>, t: string): (r: seq<Style>)
    ensures forall s :: s in r <==> s in styles && s.styleType == t
    ensures Subsequence(r, styles)
  {
    Filter(styles, OfType(t))
  }

  /** Style `i` is the first with that id. */
  predicate FirstWithId(styles: seq<Style>, i: int, id: string) {
    0 <= i < |styles| && styles[i].id == id && forall j :: 0 <= j < i ==> styles[j].id != id
  }

  /** `getStyleById`: the first style with that id, or `null`. */
  function ById(styles: seq<Style>, id: string): (r: Option<Style>)
    ensures r.None? <==> forall k :: 0 <= k < |styles| ==> styles[k].id != id
    ensures r.Some? ==> r.value.id == id && exists k :: FirstWithId(styles, k, id) && styles[k] == r.value
  {
    match FindIndex(styles, WithId(id))
    case Some(k) => Some(styles[k])
    case None => None
  }

  /** A style some field of which contains the search term, ignoring case. */
  predicate Matches(s: Style, term: string) {
    ContainsIgnoreCase(s.name, term) || ContainsIgnoreCase(s.description, term) ||
    exists k :: 0 <= k < |s.tags| && ContainsIgnoreCase(s.tags[k], term)
  }

  /** `searchStyles`: the styles whose name, description or a tag contains
      the term, ignoring case. */
  function Search(styles: seq<Style>, term: string): (r: seq<Style>)
    ensures forall s :: s in r <==> s in styles && Matches(s, term)
    ensures Subsequence(r, styles)
  {
    Filter(styles, (s: Style) => Matches(s, term))
  }

  /** Every style matches the empty term. */
  lemma SearchEmptyTerm(styles: seq<Style>)
    ensures Search(styles, "") == styles
  {
    forall s | s in styles
      ensures Matches(s, "")
    {
      assert OccursAt(Lower(s.name), Lower(""), 0);
    }
    FilterAll(styles, (s: Style) => Matches(s, ""));
  }

  // ---------------------------------------------------------------- changes

  /** `saveStyle`: the new style, with the caller's fields winning over the
      generated id, times and empty tag list, goes first; the library keeps
      its fifty newest entries. */
  function Save(styles: seq<Style>, data: StyleData, generatedId: string, now: int): (r: (Style, seq<Style>))
    ensures r.0.id == data.id.GetOr(generatedId) && r.0.tags == data.tags.GetOr([])
    ensures r.0.createdAt == data.createdAt.GetOr(now) && r.0.updatedAt == data.updatedAt.GetOr(now)
    ensures r.0.name == data.name && r.0.styleType == data.styleType && r.0.description == data.description &&
      r.0.analysis == data.analysis && r.0.sourceContent == data.sourceContent && r.0.prompt == data.prompt
    ensures |r.1| == (if |styles| < MaxStyles then |styles| + 1 else MaxStyles)
    ensures r.1[0] == r.0 && forall k :: 1 <= k < |r.1| ==> r.1[k] == styles[k - 1]
  {
    var style := Style(data.id.GetOr(generatedId), data.name, data.styleType, data.description,
                       data.analysis, data.sourceContent, data.prompt, data.tags.GetOr([]),
                       data.createdAt.GetOr(now), data.updatedAt.GetOr(now));
    (style, First([style] + styles, MaxStyles))
  }

  /** The style just saved is the one found under its id. */
  lemma SaveThenFind(styles: seq<Style>, data: StyleData, generatedId: string, now: int)
    ensures var r := Save(styles, data, generatedId, now);
      ById(r.1, r.0.id) == Some(r.0)
  {
  }

  /** Saving never lets the library grow beyond fifty entries. */
  lemma SaveKeepsBound(styles: seq<Style>, data: StyleData, generatedId: string, now: int)
    requires |styles| <= MaxStyles
    ensures |Save(styles, data, generatedId, now).1| <= MaxStyles
    ensures |styles| < MaxStyles ==> (multiset(Save(styles, data, generatedId, now).1) ==
      multiset(styles) + multiset{Save(styles, data, generatedId, now).0})
  {
    var r := Save(styles, data, generatedId, now);
    if |styles| < MaxStyles {
      assert r.1 == [r.0] + styles;
    }
  }

  /** The style with the patch applied and a new update time. */
  function Merge(s: Style, p: Patch, now: int): (r: Style)
    ensures r.updatedAt == now
    ensures p == Patch(None, None, None, None, None, None, None, None, None) ==> r == s.(updatedAt := now)
    ensures r.name == p.name.GetOr(s.name) && r.tags == p.tags.GetOr(s.tags) && r.id == p.id.GetOr(s.id)
    ensures r.styleType == p.styleType.GetOr(s.styleType) && r.description == p.description.GetOr(s.description)
    ensures r.analysis == p.analysis.GetOr(s.analysis) && r.sourceContent == p.sourceContent.GetOr(s.sourceContent)
    ensures r.prompt == p.prompt.GetOr(s.prompt) && r.createdAt == p.createdAt.GetOr(s.createdAt)
  {
    Style(p.id.GetOr(s.id), p.name.GetOr(s.name), p.styleType.GetOr(s.styleType),
          p.description.GetOr(s.description), p.analysis.GetOr(s.analysis),
          p.sourceContent.GetOr(s.sourceContent), p.prompt.GetOr(s.prompt), p.tags.GetOr(s.tags),
          p.createdAt.GetOr(s.createdAt), now)
  }

  /** `updateStyle`: the first style with the id is merged with the patch;
      nothing else changes.  An unknown id gives `null` and nothing is
      written. */
  function Update(styles: seq<Style>, id: string, p: Patch, now: int): (r: Option<(Style, seq<Style>)>)
    ensures r.None? <==> forall k :: 0 <= k < |styles| ==> styles[k].id != id
    ensures r.Some? ==>
      exists i :: FirstWithId(styles, i, id) && r.value.0 == Merge(styles[i], p, now) && r.value.1 == styles[i := r.value.0]
  {
    match FindIndex(styles, WithId(id))
    case Some(i) =>
      var merged := Merge(styles[i], p, now);
      Some((merged, styles[i := merged]))
    case None => None
  }

  /** An update that keeps the id is found again under it. */
  lemma UpdateThenFind(styles: seq<Style>, id: string, p: Patch, now: int)
    requires Update(styles, id, p, now).Some? && p.id.GetOr(id) == id
    ensures ById(Update(styles, id, p, now).value.1, id) == Some(Update(styles, id, p, now).value.0)
  {
    var i :| FirstWithId(styles, i, id) &&
      Update(styles, id, p, now).value.1 == styles[i := Update(styles, id, p, now).value.0];
    var r := Update(styles, id, p, now).value.1;
    assert r[i].id == id;
    assert forall j :: 0 <= j < i ==> r[j] == styles[j];
  }

  /** `deleteStyle`: every style with the id goes; the rest keep their
      order. */
  function Delete(styles: seq<Style>, id: string): (r: seq<Style>)
    ensures forall s :: s in r <==> s in styles && s.id != id
    ensures Subsequence(r, styles)
    ensures |r| == Count(styles, WithoutId(id))
  {
    FilterCount(styles, WithoutId(id));
    Filter(styles, WithoutId(id))
  }

  /** A saved style is gone again once deleted, and the library is as it
      was when it held neither that id nor fifty entries. */
  lemma DeleteUndoesSave(styles: seq<Style>, data: StyleData, generatedId: string, now: int)
    requires |styles| < MaxStyles
    requires forall k :: 0 <= k < |styles| ==> styles[k].id != data.id.GetOr(generatedId)
    ensures var r := Save(styles, data, generatedId, now);
      Delete(r.1, r.0.id) == styles
  {
    var r := Save(styles, data, generatedId, now);
    assert r.1 == [r.0] + styles;
    assert ([r.0] + styles)[1..] == styles;
    forall x | x in styles
      ensures WithoutId(r.0.id)(x)
    {
    }
    FilterAll(styles, WithoutId(r.0.id));
  }

  // ---------------------------------------------------------------- prompts

  const WritingIntro := "請參考以下寫作風格：\n"
  const WritingOutro := "\n\n使用這種風格來撰寫內容。"
  const VisualIntro := "Visual style reference: "
  const VisualOutro := "\n\nApply this visual style to the generated image."

  /** `styleToPrompt`: the analysis inside the writing template for writing
      styles, inside the visual one for anything else. */
  function ToPrompt(s: Style): (r: string)
    ensures s.styleType == Writing <==> StartsWith(r, WritingIntro)
    ensures s.styleType != Writing <==> StartsWith(r, VisualIntro)
    ensures s.styleType == Writing ==> EndsWith(r, WritingOutro)
    ensures s.styleType != Writing ==> EndsWith(r, VisualOutro)
    ensures Contains(r, s.analysis)
  {
    if s.styleType == Writing then
      var r := WritingIntro + s.analysis + WritingOutro;
      assert r[|r| - |WritingOutro|..] == WritingOutro;
      assert r[..|WritingIntro|] == WritingIntro;
      assert r[|WritingIntro|..|WritingIntro| + |s.analysis|] == s.analysis;
      assert OccursAt(r, s.analysis, |WritingIntro|);
      assert r[0] != VisualIntro[0];
      r
    else
      var r := VisualIntro + s.analysis + VisualOutro;
      assert r[|r| - |VisualOutro|..] == VisualOutro;
      assert r[..|VisualIntro|] == VisualIntro;
      assert r[|VisualIntro|..|VisualIntro| + |s.analysis|] == s.analysis;
      assert OccursAt(r, s.analysis, |VisualIntro|);
      assert r[0] != WritingIntro[0];
      r
  }

  // ---------------------------------------------------------------- the modal

  /** `loadStyles`: a search term wins, then the `all` tab, then the tab's
      type. */
  function Shown(styles: seq<Style>, searchTerm: string, tab: string): (r: seq<Style>)
    ensures searchTerm != "" ==> r == Search(styles, searchTerm)
    ensures searchTerm == "" && tab == "all" ==> r == styles
    ensures searchTerm == "" && tab != "all" ==> r == ByType(styles, tab)
  {
    if searchTerm != "" then Search(styles, searchTerm)
    else if tab == "all" then styles
    else ByType(styles, tab)
  }

  /** With a search term the tab makes no difference. */
  lemma SearchIgnoresTab(styles: seq<Style>, term: string, tab1: string, tab2: string)
    requires term != ""
    ensures Shown(styles, term, tab1) == Shown(styles, term, tab2)
  {
  }

  /** The new-style form. */
  datatype Form = Form(name: string, description: string, sourceContent: string, imageBase64: Option<string>)

  const EmptyForm := Form("", "", "", None)

  const NameMissing := "請輸入風格名稱"
  const ContentMissing := "請輸入要分析的文章內容"
  const ImageMissing := "請上傳要分析的圖片"

  /** The checks made before anything is sent for analysis: a name, and the
      text of a writing style or the picture of a visual one. */
  function Validate(f: Form, createType: string): (r: Option<string>)
    ensures r.None? <==>
      !Blank(f.name) && (createType == Writing ==> !Blank(f.sourceContent)) &&
      (createType == Visual ==> Truthy(f.imageBase64))
    ensures r.Some? ==> r.value in {NameMissing, ContentMissing, ImageMissing}
  {
    TrimEmptyIffBlank(f.name);
    TrimEmptyIffBlank(f.sourceContent);
    if Trim(f.name) == "" then Some(NameMissing)
    else if createType == Writing && Trim(f.sourceContent) == "" then Some(ContentMissing)
    else if createType == Visual && !Truthy(f.imageBase64) then Some(ImageMissing)
    else None
  }

  /** What the analysis returns about a style. */
  datatype StyleAnalysis = StyleAnalysis(summary: string, promptForAI: string, uniqueTraits: Option<seq<string>>)

  /** The record saved for a new style: the trimmed name, the trimmed
      description or else the analysis summary, the analysed text or
      picture, the analysis' prompt and traits. */
  function Record(f: Form, createType: string, a: StyleAnalysis, serialized: string): (d: StyleData)
    ensures d.name == Trim(f.name) && d.styleType == createType
    ensures !Blank(f.description) ==> d.description == Trim(f.description)
    ensures Blank(f.description) ==> d.description == a.summary
    ensures createType == Writing ==> d.sourceContent == f.sourceContent
    ensures createType != Writing ==> d.sourceContent == f.imageBase64.GetOr("")
    ensures d.prompt == a.promptForAI && d.tags == Some(a.uniqueTraits.GetOr([])) && d.analysis == serialized
    ensures d.id.None? && d.createdAt.None? && d.updatedAt.None?
  {
    TrimEmptyIffBlank(f.description);
    var description := Trim(f.description);
    StyleData(Trim(f.name), createType, if description != "" then description else a.summary, serialized,
              if createType == Writing then f.sourceContent else f.imageBase64.GetOr(""),
              a.promptForAI, Some(a.uniqueTraits.GetOr([])), None, None, None)
  }

  /** How pressing "analyse and save" ends. */
  datatype SaveOutcome =
    | Rejected(message: string)
    | AnalysisFailed(message: string)
    | SavedStyle(style: Style, library: seq<Style>)

  /** `handleAnalyzeAndSave` given the analysis service's answer
      (`Failure` carries the error it reported or threw) and the
      serialisation of its analysis.  On success the form is reset. */
  function AnalyzeAndSave(styles: seq<Style>, f: Form, createType: string,
                          answer: Result<StyleAnalysis, string>, serialize: StyleAnalysis -> string,
                          generatedId: string, now: int): (r: (SaveOutcome, Form))
    ensures Validate(f, createType).Some? ==> r == (Rejected(Validate(f, createType).value), f)
    ensures Validate(f, createType).None? && answer.Failure? ==>
      r == (AnalysisFailed("分析失敗: " + answer.error), f)
    ensures r.0.SavedStyle? <==> Validate(f, createType).None? && answer.Success?
    ensures r.0.SavedStyle? ==> (r.1 == EmptyForm && |r.0.library| > 0 && r.0.library[0] == r.0.style &&
      r.0.style.name == Trim(f.name) && r.0.style.styleType == createType)
    ensures r.0.SavedStyle? ==>
      (r.0.style, r.0.library) == Save(styles, Record(f, createType, answer.value, serialize(answer.value)), generatedId, now)
  {
    match Validate(f, createType)
    case Some(message) => (Rejected(message), f)
    case None =>
      match answer
      case Failure(e) => (AnalysisFailed("分析失敗: " + e), f)
      case Success(a) =>
        var saved := Save(styles, Record(f, createType, a, serialize(a)), generatedId, now);
        (SavedStyle(saved.0, saved.1), EmptyForm)
  }

  /** A successful analysis is stored under the generated id with the
      serialised analysis, found again by that id, and the library stays
      within fifty entries. */
  lemma AnalyzedStyleStored(styles: seq<Style>, f: Form, createType: string, a: StyleAnalysis,
                            serialize: StyleAnalysis -> string, generatedId: string, now: int)
    requires |styles| <= MaxStyles && Validate(f, createType).None?
    ensures var r := AnalyzeAndSave(styles, f, createType, Success(a), serialize, generatedId, now).0;
      r.SavedStyle? && r.style.id == generatedId && r.style.analysis == serialize(a) &&
      r.style.createdAt == now && ById(r.library, generatedId) == Some(r.style) && |r.library| <= MaxStyles
  {
    var data := Record(f, createType, a, serialize(a));
    SaveThenFind(styles, data, generatedId, now);
    SaveKeepsBound(styles, data, generatedId, now);
  }

  /** An invalid form never reaches the analysis: the outcome does not
      depend on its answer. */
  lemma RejectedBeforeRequest(styles: seq<Style>, f: Form, createType: string,
                              a1: Result<StyleAnalysis, string>, a2: Result<StyleAnalysis, string>,
                              serialize: StyleAnalysis -> string, generatedId: string, now: int)
    requires Validate(f, createType).Some?
    ensures AnalyzeAndSave(styles, f, createType, a1, serialize, generatedId, now) ==
      AnalyzeAndSave(styles, f, createType, a2, serialize, generatedId, now)
  {
  }

  /** What the modal shows of a stored analysis: the parsed analysis, or
      the raw text as its summary when it is not valid JSON. */
  datatype AnalysisView = ParsedAnalysis(analysis: StyleAnalysis) | RawSummary(summary: string)

  function AnalysisData(s: Style, parse: string -> Option<StyleAnalysis>): (r: AnalysisView)
    ensures parse(s.analysis).Some? ==> r == ParsedAnalysis(parse(s.analysis).value)
    ensures parse(s.analysis).None? ==> r == RawSummary(s.analysis)
  {
    match parse(s.analysis)
    case Some(a) => ParsedAnalysis(a)
    case None => RawSummary(s.analysis)
  }

  /** A style saved through the modal shows its analysis again, whenever
      parsing undoes the serialisation. */
  lemma SavedAnalysisShown(styles: seq<Style>, f: Form, createType: string, a: StyleAnalysis,
                           serialize: StyleAnalysis -> string, parse: string -> Option<StyleAnalysis>,
                           generatedId: string, now: int)
    requires Validate(f, createType).None? && parse(serialize(a)) == Some(a)
    ensures var r := AnalyzeAndSave(styles, f, createType, Success(a), serialize, generatedId, now);
      r.0.SavedStyle? && AnalysisData(r.0.style, parse) == ParsedAnalysis(a)
  {
  }
}

=== FILE: tasks.dfy ===
/** The shared task board of the multi-agent factory examples
    (examples/copilot-sdk/multi-agent-factory.ts and
    multi_agent_factory.py): agents create, claim and complete tasks.
    Both versions keep the finished tasks in a second list that holds the
    very same task objects as the queue; here that list holds positions in
    the queue, so a later change to a task shows in both, as it does there. */
module Tasks {
  import opened Wrappers
  import opened Seqs
  import opened Text

  datatype Kind = Frontend | Backend | Styling | Test

  datatype Status = Pending | InProgress | Completed | Failed

  datatype Task = Task(
    id: string,
    kind: Kind,
    description: string,
    status: Status,
    assignee: Option<string>,
    result: Option<string>,
    createdAt: int,
    completedAt: Option<int>)

  datatype Board = Board(queue: seq<Task>, completed: seq<nat>)

  /** Every completed entry points into the queue. */
  predicate Valid(b: Board) {
    forall k :: 0 <= k < |b.completed| ==> b.completed[k] < |b.queue|
  }

  function Empty(): (r: Board)
    ensures Valid(r) && r.queue == [] && r.completed == []
  {
    Board([], [])
  }

  function HasStatus(s: Status): Task -> bool { (t: Task) => t.status == s }

  /** `createTask` / `create_task`: one pending task at the end of the
      queue.  The id is chosen by the caller. */
  function Create(b: Board, id: string, kind: Kind, description: string, now: int): (r: Board)
    ensures |r.queue| == |b.queue| + 1 && r.queue[..|b.queue|] == b.queue && r.completed == b.completed
    ensures r.queue[|b.queue|] == Task(id, kind, description, Pending, None, None, now, None)
    ensures Valid(b) ==> Valid(r)
  {
    var r := Board(b.queue + [Task(id, kind, description, Pending, None, None, now, None)], b.completed);
    assert r.queue[..|b.queue|] == b.queue;
    r
  }

  /** Counting over one changed element. */
  lemma {:induction false} CountUpdate(s: seq<Task>, i: nat, x: Task, p: Task -> bool)
    requires i < |s|
    ensures Count(s[i := x], p) == Count(s, p) - (if p(s[i]) then 1 else 0) + (if p(x) then 1 else 0)
    decreases |s|
  {
    if i > 0 {
      assert s[i := x][1..] == s[1..][i - 1 := x];
      assert s[i := x][0] == s[0];
      CountUpdate(s[1..], i - 1, x, p);
    } else {
      assert s[i := x][1..] == s[1..];
    }
  }

  lemma {:induction false} CountSnoc(s: seq<Task>, x: Task, p: Task -> bool)
    ensures Count(s + [x], p) == Count(s, p) + (if p(x) then 1 else 0)
    decreases |s|
  {
    if s == [] {
      assert [] + [x] == [x];
      assert [x][1..] == [];
    } else {
      assert (s + [x])[0] == s[0];
      assert (s + [x])[1..] == s[1..] + [x];
      CountSnoc(s[1..], x, p);
    }
  }

  /** Creating adds one pending task and leaves the other counts alone. */
  lemma CreateCounts(b: Board, id: string, kind: Kind, description: string, now: int)
    ensures var r := Create(b, id, kind, description, now);
      Count(r.queue, HasStatus(Pending)) == Count(b.queue, HasStatus(Pending)) + 1 &&
      Count(r.queue, HasStatus(InProgress)) == Count(b.queue, HasStatus(InProgress))
  {
    var t := Task(id, kind, description, Pending, None, None, now, None);
    assert Create(b, id, kind, description, now).queue == b.queue + [t];
    CountSnoc(b.queue, t, HasStatus(Pending));
    CountSnoc(b.queue, t, HasStatus(InProgress));
  }

  /** Pending, and of the preferred kind if there is one. */
  predicate Claimable(preferred: Option<Kind>, t: Task) {
    t.status == Pending && (preferred.None? || t.kind == preferred.value)
  }

  function ClaimableBy(preferred: Option<Kind>): Task -> bool { (t: Task) => Claimable(preferred, t) }

  /** Task `i` is the first the preference admits. */
  predicate FirstClaimable(q: seq<Task>, i: int, preferred: Option<Kind>) {
    0 <= i < |q| && Claimable(preferred, q[i]) && forall j :: 0 <= j < i ==> !Claimable(preferred, q[j])
  }

  /** `claimTask` / `claim_task`: the first task the preference admits goes
      in progress under the worker and is returned; when there is none,
      nothing changes. */
  function Claim(b: Board, worker: string, preferred: Option<Kind>): (r: (Option<Task>, Board))
    ensures r.0.None? <==> forall k :: 0 <= k < |b.queue| ==> !Claimable(preferred, b.queue[k])
    ensures r.0.None? ==> r.1 == b
    ensures r.0.Some? ==> exists i :: (FirstClaimable(b.queue, i, preferred) &&
      r.0.value == b.queue[i].(status := InProgress, assignee := Some(worker)) &&
      r.1 == Board(b.queue[i := r.0.value], b.completed))
    ensures Valid(b) ==> Valid(r.1)
  {
    match FindIndex(b.queue, ClaimableBy(preferred))
    case None => (None, b)
    case Some(i) =>
      var t := b.queue[i].(status := InProgress, assignee := Some(worker));
      assert FirstClaimable(b.queue, i, preferred);
      (Some(t), Board(b.queue[i := t], b.completed))
  }

  /** A claim moves exactly one task from pending to in progress. */
  lemma ClaimCounts(b: Board, worker: string, preferred: Option<Kind>)
    requires Claim(b, worker, preferred).0.Some?
    ensures var r := Claim(b, worker, preferred).1;
      Count(r.queue, HasStatus(Pending)) == Count(b.queue, HasStatus(Pending)) - 1 &&
      Count(r.queue, HasStatus(InProgress)) == Count(b.queue, HasStatus(InProgress)) + 1
  {
    var i :| FirstClaimable(b.queue, i, preferred) &&
      Claim(b, worker, preferred).1.queue == b.queue[i := b.queue[i].(status := InProgress, assignee := Some(worker))];
    var t := b.queue[i].(status := InProgress, assignee := Some(worker));
    CountUpdate(b.queue, i, t, HasStatus(Pending));
    CountUpdate(b.queue, i, t, HasStatus(InProgress));
  }

  function WithId(id: string): Task -> bool { (t: Task) => t.id == id }

  /** Task `i` is the first with the id. */
  predicate FirstWithId(q: seq<Task>, i: int, id: string) {
    0 <= i < |q| && q[i].id == id && forall j :: 0 <= j < i ==> q[j].id != id
  }

  /** `completeTask` / `complete_task`: the first task with the id is
      marked completed with its result and time, whatever its status was,
      and recorded as finished; an unknown id changes nothing. */
  function Complete(b: Board, id: string, result: string, now: int): (r: (bool, Board))
    ensures !r.0 <==> forall k :: 0 <= k < |b.queue| ==> b.queue[k].id != id
    ensures !r.0 ==> r.1 == b
    ensures r.0 ==> exists i :: (FirstWithId(b.queue, i, id) &&
      r.1.queue == b.queue[i := b.queue[i].(status := Completed, result := Some(result), completedAt := Some(now))] &&
      r.1.completed == b.completed + [i])
    ensures Valid(b) ==> Valid(r.1)
  {
    match FindIndex(b.queue, WithId(id))
    case None => (false, b)
    case Some(i) =>
      var t := b.queue[i].(status := Completed, result := Some(result), completedAt := Some(now));
      assert FirstWithId(b.queue, i, id);
      (true, Board(b.queue[i := t], b.completed + [i]))
  }

  /** Only one task is the first with a given id. */
  lemma FirstWithIdUnique(q: seq<Task>, i: int, j: int, id: string)
    requires FirstWithId(q, i, id) && FirstWithId(q, j, id)
    ensures i == j
  {
  }

  /** Changing a task other than the first with an id, or changing the
      first one without touching its id, keeps it the first. */
  lemma FirstWithIdKept(q: seq<Task>, i: nat, k: nat, t: Task, id: string)
    requires FirstWithId(q, i, id) && k < |q| && (k > i || (k == i && t.id == id))
    ensures FirstWithId(q[k := t], i, id)
  {
  }

  /** Nothing stops a task being completed twice: it is then listed twice
      among the finished ones. */
  lemma CompleteTwiceListsTwice(b: Board, id: string, r1: string, r2: string, t1: int, t2: int)
    requires Complete(b, id, r1, t1).0
    ensures var once := Complete(b, id, r1, t1).1;
      var twice := Complete(once, id, r2, t2);
      twice.0 && |twice.1.completed| == |b.completed| + 2 &&
      twice.1.completed[|b.completed|] == twice.1.completed[|b.completed| + 1]
  {
    var once := Complete(b, id, r1, t1).1;
    var i :| FirstWithId(b.queue, i, id) &&
      once.queue == b.queue[i := b.queue[i].(status := Completed, result := Some(r1), completedAt := Some(t1))] &&
      once.completed == b.completed + [i];
    FirstWithIdKept(b.queue, i, i, b.queue[i].(status := Completed, result := Some(r1), completedAt := Some(t1)), id);
    assert once.queue[i].id == id;
    var twice := Complete(once, id, r2, t2);
    var j :| FirstWithId(once.queue, j, id) && twice.1.completed == once.completed + [j];
    FirstWithIdUnique(once.queue, i, j, id);
  }

  /** No two tasks share an id. */
  predicate DistinctIds(q: seq<Task>) {
    forall i, j :: 0 <= i < j < |q| ==> q[i].id != q[j].id
  }

  /** With distinct ids, a claimed task, once completed, keeps the worker
      who claimed it and is the last entry of the finished list.  (The TypeScript ids are built from the clock and a
      random suffix, so distinctness is likely there but not promised.) */
  lemma ClaimThenComplete(b: Board, worker: string, preferred: Option<Kind>, result: string, now: int)
    requires DistinctIds(b.queue) && Claim(b, worker, preferred).0.Some?
    ensures var c := Claim(b, worker, preferred);
      var d := Complete(c.1, c.0.value.id, result, now);
      d.0 && exists i :: (0 <= i < |d.1.queue| && d.1.queue[i].id == c.0.value.id &&
        d.1.queue[i].status == Completed && d.1.queue[i].assignee == Some(worker) &&
        |d.1.completed| > 0 && d.1.completed[|d.1.completed| - 1] == i)
  {
    var c := Claim(b, worker, preferred);
    var i :| FirstClaimable(b.queue, i, preferred) && c.0.value == b.queue[i].(status := InProgress, assignee := Some(worker)) &&
      c.1 == Board(b.queue[i := c.0.value], b.completed);
    var id := c.0.value.id;
    assert c.1.queue[i].id == id;
    assert FirstWithId(c.1.queue, i, id);
    var d := Complete(c.1, id, result, now);
    var j :| FirstWithId(c.1.queue, j, id) &&
      d.1.queue == c.1.queue[j := c.1.queue[j].(status := Completed, result := Some(result), completedAt := Some(now))];
    FirstWithIdUnique(c.1.queue, i, j, id);
    assert d.1.queue[i].assignee == Some(worker);
    assert d.1.completed == c.1.completed + [i];
  }

  /** The tasks the finished list refers to, as they are now. */
  function Finished(b: Board): (r: seq<Task>)
    requires Valid(b)
    ensures |r| == |b.completed| && forall k :: 0 <= k < |r| ==> r[k] == b.queue[b.completed[k]]
  {
    seq(|b.completed|, k requires 0 <= k < |b.completed| && Valid(b) => b.queue[b.completed[k]])
  }

  /** How many tasks the status report lists. */
  const ReportSize := 10

  datatype Report = Report(pending: nat, inProgress: nat, completed: nat, tasks: seq<Task>)

  /** `getTaskStatus` (TypeScript): the counts, and the last ten entries
      of the queue followed by the finished list.  `get_task_status`
      (Python) reports the same counts without the list. */
  function StatusReport(b: Board): (r: Report)
    requires Valid(b)
    ensures r.pending == |Filter(b.queue, HasStatus(Pending))|
    ensures r.inProgress == |Filter(b.queue, HasStatus(InProgress))|
    ensures r.pending + r.inProgress <= |b.queue|
    ensures r.completed == |b.completed|
    ensures |r.tasks| == if |b.queue| + |b.completed| < ReportSize then |b.queue| + |b.completed| else ReportSize
    ensures r.tasks == (b.queue + Finished(b))[|b.queue| + |b.completed| - |r.tasks|..]
  {
    FilterCount(b.queue, HasStatus(Pending));
    FilterCount(b.queue, HasStatus(InProgress));
    PendingPlusActive(b.queue);
    Report(Count(b.queue, HasStatus(Pending)), Count(b.queue, HasStatus(InProgress)), |b.completed|,
           Last(b.queue + Finished(b), ReportSize))
  }

  lemma {:induction false} PendingPlusActive(q: seq<Task>)
    ensures Count(q, HasStatus(Pending)) + Count(q, HasStatus(InProgress)) <= |q|
  {
    if q != [] {
      PendingPlusActive(q[1..]);
    }
  }

  // ---------------------------------------------------------------- Python ids

  /** `create_task` in Python: the id is `task-` and the queue's new length. */
  function CreateNumbered(b: Board, kind: Kind, description: string, now: int): (r: Board)
    ensures r == Create(b, "task-" + Dec(|b.queue| + 1), kind, description, now)
  {
    Create(b, "task-" + Dec(|b.queue| + 1), kind, description, now)
  }

  /** Task `k` carries the number `k + 1`. */
  predicate Numbered(q: seq<Task>) {
    forall k :: 0 <= k < |q| ==> q[k].id == "task-" + Dec(k + 1)
  }

  /** Numbering survives every operation: creating adds the next number,
      claiming and completing leave ids alone. */
  lemma NumberingKept(b: Board, kind: Kind, description: string, now: int, worker: string,
                      preferred: Option<Kind>, id: string, result: string)
    requires Numbered(b.queue)
    ensures Numbered(CreateNumbered(b, kind, description, now).queue)
    ensures Numbered(Claim(b, worker, preferred).1.queue)
    ensures Numbered(Complete(b, id, result, now).1.queue)
  {
    CreateKeepsNumbering(b, kind, description, now);
    ClaimKeepsNumbering(b, worker, preferred);
    CompleteKeepsNumbering(b, id, result, now);
  }

  lemma CreateKeepsNumbering(b: Board, kind: Kind, description: string, now: int)
    requires Numbered(b.queue)
    ensures Numbered(CreateNumbered(b, kind, description, now).queue)
  {
    var c := CreateNumbered(b, kind, description, now);
    forall k | 0 <= k < |c.queue|
      ensures c.queue[k].id == "task-" + Dec(k + 1)
    {
      if k < |b.queue| {
        assert c.queue[k] == c.queue[..|b.queue|][k];
      }
    }
  }

  lemma ClaimKeepsNumbering(b: Board, worker: string, preferred: Option<Kind>)
    requires Numbered(b.queue)
    ensures Numbered(Claim(b, worker, preferred).1.queue)
  {
    var r := Claim(b, worker, preferred);
    if r.0.Some? {
      var i :| FirstClaimable(b.queue, i, preferred) &&
        r.0.value == b.queue[i].(status := InProgress, assignee := Some(worker)) &&
        r.1 == Board(b.queue[i := r.0.value], b.completed);
      UpdateKeepsNumbering(b.queue, i, r.0.value);
    }
  }

  lemma CompleteKeepsNumbering(b: Board, id: string, result: string, now: int)
    requires Numbered(b.queue)
    ensures Numbered(Complete(b, id, result, now).1.queue)
  {
    var r := Complete(b, id, result, now);
    if r.0 {
      var i :| FirstWithId(b.queue, i, id) &&
        r.1.queue == b.queue[i := b.queue[i].(status := Completed, result := Some(result), completedAt := Some(now))] &&
        r.1.completed == b.completed + [i];
      UpdateKeepsNumbering(b.queue, i, b.queue[i].(status := Completed, result := Some(result), completedAt := Some(now)));
    }
  }

  /** Replacing a task by one with the same id keeps the numbering. */
  lemma UpdateKeepsNumbering(q: seq<Task>, i: int, t: Task)
    requires Numbered(q) && 0 <= i < |q| && t.id == q[i].id
    ensures Numbered(q[i := t])
  {
    var u := q[i := t];
    forall k | 0 <= k < |u|
      ensures u[k].id == "task-" + Dec(k + 1)
    {
      assert u[k].id == q[k].id;
    }
  }

  /** On a numbered queue no two tasks share an id, so `find` by id picks
      the one task meant. */
  lemma NumberedDistinct(q: seq<Task>, i: nat, j: nat)
    requires Numbered(q) && i < j < |q|
    ensures q[i].id != q[j].id
  {
    if q[i].id == q[j].id {
      assert ("task-" + Dec(i + 1))[5..] == Dec(i + 1);
      assert ("task-" + Dec(j + 1))[5..] == Dec(j + 1);
      DecInjective(i + 1, j + 1);
    }
  }
}

=== FILE: text.dfy ===
/** String primitives the JavaScript code leans on: `includes`/`indexOf`,
    `startsWith`, `toLowerCase`, `trim`, `split`, `join`, `substring`,
    `String(n)` and `padStart(2, '0')`.  Strings are sequences of characters. */
module Text {
  import opened Wrappers

  /** `t` occurs in `s` starting at index `i`. */
  predicate OccursAt(s: string, t: string, i: int) {
    0 <= i && i + |t| <= |s| && s[i..i + |t|] == t
  }

  /** JavaScript `s.includes(t)`. */
  predicate Contains(s: string, t: string) {
    exists i :: 0 <= i <= |s| && OccursAt(s, t, i)
  }

  /** JavaScript `s.startsWith(p)`. */
  predicate StartsWith(s: string, p: string) {
    |p| <= |s| && s[..|p|] == p
  }

  /** `s` ends with `t`. */
  predicate EndsWith(s: string, t: string) {
    |t| <= |s| && s[|s| - |t|..] == t
  }

  /** Left-to-right search for `t` in `s` from index `i`. */
  function FindFrom(s: string, t: string, i: nat): (r: Option<nat>)
    ensures r.Some? ==> i <= r.value && OccursAt(s, t, r.value)
    ensures r.Some? ==> forall j :: i <= j < r.value ==> !OccursAt(s, t, j)
    ensures r.None? ==> forall j :: i <= j ==> !OccursAt(s, t, j)
    decreases |s| - i
  {
    if i + |t| > |s| then None
    else if s[i..i + |t|] == t then Some(i)
    else FindFrom(s, t, i + 1)
  }

  /** JavaScript `s.indexOf(t)`, with -1 as `None`: the first occurrence. */
  function Find(s: string, t: string): (r: Option<nat>)
    ensures r.Some? <==> Contains(s, t)
    ensures r.Some? ==> OccursAt(s, t, r.value)
    ensures r.Some? ==> forall j :: 0 <= j < r.value ==> !OccursAt(s, t, j)
  {
    FindFrom(s, t, 0)
  }

  /** Whatever surrounds it, a string contains its middle part. */
  lemma ContainsMiddle(pre: string, t: string, post: string)
    ensures Contains(pre + t + post, t)
  {
    assert (pre + t + post)[|pre|..|pre| + |t|] == t;
    assert OccursAt(pre + t + post, t, |pre|);
  }

  /** JavaScript `s.substring(0, n)`. */
  function Take(s: string, n: nat): string {
    if n <= |s| then s[..n] else s
  }

  // ---------------------------------------------------------------- case

  /** `toLowerCase` on one character (ASCII letters only). */
  function LowerChar(c: char): char {
    if 'A' <= c <= 'Z' then (c as int + 32) as char else c
  }

  /** JavaScript `s.toLowerCase()`, restricted to ASCII letters. */
  function Lower(s: string): (r: string)
    ensures |r| == |s|
    ensures forall i :: 0 <= i < |s| ==> r[i] == LowerChar(s[i])
  {
    if s == [] then [] else [LowerChar(s[0])] + Lower(s[1..])
  }

  /** Case-insensitive `includes`, as every search box of the system does it. */
  predicate ContainsIgnoreCase(s: string, query: string) {
    Contains(Lower(s), Lower(query))
  }

  /** Text put in front keeps what a string contains. */
  lemma ContainsBehind(pre: string, s: string, t: string)
    requires Contains(s, t)
    ensures Contains(pre + s, t)
  {
    var i :| 0 <= i <= |s| && OccursAt(s, t, i);
    assert (pre + s)[|pre| + i..|pre| + i + |t|] == s[i..i + |t|];
    assert OccursAt(pre + s, t, |pre| + i);
  }

  // ---------------------------------------------------------------- trim

  /** The white-space characters `trim` removes (the ASCII subset). */
  predicate IsSpace(c: char) {
    c == ' ' || c == '\t' || c == '\n' || c == '\r'
  }

  function TrimStart(s: string): (r: string)
    ensures |r| <= |s| && r == s[|s| - |r|..]
    ensures r != [] ==> !IsSpace(r[0])
    ensures forall i :: 0 <= i < |s| - |r| ==> IsSpace(s[i])
  {
    if s != [] && IsSpace(s[0]) then
      var r := TrimStart(s[1..]);
      assert s[1..][|s| - 1 - |r|..] == s[|s| - |r|..];
      r
    else s
  }

  function TrimEnd(s: string): (r: string)
    ensures |r| <= |s| && r == s[..|r|]
    ensures r != [] ==> !IsSpace(r[|r| - 1])
    ensures forall i :: |r| <= i < |s| ==> IsSpace(s[i])
  {
    if s != [] && IsSpace(s[|s| - 1]) then
      var r := TrimEnd(s[..|s| - 1]);
      assert s[..|s| - 1][..|r|] == s[..|r|];
      r
    else s
  }

  /** JavaScript `s.trim()`. */
  function Trim(s: string): string {
    TrimEnd(TrimStart(s))
  }

  /** A string with no white space at either end. */
  predicate Trimmed(s: string) {
    s == [] || (!IsSpace(s[0]) && !IsSpace(s[|s| - 1]))
  }

  /** `trim` leaves nothing to trim, keeps a contiguous slice, and is the
      identity exactly on already-trimmed strings. */
  lemma TrimSpec(s: string)
    ensures Trimmed(Trim(s))
    ensures Contains(s, Trim(s))
    ensures Trimmed(s) <==> Trim(s) == s
  {
    TrimTrims(s);
    TrimIsSlice(s);
    if Trimmed(s) && s != [] {
      assert TrimStart(s) == s;
      assert TrimEnd(s) == s;
    }
  }

  lemma TrimTrims(s: string)
    ensures Trimmed(Trim(s))
  {
    var a := TrimStart(s);
    var b := TrimEnd(a);
    if b != [] {
      assert b[0] == a[0];
    }
  }

  lemma TrimIsSlice(s: string)
    ensures Contains(s, Trim(s))
  {
    var a := TrimStart(s);
    var b := TrimEnd(a);
    var i := |s| - |a|;
    PrefixOfSuffix(s, i, |b|);
    assert OccursAt(s, b, i);
  }

  lemma PrefixOfSuffix(s: string, i: nat, m: nat)
    requires i + m <= |s|
    ensures s[i..][..m] == s[i..i + m]
  {
    forall k | 0 <= k < m
      ensures s[i..][..m][k] == s[i..i + m][k]
    {
      assert s[i..][k] == s[i + k];
    }
  }

  /** A trailing newline makes no difference to `trim`. */
  lemma {:induction false} TrimNewline(s: string)
    ensures Trim(s + "\n") == Trim(s)
  {
    var t := s + "\n";
    if Blank(s) {
      assert Blank(t) by {
        forall i | 0 <= i < |t|
          ensures IsSpace(t[i])
        {
          if i < |s| {
            assert t[i] == s[i];
          }
        }
      }
      TrimEmptyIffBlank(s);
      TrimEmptyIffBlank(t);
    } else {
      TrimStartAppend(s, "\n");
      var a := TrimStart(s);
      var b := a + "\n";
      assert TrimStart(t) == b;
      assert b != [] && IsSpace(b[|b| - 1]);
      assert b[..|b| - 1] == a;
      assert TrimEnd(b) == TrimEnd(a);
    }
  }

  /** Text behind a non-blank string does not change where `trimStart` stops. */
  lemma {:induction false} TrimStartAppend(s: string, t: string)
    requires !Blank(s)
    ensures TrimStart(s + t) == TrimStart(s) + t
  {
    assert (s + t)[0] == s[0];
    if IsSpace(s[0]) {
      assert (s + t)[1..] == s[1..] + t;
      var j :| 0 <= j < |s| && !IsSpace(s[j]);
      assert s[1..][j - 1] == s[j];
      TrimStartAppend(s[1..], t);
    }
  }

  /** Only white space. */
  predicate Blank(s: string) {
    forall i :: 0 <= i < |s| ==> IsSpace(s[i])
  }

  /** `s.trim()` is empty exactly when `s` is blank. */
  lemma TrimEmptyIffBlank(s: string)
    ensures Trim(s) == "" <==> Blank(s)
  {
    var a := TrimStart(s);
    if a != [] {
      assert !IsSpace(a[0]);
    }
  }

  /** Adding white space in front of a trimmed string is undone by `trim`. */
  lemma TrimLeadingSpace(t: string)
    requires Trimmed(t)
    ensures Trim(" " + t) == t
  {
    assert (" " + t)[1..] == t;
    TrimSpec(t);
  }

  // ---------------------------------------------------------------- numbers

  function Digit(d: nat): char
    requires d < 10
  {
    "0123456789"[d]
  }

  predicate IsDigit(c: char) {
    '0' <= c <= '9'
  }

  function DigitValue(c: char): nat
    requires IsDigit(c)
  {
    c as int - '0' as int
  }

  /** JavaScript `String(n)` on a non-negative integer. */
  function Dec(n: nat): (r: string)
    ensures |r| >= 1
    ensures forall i :: 0 <= i < |r| ==> IsDigit(r[i])
    ensures n < 10 <==> |r| == 1
  {
    if n < 10 then [Digit(n)] else Dec(n / 10) + [Digit(n % 10)]
  }

  /** Reads a run of decimal digits back as a number. */
  function ParseDec(s: string): nat
    requires forall i :: 0 <= i < |s| ==> IsDigit(s[i])
  {
    if s == [] then 0 else ParseDec(s[..|s| - 1]) * 10 + DigitValue(s[|s| - 1])
  }

  /** Decimal printing is undone by parsing. */
  lemma {:induction false} DecRoundTrip(n: nat)
    ensures ParseDec(Dec(n)) == n
  {
    if n >= 10 {
      var d := Dec(n);
      assert d[..|d| - 1] == Dec(n / 10);
      assert d[|d| - 1] == Digit(n % 10);
      DigitRoundTrip(n % 10);
      DecRoundTrip(n / 10);
    } else {
      assert Dec(n)[..0] == [];
      DigitRoundTrip(n);
    }
  }

  lemma DigitRoundTrip(d: nat)
    requires d < 10
    ensures IsDigit(Digit(d)) && DigitValue(Digit(d)) == d
  {
  }

  /** Hence distinct numbers print differently. */
  lemma DecInjective(m: nat, n: nat)
    requires Dec(m) == Dec(n)
    ensures m == n
  {
    DecRoundTrip(m);
    DecRoundTrip(n);
  }

  /** JavaScript `String(n).padStart(2, '0')`. */
  function PadTwo(n: nat): (r: string)
    ensures n < 100 ==> |r| == 2
    ensures forall i :: 0 <= i < |r| ==> IsDigit(r[i])
    ensures ParseDec(r) == n
  {
    DecRoundTrip(n);
    if n < 10 then
      assert ['0'] + Dec(n) == ['0', Dec(n)[0]];
      "0" + Dec(n)
    else Dec(n)
  }

  // ---------------------------------------------------------------- join / split

  /** JavaScript `parts.join(sep)`. */
  function Join(parts: seq<string>, sep: string): string {
    if |parts| == 0 then ""
    else if |parts| == 1 then parts[0]
    else parts[0] + sep + Join(parts[1..], sep)
  }

  /** JavaScript `s.split(c)` for a one-character separator. */
  function Split(s: string, c: char): (r: seq<string>)
    ensures |r| >= 1
    ensures forall k :: 0 <= k < |r| ==> c !in r[k]
    ensures Join(r, [c]) == s
  {
    if s == [] then [""]
    else
      var rest := Split(s[1..], c);
      if s[0] == c then
        assert Join([""] + rest, [c]) == "" + [c] + Join(rest, [c]);
        [""] + rest
      else
        var r := [[s[0]] + rest[0]] + rest[1..];
        JoinHead(rest, [c], s[0]);
        r
  }

  lemma JoinHead(parts: seq<string>, sep: string, ch: char)
    requires |parts| >= 1
    ensures Join([[ch] + parts[0]] + parts[1..], sep) == [ch] + Join(parts, sep)
  {
    var q := [[ch] + parts[0]] + parts[1..];
    if |parts| > 1 {
      assert q[1..] == parts[1..];
    }
  }

  /** Every part can be found in the joined string. */
  lemma {:induction false} JoinContains(parts: seq<string>, sep: string, k: nat)
    requires k < |parts|
    ensures Contains(Join(parts, sep), parts[k])
    decreases |parts|
  {
    if |parts| == 1 {
      ContainsMiddle("", parts[0], "");
      assert "" + parts[0] + "" == parts[0];
    } else if k == 0 {
      ContainsMiddle("", parts[0], sep + Join(parts[1..], sep));
      assert "" + parts[0] + (sep + Join(parts[1..], sep)) == Join(parts, sep);
    } else {
      assert parts[1..][k - 1] == parts[k];
      JoinContains(parts[1..], sep, k - 1);
      ContainsBehind(parts[0] + sep, Join(parts[1..], sep), parts[k]);
    }
  }

  /** Joining one more part adds the separator and that part at the end. */
  lemma {:induction false} JoinSnoc(parts: seq<string>, sep: string, x: string)
    requires |parts| >= 1
    ensures Join(parts + [x], sep) == Join(parts, sep) + sep + x
    decreases |parts|
  {
    if |parts| == 1 {
      assert (parts + [x])[1..] == [x];
    } else {
      assert (parts + [x])[1..] == parts[1..] + [x];
      JoinSnoc(parts[1..], sep, x);
    }
  }

  /** Splitting a join undoes it, provided no part holds the separator. */
  lemma {:induction false} SplitJoin(parts: seq<string>, c: char)
    requires |parts| >= 1
    requires forall k :: 0 <= k < |parts| ==> c !in parts[k]
    ensures Split(Join(parts, [c]), c) == parts
  {
    if |parts| == 1 {
      SplitPrefix(parts[0], "", c);
      assert parts[0] + "" == parts[0];
      assert Split("", c) == [""];
      assert [parts[0] + ""] == parts;
    } else {
      var tail := Join(parts[1..], [c]);
      var rest := Split([c] + tail, c);
      assert Join(parts, [c]) == parts[0] + ([c] + tail);
      SplitPrefix(parts[0], [c] + tail, c);
      SplitJoin(parts[1..], c);
      SplitSep(tail, c);
      assert rest == [""] + parts[1..];
      assert rest[0] == "" && rest[1..] == parts[1..];
      assert parts[0] + "" == parts[0];
      assert [parts[0]] + parts[1..] == parts;
    }
  }

  /** Splitting `[c] + t` starts a fresh empty part. */
  lemma SplitSep(t: string, c: char)
    ensures Split([c] + t, c) == [""] + Split(t, c)
  {
    assert ([c] + t)[1..] == t;
  }

  /** A separator-free prefix is glued onto the first part of the rest. */
  lemma {:induction false} SplitPrefix(p: string, t: string, c: char)
    requires c !in p
    ensures Split(p + t, c) == [p + Split(t, c)[0]] + Split(t, c)[1..]
    decreases |p|
  {
    if p == [] {
      assert p + t == t;
      assert p + Split(t, c)[0] == Split(t, c)[0];
      assert [Split(t, c)[0]] + Split(t, c)[1..] == Split(t, c);
    } else {
      assert (p + t)[1..] == p[1..] + t;
      assert (p + t)[0] == p[0];
      SplitPrefix(p[1..], t, c);
      assert [p[0]] + (p[1..] + Split(t, c)[0]) == p + Split(t, c)[0];
    }
  }

  // ---------------------------------------------------------------- global replace

  /** Every match `matchAt` reports in `s` is longer than the replacement:
      `matchAt(s, i)` is the end of the match starting at `i`, if any. */
  predicate Shrinks(s: string, matchAt: (string, nat) -> Option<nat>, rep: string) {
    forall j: nat :: j < |s| && matchAt(s, j).Some? ==> j + |rep| < matchAt(s, j).value <= |s|
  }

  /** `s.replace(/pattern/g, rep)` from index `i` on: scanning left to
      right, each match found is replaced and scanning resumes after it. */
  function ReplaceAllFrom(s: string, i: nat, matchAt: (string, nat) -> Option<nat>, rep: string): (r: string)
    requires i <= |s| && Shrinks(s, matchAt, rep)
    ensures |r| <= |s| - i
    ensures (forall j: nat :: i <= j < |s| ==> matchAt(s, j).None?) ==> r == s[i..]
    ensures (exists j: nat :: i <= j < |s| && matchAt(s, j).Some?) ==> |r| < |s| - i
    decreases |s| - i
  {
    if i == |s| then ""
    else match matchAt(s, i)
      case Some(e) => rep + ReplaceAllFrom(s, e, matchAt, rep)
      case None =>
        var rest := ReplaceAllFrom(s, i + 1, matchAt, rep);
        assert s[i..] == [s[i]] + s[i + 1..];
        [s[i]] + rest
  }

  /** A global replace leaves the text alone exactly when nothing matches,
      and otherwise shortens it. */
  function ReplaceAll(s: string, matchAt: (string, nat) -> Option<nat>, rep: string): (r: string)
    requires Shrinks(s, matchAt, rep)
    ensures |r| <= |s|
    ensures r == s <==> forall j: nat :: j < |s| ==> matchAt(s, j).None?
  {
    ReplaceAllFrom(s, 0, matchAt, rep)
  }

  /** The first match at or after `i` is the one the replace turns into
      `rep`: the text before it is copied through and scanning resumes at
      its end. */
  lemma ReplaceFirstMatch(s: string, i: nat, j: nat, matchAt: (string, nat) -> Option<nat>, rep: string)
    requires i <= j < |s| && Shrinks(s, matchAt, rep)
    requires forall k: nat :: i <= k < j ==> matchAt(s, k).None?
    requires matchAt(s, j).Some?
    ensures ReplaceAllFrom(s, i, matchAt, rep) == s[i..j] + rep + ReplaceAllFrom(s, matchAt(s, j).value, matchAt, rep)
  {
    ReplaceQuietRun(s, i, j, matchAt, rep);
  }

  /** Where nothing matches, the replace copies the text through. */
  lemma {:induction false} ReplaceQuietRun(s: string, i: nat, k: nat, matchAt: (string, nat) -> Option<nat>, rep: string)
    requires i <= k <= |s| && Shrinks(s, matchAt, rep)
    requires forall j: nat :: i <= j < k ==> matchAt(s, j).None?
    ensures ReplaceAllFrom(s, i, matchAt, rep) == s[i..k] + ReplaceAllFrom(s, k, matchAt, rep)
    decreases k - i
  {
    if i < k {
      ReplaceQuietRun(s, i + 1, k, matchAt, rep);
      QuietStep(s, i, k, matchAt, rep);
    }
  }

  /** One copied character in front of a quiet run. */
  lemma QuietStep(s: string, i: nat, k: nat, matchAt: (string, nat) -> Option<nat>, rep: string)
    requires i < k <= |s| && Shrinks(s, matchAt, rep) && matchAt(s, i).None?
    requires ReplaceAllFrom(s, i + 1, matchAt, rep) == s[i + 1..k] + ReplaceAllFrom(s, k, matchAt, rep)
    ensures ReplaceAllFrom(s, i, matchAt, rep) == s[i..k] + ReplaceAllFrom(s, k, matchAt, rep)
  {
    var rest := ReplaceAllFrom(s, k, matchAt, rep);
    assert ReplaceAllFrom(s, i, matchAt, rep) == [s[i]] + (s[i + 1..k] + rest);
    assert s[i..k] == [s[i]] + s[i + 1..k];
  }
}

=== FILE: wrappers.dfy ===
/** Optional values and results shared by every module of the model.
    JavaScript's `null`/`undefined` become `None`; thrown errors and error
    responses become `Failure`. */
module Wrappers {

  datatype Option<+T> = None | Some(value: T) {

    /** The value, or `default` when absent (JavaScript's `x ?? default`). */
    function GetOr(default: T): T {
      match this
      case Some(v) => v
      case None => default
    }
  }

  datatype Result<+R, +E> = Success(value: R) | Failure(error: E)

  /** How a write to browser storage ended: stored, refused because the
      storage is full (`QuotaExceededError`), or failed otherwise. */
  datatype WriteOutcome = Written | QuotaExceeded | OtherError

  /** JavaScript truthiness of an optional string: present and non-empty. */
  predicate Truthy(s: Option<string>) {
    s.Some? && s.value != ""
  }

  /** JavaScript `a || b` on optional strings. */
  function OrElse(a: Option<string>, b: Option<string>): Option<string> {
    if Truthy(a) then a else b
  }

  /** JavaScript `a || fallback` where the fallback is a plain string. */
  function OrString(a: Option<string>, fallback: string): string {
    if Truthy(a) then a.value else fallback
  }
}
